=== FILE: README.md ===
# Q&A forum core in Dafny

A model of the server side of a question-and-answer forum (a FastAPI service
over a MongoDB store). Users register and log in and then:

- ask questions, which are moderated and tagged automatically;
- post answers, their own or generated by a language model;
- vote on answers, accept one per question, and delete their own posts;
- receive notifications when an answer arrives, when their answer is
  accepted, and when someone writes `@username`.

The model keeps the route handlers' decisions: the order of the checks, every
HTTP status and every detail message the handlers raise, and the documents each route writes, with
references between documents held as id values rather than id strings (the
`RawIds` module keeps the strings). It also
keeps the text processing:

- the `@name` scanner;
- tag extraction and merging;
- HTML and emoji stripping;
- sentence splitting;
- the keyword fallback of the toxicity check.

It proves what those decisions guarantee.

Modules:

- `Common` — `Option`, `Result`, HTTP status, `Distinct`.
- `Text` — ASCII character classes, `lower`, `strip`, `split`, `join`, substring search, decimal text.
- `ObjectIds` — the 24-hex-digit ObjectId text form and its round trips.
- `Schemas` — the request and document schemas: enumerations, length bounds, defaults.
- `Moderation` — `is_toxic`.
- `AutoTag` — `clean_text`, `is_good_single_word`, the two extractors, `auto_tag_question`.
- `AiAnswer` — `remove_html_and_emojis`, sentence splitting, `generate_chatgpt_answer`.
- `Records` — the document store and the invariant `Valid` that every route preserves.
- `Notify` — the notification routes and the three notification triggers.
- `Answers`, `Questions`, `Auth` — the route handlers.
- `RawIds` — the answer and question routes as written, with documents that store the id string taken from the request.

A route is a function from the store and its inputs to an `Outcome`, which pairs the new store with the response or the HTTP error. A route that raises leaves the store unchanged.

Anything the server asks of outside code is an explicit input:

- the clock and randomness;
- the toxicity classifier's score;
- the keyword ranker and the part-of-speech tagger;
- the chat service;
- password hashing;
- token decoding;
- the e-mail validator;
- the iteration order of a Python set.

## Model

| member | source | states |
|---|---|---|
| ObjectIds.ParseObjectId | routes/answer.py:377-383 | an id parameter is accepted exactly when it is 24 hex digits, in either case |
| ObjectIds.ParseOfFormat | routes/answer.py:108-110 | the id text stored for a document reads back as that document's id |
| ObjectIds.FormatOfParse | routes/answer.py:461-464 | the stored text of an accepted id is the request's spelling in lower case |
| ObjectIds.SameIdIffSameLower | routes/answer.py:377-383 | two accepted spellings name the same document exactly when they agree after lower-casing |
| Schemas.ParseRole | models/user.py:6-9 | only the three role strings are accepted, each naming its role |
| Schemas.RoleRoundTrip | models/user.py:6-9 | every role's string parses back to that role |
| Schemas.ParseVote | models/answer.py:57-59 | a string is accepted exactly when it is "upvote", "downvote" or "remove", and the accepted action is the one that string names |
| Schemas.VoteRoundTrip | models/answer.py:57-59 | every action's string parses back to that action |
| Schemas.ParseNotificationType | models/notification.py:6-10 | only the four type strings are accepted, each naming its type |
| Schemas.NotificationTypeRoundTrip | models/notification.py:6-10 | every notification type's string parses back to it |
| Schemas.QuestionUpdateBounds | models/question.py:35-38 | an update that sets every field obeys exactly the creation bounds; an empty update is accepted |
| Schemas.AnswerUpdateBounds | models/answer.py:30-31 | a content update obeys exactly the 10..10000 bound; an empty update is accepted |
| Moderation.IsToxic | models/toxic_spam_model.py:18-35 | the fallback flags exactly the texts whose lower-cased form contains a keyword, scoring 0.8 or 0.1; the classifier flags exactly when its score reaches the threshold |
| Moderation.AnyWordInIff | models/toxic_spam_model.py:22-25 | the early-return loop over the keywords finds one exactly when some keyword occurs |
| Moderation.SubstringNotWholeWord | models/toxic_spam_model.py:22-25 | matching is by substring: "whatever" is flagged |
| Moderation.FallbackIgnoresCase | models/toxic_spam_model.py:21-25 | lower-casing the text first never changes the verdict, and "SPAM" is flagged |
| Moderation.EmptyNeverFlagged | models/toxic_spam_model.py:18-26 | empty text is never flagged by the fallback |
| Moderation.ThresholdUse | models/toxic_spam_model.py:18-35 | the fallback ignores the threshold; the classifier flags a score of 0.5 at the default threshold and not 0.49 |
| AutoTag.RemoveAngleTags | models/auto_tag.py:24 | no lazy `<...>` match (one ending at the first `>` with no newline before it) starts anywhere in the result; text without `<` is left as it is; only characters of the input appear; the text up to the first `>` or newline survives when that stop is a newline |
| AutoTag.RemoveAngleTagsKeepsPlainPrefix | models/auto_tag.py:24 | text before the first `<` is kept unchanged in front of the cleaned rest |
| AutoTag.RemoveAngleTagsDropsTag | models/auto_tag.py:24 | a `<`, any characters other than `>` and newline, and a `>` at the front are deleted, and only they |
| AutoTag.KeptHeadAngleTags | models/auto_tag.py:24 | a character at which no match starts, put in front of a cleaned rest, leaves no match in the result |
| AutoTag.CleanText | models/auto_tag.py:23-26 | the cleaned text has only lower-case word characters and whitespace, and no whitespace at either end |
| AutoTag.CleanFixpoint | models/auto_tag.py:23-26 | text that is already clean is unchanged by cleaning |
| AutoTag.CleanTextIdempotent | models/auto_tag.py:23-26 | cleaning twice equals cleaning once |
| AutoTag.GoodWordFallbackIff | models/auto_tag.py:29-45 | without the language models a word is good exactly when it is alphabetic and longer than two characters |
| AutoTag.Firsts | models/auto_tag.py:57-64 | reference for the selection loop: distinct accepted items, each accepted item present once, nothing else |
| AutoTag.SelectCutsFirsts | models/auto_tag.py:57-64 | the loop returns the reference list cut at max(1, limit), because the bound is tested only after an append |
| AutoTag.SelectProperties | models/auto_tag.py:83-93 | the loop's result is the first max(1, limit) entries of the reference list: distinct, accepted, in first-occurrence order, and complete when it did not stop early |
| AutoTag.ExtractTagsFallback | models/auto_tag.py:48-66 | exactly the first max(1, topK) of the distinct alphabetic words longer than three characters of the cleaned text, in order of first occurrence |
| AutoTag.ExtractSingleWordTags | models/auto_tag.py:69-95 | without the models it is the fallback; with them, exactly the first max(1, topK) distinct normalised keywords that pass the part-of-speech test, in ranker order |
| AutoTag.AutoTagQuestion | models/auto_tag.py:98-101 | the tags become the extractor's list for the title and body (at most `max(1, top_k)` of them), and title and body are unchanged |
| AiAnswer.TagsGoneNoMatch | models/ai_generated_answer.py:35 | when every `<` is followed at once by `>` or has no `>` after it, `<[^>]+>` matches nowhere |
| AiAnswer.RemoveHtmlTags | models/ai_generated_answer.py:35 | no `<[^>]+>` match starts anywhere in the result; text without `<` is unchanged; nothing new is introduced |
| AiAnswer.RemoveHtmlTagsKeepsPlainPrefix | models/ai_generated_answer.py:35 | text before the first `<` is kept unchanged in front of the cleaned rest |
| AiAnswer.RemoveHtmlTagsDropsTag | models/ai_generated_answer.py:35 | a `<`, at least one character other than `>`, and a `>` at the front are deleted, and only they |
| AiAnswer.KeptHeadTagsGone | models/ai_generated_answer.py:35 | a character at which no match starts, put in front of a cleaned rest, leaves no match in the result |
| AiAnswer.FilterKeepsTagsGone | models/ai_generated_answer.py:36 | deleting characters other than `<` and `>` (such as astral-plane ones) creates no new match |
| AiAnswer.StripKeepsTagsGone | models/ai_generated_answer.py:37 | stripping whitespace creates no new match |
| AiAnswer.RemoveHtmlAndEmojis | models/ai_generated_answer.py:34-37 | the result is the tag removal, then the astral-plane filter, then the strip, in the source's order; it has no `<[^>]+>` match, no astral-plane character and no surrounding whitespace |
| AiAnswer.PlainTextOnlyStripped | models/ai_generated_answer.py:34-37 | text without tags or emoji is only stripped |
| AiAnswer.RemoveHtmlExamples | models/ai_generated_answer.py:35 | `<b>hi</b>` becomes `hi` |
| AiAnswer.EmptyBracketsKept | models/ai_generated_answer.py:35 | a stray `<>` is kept, since the pattern needs a character between the brackets |
| AiAnswer.JoinPiecesIsCollapse | models/ai_generated_answer.py:56-57 | joining the sentence pieces with spaces replaces each sentence break by one space |
| AiAnswer.KeptCount | models/ai_generated_answer.py:57 | `[:n]` keeps min(n, total) sentences, or all but the last -n when n is negative |
| AiAnswer.SplitOfJoinedPrefix | models/ai_generated_answer.py:56-57 | joining the first n sentences with spaces and splitting again gives back exactly those n sentences |
| AiAnswer.AnswerFromReply | models/ai_generated_answer.py:54-58 | the answer splits back into exactly the kept first sentences of the cleaned reply, is empty when none is kept, and is a prefix of the collapsed reply (all of it when every sentence is kept) |
| AiAnswer.GenerateAnswer | models/ai_generated_answer.py:39-60 | the fixed notice without a service, "Error: " plus the message on failure, otherwise exactly the first maxSentences sentences of the cleaned reply |
| AiAnswer.PiecesOfNoSpace | models/ai_generated_answer.py:56 | text without whitespace is one sentence |
| AiAnswer.SplitAfterSentence | models/ai_generated_answer.py:56 | a terminated sentence followed by whitespace is split off and the whitespace dropped |
| AiAnswer.SplitExample | models/ai_generated_answer.py:56 | "Hi.   Bye!" splits into "Hi." and "Bye!" |
| AiAnswer.PlainReply | models/ai_generated_answer.py:54-57 | cleaning leaves a plain stripped reply as it is, so the answer is made of that reply's own first sentences |
| Records.FindUserByName | routes/auth.py:69 | the user found has that name; none is found exactly when no user has it |
| Records.FindUserById | routes/notification.py:174-175 | the user found has that id; none is found exactly when no user has it |
| Records.NameOr | routes/notification.py:174-175 | the sender's username when the sender exists, the fallback otherwise |
| Records.NameOrOfMember | routes/question.py:202-209 | among users with distinct ids, the name found for a registered user is that user's own username |
| Records.RemoveAll | routes/answer.py:461-464 | `$pull` keeps exactly the other elements, in order |
| Records.AcceptedAnswerIff | routes/answer.py:407-423 | in a valid store a question's accepted answer is the answer of that question marked accepted |
| Records.AtMostOneAccepted | routes/answer.py:407-417 | in a valid store a question has at most one accepted answer |
| Records.AnswerCountIsAnswersOf | routes/question.py:211 | a question's answer list is as long as the set of answers pointing to it |
| Notify.MentionsFromWords | routes/notification.py:49-50 | every name the reference finds is a non-empty run of word characters |
| Notify.MentionsFromNone | routes/notification.py:49-50 | text with no `@` directly followed by a word character mentions nobody |
| Notify.ScanIsMentionsFrom | routes/notification.py:49-50 | the left-to-right scan equals the reference |
| Notify.ExtractMentions | routes/notification.py:47-51 | one name per `@` followed by a word character, each a run of word characters |
| Notify.SingleMention | routes/notification.py:47-51 | a text whose only `@` is directly followed by a word that a non-word character ends mentions exactly that word |
| Notify.MentionInAddress | routes/notification.py:47-51 | an e-mail address `user@host.domain` mentions its host label ("a@b.com" mentions "b") |
| Notify.CreateNotification | routes/notification.py:20-44 | a self-notification writes nothing; any other call appends one unread notification carrying the call's fields under the store's next id, which no earlier notification has, and touches nothing else |
| Notify.Unread | routes/notification.py:107-111 | unread never exceeds total, and is zero when all are read |
| Notify.DeliverCounts | routes/notification.py:20-44 | every call not addressed to its sender adds exactly one notification, unread, for its recipient |
| Notify.DeliverSelfCalls | routes/notification.py:43-44 | calls addressed to their senders write nothing |
| Notify.DeliverValid | models/notification.py:17 | delivering calls whose messages fit 500 characters keeps the store valid |
| Notify.NewAnswerCalls | routes/notification.py:165-186 | nothing for an unknown question, otherwise one call to its author naming the answerer |
| Notify.AcceptedCalls | routes/notification.py:188-214 | nothing for an unknown answer or question, otherwise one call to the answer's author |
| Notify.Found | routes/notification.py:226-231 | the reference list: the names that find a user, in order, duplicates kept; all names when all find one, none when none does |
| Notify.MentionCallsFor | routes/notification.py:226-241 | the k-th call goes to the user the k-th found name finds, one call per found name |
| Notify.MentionCalls | routes/notification.py:216-241 | no calls without mentions; otherwise exactly one call per mention occurrence that finds a user, duplicates included, in order, each to that user with the sender's mention message |
| Notify.SelfMentionSilent | routes/notification.py:216-241 | mentioning only oneself notifies nobody |
| Notify.NameBound | models/user.py:13 | the sender name in a message has at most 50 characters |
| Notify.NewAnswerMessagesValid | routes/notification.py:174-177 | the new-answer message fits the 500-character bound |
| Notify.AcceptedMessagesValid | routes/notification.py:202-205 | the accepted-answer message fits the 500-character bound |
| Notify.MentionMessagesValid | routes/notification.py:223-232 | the mention message fits the 500-character bound |
| Notify.FindOwned | routes/notification.py:127-131 | the index found holds the caller's notification with that id; none exactly when there is none |
| Notify.MarkOwnedRead | routes/notification.py:127-133 | the caller's notification with that id alone becomes read; nothing happens exactly when the caller has none with that id |
| Notify.MarkNotificationRead | routes/notification.py:118-146 | every failure is 400 and writes nothing; success exactly when the id parses and names the caller's notification, which alone becomes read |
| Notify.MarkNotificationReadIntended | routes/notification.py:126-139 | 400 for a malformed id, 404 for one naming no notification of the caller, and success as the route has it |
| Notify.MissingNotificationAnswers400 | routes/notification.py:126-146 | a well-formed unknown id gets 400 from the route as written and 404 from the intended route |
| Notify.MarkNotificationReadValid | routes/notification.py:126-146 | marking one notification read keeps the store valid |
| Notify.MarkAllRead | routes/notification.py:148-162 | every notification of the caller becomes read, the others unchanged; the count is the caller's previous unread count |
| Notify.MarkAll | routes/notification.py:155-158 | exactly the caller's notifications are set to read, in place |
| Notify.MarkAllCounts | routes/notification.py:155-158 | afterwards the caller has nothing unread; totals and other users' unread counts are unchanged |
| Notify.Stats | routes/notification.py:100-116 | total counts the caller's notifications and unread the caller's unread ones, never more than total |
| Notify.MarkAllReadValid | routes/notification.py:148-162 | marking all read keeps the store valid and leaves the caller's stats at zero unread, the same total |
| Answers.InsertAnswer | routes/answer.py:91-110 | the answer is stored under the next id and that id appended to its question's list; nothing else changes |
| Answers.InsertAnswerValid | routes/answer.py:91-110 | inserting a new unaccepted answer to a stored question keeps the store valid |
| Answers.Completed | routes/answer.py:116-121 | a notification failure keeps a prefix of the planned calls; without one, all of them |
| Answers.AnswerVerdict | routes/answer.py:78-89 | without a moderator the answer is clean with score 0; otherwise the moderator's verdict |
| Answers.CreateAnswer | routes/answer.py:53-143 | 422, 400, 404 and 400 (flagged) in that order, each writing nothing; success exactly otherwise, storing the answer under its question; only notifications are added, as `Answers.CreateAnswerNotifies` details |
| Answers.NewAnswerCallsValid | routes/answer.py:116-121 | the notifications a new answer plans all have messages that fit |
| Answers.CreateAnswerValid | routes/answer.py:53-143 | creating an answer keeps the store valid |
| Answers.CreateAnswerNotifies | routes/answer.py:114-121 | each completed planned call (the question's author, then each mention that finds a user) not addressed to the caller adds one unread notification for its recipient; nothing else is added; without a fault the author, if not the caller, gains one |
| Answers.NotificationFaultHarmless | routes/answer.py:115-121 | a failure while notifying changes neither the response nor the questions and answers written |
| Answers.GeneratorOutcomes | routes/answer.py:178-186 | a generator failure is refused; the "not available" notice is not |
| Answers.CreateAiAnswer | routes/answer.py:146-230 | 400, 404, 403 for guests, 500 for refused output, each writing nothing; success stores the generated text with the suffix under the question |
| Answers.CreateAiAnswerValid | routes/answer.py:146-230 | creating a generated answer keeps the store valid |
| Answers.CreateAiAnswerNotifies | routes/answer.py:212-216 | nobody but the question's author is notified; with no fault, the author gains one unread notification unless they are the caller |
| Answers.UnavailableNoticeStored | routes/answer.py:178-207 | without a configured service a user's request stores the fixed notice as an answer |
| Answers.DisplayName | routes/answer.py:258-261 | the author's username, or "Unknown" for a missing author |
| Answers.AiAnswerNameAgrees | routes/answer.py:228 | the name in the response equals the name later listed with the answer |
| Answers.VoteAnswer | routes/answer.py:318-366 | 422, 400, 404, 400 (own answer), each writing nothing; success changes only that answer's votes by the action's delta |
| Answers.VoteAnswerValid | routes/answer.py:347-357 | voting keeps the store valid |
| Answers.VotesAccumulate | routes/answer.py:347-358 | a second upvote by the same user counts again and a downvote undoes an upvote |
| Answers.ClearAccepted | routes/answer.py:408-411 | exactly the question's answers are unmarked; the others unchanged |
| Answers.AcceptStep | routes/answer.py:407-423 | after the writes, the chosen answer alone among its question's answers is accepted and is the question's accepted answer |
| Answers.AcceptStepValid | routes/answer.py:407-423 | the accept writes keep the store valid |
| Answers.AcceptStepTwice | routes/answer.py:407-423 | repeating the accept writes changes nothing |
| Answers.AcceptAnswer | routes/answer.py:369-428 | 400, 404 and 403 (not the question's author), each writing nothing; success exactly otherwise: the answer is the only accepted one of its question, the question records it, and only notifications are added, as `Answers.AcceptAnswerNotifies` details |
| Answers.AcceptAnswerNotifies | routes/answer.py:426 | the notifications grow by exactly the planned accepted-answer call: the answer's author gains one unread notification unless they are the caller, and nobody else's counts change |
| Answers.AcceptAnswerValid | routes/answer.py:369-428 | accepting keeps the store valid |
| Answers.AcceptLeavesOne | routes/answer.py:407-417 | after an accept, an answer of that question is accepted exactly when it is the chosen one |
| Answers.AcceptIdempotent | routes/answer.py:407-423 | accepting the same answer twice leaves questions and answers as after once |
| Answers.DeleteStep | routes/answer.py:460-474 | the answer is removed, its id pulled from its question's list, and the question's acceptance cleared if it was this answer |
| Answers.DeleteStepValid | routes/answer.py:460-474 | the delete writes keep the store valid |
| Answers.DeleteAnswer | routes/answer.py:431-474 | 400, 404 and 403 (neither author nor admin), each writing nothing; success exactly otherwise, removing the answer, pulling its id from its question and clearing the question's accepted answer if it was this one, with every other field and document unchanged |
| Answers.DeleteAnswerValid | routes/answer.py:431-474 | deleting an answer keeps the store valid |
| Questions.MergeTags | routes/question.py:57-61 | merged tags are distinct, drawn from the given and suggested tags, as many as the distinct tags of both lists up to 10, non-empty when tags were given, and all of them when there are at most 10 |
| Questions.EveryOrderReachable | routes/question.py:61 | whatever order the set yields, the model can produce the first 10 of it |
| Questions.InsertQuestion | routes/question.py:64-77 | the question is stored under the next id; nothing else changes |
| Questions.InsertQuestionValid | routes/question.py:64-77 | inserting a schema-valid question without answers keeps the store valid |
| Questions.CreateQuestion | routes/question.py:33-101 | 422, 500 when moderation fails, 400 when flagged, each writing nothing; success stores a question with no answers whose tags are `Questions.MergeTags` of the given and the suggested tags (distinct, 1..10); only notifications are added, as `Questions.CreateQuestionNotifies` details |
| Questions.CreateQuestionValid | routes/question.py:33-101 | creating a question keeps the store valid |
| Questions.CreateQuestionNotifies | routes/question.py:82-88 | each call planned from the mentions in title and description that is not addressed to the asker adds one unread notification for its recipient, and nothing else is added |
| Questions.Summary | routes/question.py:201-213 | a summary carries the question's id, title, tags and author id, and the author's username, or "Unknown" when no user has that id |
| Questions.SummaryAgreesWithAnswers | routes/question.py:211-212 | in a valid store the count is the number of answers and "has accepted" holds exactly when one is accepted |
| Questions.GetQuestion | routes/question.py:218-251 | 400 for a malformed id, 404 for an unknown one, success exactly otherwise with the question's fields, its answer count and the author's username, or "Unknown" when no user has that id |
| Questions.GetQuestionIgnoresCase | routes/question.py:223-224 | two spellings that differ in letter case fetch the same result |
| Questions.DeleteQuestionStep | routes/question.py:302-307 | the question and exactly the answers pointing to it are removed |
| Questions.DeleteQuestion | routes/question.py:274-307 | 400, 404, 403 (neither author nor admin), each writing nothing; success removes the question and its answers |
| Questions.DeleteQuestionStepValid | routes/question.py:302-307 | removing a question with its answers keeps the store valid |
| Questions.DeleteQuestionValid | routes/question.py:274-307 | deleting a question keeps the store valid |
| Questions.FallbackSearch | routes/question.py:109-139 | at most 10 results in hit order, each with the title, the tags, the author's username (or "Unknown"), a description cut to 200 characters plus "...", the answer count and score 0.5 |
| Questions.PreviewCut | routes/question.py:132 | a description of at most 200 characters is kept whole; a longer one is its first 200 plus "..." |
| Auth.Register | routes/auth.py:21-61 | 422, 400 for a taken username, 400 for a used e-mail (after the validator's normalisation), each writing nothing; success appends an active `user` with the normalised address under a fresh id |
| Auth.SameNormalFormTaken | models/user.py:26-29 | once an address is registered, any spelling the validator normalises to it is refused as "Email already registered" |
| Auth.RegisterValid | routes/auth.py:21-61 | registering keeps the store valid |
| Auth.Login | routes/auth.py:64-110 | unknown user and wrong password give the same 401 "Incorrect username or password"; a found user with the right password and `is_active` false gets 401 "Account is deactivated"; a found user with the right password who is not marked inactive gets a 30-minute bearer token with their id and role |
| Auth.LoginIff | routes/auth.py:69-89 | with unique usernames, login succeeds exactly for a stored, not deactivated user whose password checks |
| Auth.RegisterThenLogin | routes/auth.py:21-110 | a user who has just registered can log in with that password |
| Auth.LoginAsWritten | routes/auth.py:84-110 | a document without `is_active` passes the active check and then fails with 500; otherwise as the corrected login |
| Auth.LoginMissingActiveField | routes/auth.py:84-108 | a concrete user without `is_active` gets 500 as written and a token as intended |
| Auth.LoginAgreesWhenFieldPresent | routes/auth.py:84-110 | where every user has the field, the two agree |
| Auth.GetCurrentUser | routes/auth.py:113-155 | every failure is 401; success exactly for claims whose subject names a stored user |
| Auth.LoginTokenAuthenticates | routes/auth.py:92-145 | the token a login issues authenticates the same user |
| Auth.DeactivatedTokenAccepted | routes/auth.py:134-145 | a deactivated user's token is still accepted |
| Auth.CountGuests | routes/auth.py:168-171 | the count is zero exactly when nobody is a guest |
| Auth.UpgradeGuests | routes/auth.py:158-176 | every guest becomes a user, nobody else changes, the count is the number of guests |
| Auth.UpgradeGuestsValid | routes/auth.py:158-176 | the upgrade keeps the store valid |
| Auth.UpgradeGuestsIdempotent | routes/auth.py:168-176 | a second run changes nothing and reports zero |
| RawIds.CreateAnswerAsWritten | routes/answer.py:91-110 | success exactly for a stored question; the answer keeps the request's spelling of the question id |
| RawIds.AcceptAsWritten | routes/answer.py:391-423 | only answers whose stored question-id text equals the answer's are unmarked |
| RawIds.DeleteAnswerAsWritten | routes/answer.py:460-474 | the pull removes the request's spelling from the question's list |
| RawIds.DeleteQuestionAsWritten | routes/question.py:302-307 | only answers storing exactly the request's spelling are removed |
| RawIds.LowerSpellingSameId | routes/answer.py:377-383 | the lower-case spelling of an accepted id names the same id |
| RawIds.AcceptStored | routes/answer.py:407-417 | accepting through any spelling of the answer id clears exactly the answers storing the same question-id text |
| RawIds.CreateBoth | routes/answer.py:91-110 | two answers posted under two spellings of a question id each keep the spelling they were posted with |
| RawIds.AcceptBoth | routes/answer.py:407-417 | accepting in turn two answers storing different spellings of one question id leaves both accepted |
| RawIds.TwoAcceptedAnswers | routes/answer.py:91-93 | two answers posted under two spellings of a question id and then accepted in turn, through any spellings of their ids, end up accepted together |
| RawIds.TwoAcceptedExample | routes/answer.py:408-411 | in any fresh store holding question 10, posting under "00…0A" and "00…0a" and accepting answers 0 and 1 leaves both accepted |
| RawIds.DanglingAfterDelete | routes/answer.py:461-464 | deleting an answer through an upper-case spelling leaves its id in the question's list |
| RawIds.DanglingExample | routes/answer.py:461-464 | a concrete store where that happens |
| RawIds.OrphansAfterQuestionDelete | routes/question.py:305-307 | an answer storing another spelling of the question id survives the question's deletion |
| RawIds.SpellingIrrelevant | routes/answer.py:377-474 | in the model by value, accept and both deletes give the same result for every spelling of an id |

## Left out

- `get_notifications`, `get_questions`, `get_all_answers`, `get_answers_for_question` and `get_answer`: these list routes only read, sort and paginate. Their per-item shaping is modelled by `Questions.Summary` and `Answers.DisplayName`.
- Pagination (`skip`, `limit`) and the MongoDB text query of the search route. The matching question ids are an input to `Questions.FallbackSearch`.
- The semantic (AI) search path and the `suggest-tags` route. Both rank with language models whose output cannot be stated.
- Password hashing, JWT encoding and decoding, and the e-mail validator. Their results are parameters (`hash`, `verify`, `TokenCheck`, `normalize`).
- Creation and update timestamps. They come from the clock and no route's decision depends on them.
- Concurrency between requests. Each route is one atomic step.
- Database failures and the outer `except Exception` handlers that turn them into 500. The store never fails in the model.
- The 96-bit bound of ObjectIds. Ids are unbounded naturals minted from a counter.
- The `user_role` and `username` decoration of answer responses beyond the display name.
- The `get_current_user` dependency inside the other routes. The authenticated caller is a parameter (`me`); `Auth.GetCurrentUser` models the dependency itself.
- The admin check of the guest upgrade. It raises nothing in the source, so `Auth.UpgradeGuests` takes no caller.
- The copies of the tagger, the search and the answer generator in other directories. They duplicate the modelled modules.
- The classifier's toxicity score, the chat service, the keyword ranker and the part-of-speech tagger. They are inputs (`Moderator`, `Backend`, `Tagger`).
- Python set iteration order. It is the `order` input of `Questions.MergeTags`.
- Character handling is ASCII only. `\w`, `isalpha`, `isdigit`, `lower` and `isspace` are modelled on ASCII characters; other code points are treated as non-letters.
- The body of a 422 response. The framework answers a failed schema check with its own list of validation errors; the model states only the status, and its detail strings for 422 are placeholders.
- Notify.CreateNotification: assumes the `await` on `insert_one` (routes/notification.py:43-44) completes normally. The database module is not part of this model, and the same collections are used synchronously elsewhere. With a synchronous driver the `await` would raise after the insert, and `create_question` and `accept_answer` would answer 500 after their writes whenever a notification is created.
- Answers.CreateAnswer, Answers.AcceptAnswer, Answers.DeleteAnswer and Questions.DeleteQuestion: idealised by value. Their documents hold the referenced id as a value where the source stores or matches the request's id string (answer.py:93, answer.py:422, answer.py:462, question.py:306); the string behaviour is modelled by `RawIds` and listed under Findings.
- RawIds.CreateAnswerAsWritten: leaves out the schema check, moderation and notification steps, which the by-value `Answers.CreateAnswer` covers; it models only the question lookup, the inserted answer and the id strings both documents store.
- RawIds.AcceptAsWritten: leaves out the author check and the notification step, which the by-value model covers.
- RawIds.DeleteAnswerAsWritten: leaves out the author check, which the by-value model covers.
- RawIds.DeleteQuestionAsWritten: leaves out the author check, which the by-value model covers.

## Findings

| source | as written | input that shows it | evidently intended | confidence | as-written member | corrected member |
|---|---|---|---|---|---|---|
| routes/answer.py:91-93 | the new answer stores the question id string from the request, and accept clears other answers by matching that string (answer.py:408-411) | post two answers to one question, once with the id in lower case and once with a hex letter in upper case, then accept each | at most one accepted answer per question | not executed | RawIds.TwoAcceptedAnswers | Records.AtMostOneAccepted |
| routes/answer.py:461-464 | `$pull` removes the answer id string from the request | delete an answer using an upper-case spelling of its id | the id leaves the question's answer list | not executed | RawIds.DanglingExample | Answers.DeleteAnswerValid |
| routes/question.py:305-307 | answers are deleted by matching the request's question id string | an answer created with another spelling of the question id | every answer of the question is deleted | not executed | RawIds.OrphansAfterQuestionDelete | Questions.DeleteQuestionValid |
| routes/auth.py:108 | the active check reads `is_active` with a default, the response reads it by key | a user document without `is_active` logging in with the right password | login succeeds, as the check already allowed | not executed | Auth.LoginMissingActiveField | Auth.Login |
| routes/notification.py:135-146 | the 404 for an unknown notification is caught by the bare `except` and answered as 400 | a well-formed id that names no notification of the caller | 404 "Notification not found" | not executed | Notify.MissingNotificationAnswers400 | Notify.MarkNotificationReadIntended |

=== FILE: ai_answer.dfy ===
/** The AI-generated answer: cleaning of the language model's reply (HTML tags
    and astral-plane characters removed, whitespace stripped), the split into
    sentences, the cut at `max_sentences`, and the fixed texts returned when
    the service is missing or fails. The chat-completion call itself is an
    input: `Backend` says what it produced. */
module AiAnswer {
  import opened Common
  import opened Text

  // ------------------------------------------------ remove_html_and_emojis

  /** Where a `<[^>]+>` match that starts at the front of `s` ends: the first
      `>` after the `<`, provided at least one character lies between them. */
  function HtmlTagEnd(s: string): (r: Option<nat>)
    ensures r.Some? ==> 1 < r.value < |s| && s[0] == '<' && s[r.value] == '>'
  {
    if |s| > 0 && s[0] == '<' then
      var j := FindFirst(s, 1, c => c == '>');
      if 1 < j < |s| then Some(j) else None
    else None
  }

  /** `re.search(r'<[^>]+>', s)` finds nothing: no match starts anywhere. */
  predicate NoHtmlTag(s: string) {
    forall i | 0 <= i < |s| :: HtmlTagEnd(s[i..]).None?
  }

  /** Every `<` left in `s` is either followed at once by `>` or has no `>`
      anywhere after it: the two ways `<[^>]+>` can fail to match there. */
  predicate TagsGone(s: string) {
    forall i | 0 <= i < |s| && s[i] == '<' ::
      (i + 1 < |s| && s[i + 1] == '>') || '>' !in s[i + 1..]
  }

  /** `TagsGone` is the statement that `<[^>]+>` matches nowhere in `s`. */
  lemma TagsGoneNoMatch(s: string)
    requires TagsGone(s)
    ensures NoHtmlTag(s)
  {
    forall i | 0 <= i < |s|
      ensures HtmlTagEnd(s[i..]).None?
    {
      var t := s[i..];
      if t[0] == '<' {
        assert t[1..] == s[i + 1..];
        if i + 1 < |s| && s[i + 1] == '>' {
          assert t[1] == '>';
        } else {
          assert forall k | 1 <= k < |t| :: t[k] == t[1..][k - 1];
        }
      }
    }
  }

  /** `re.sub(r'<[^>]+>', '', s)`: no match is left behind, text without `<`
      is left as it is, and nothing new is introduced. */
  function RemoveHtmlTags(s: string): (r: string)
    ensures TagsGone(r)
    ensures NoHtmlTag(r)
    ensures (forall c | c in s :: c != '<') ==> r == s
    ensures forall c | c in r :: c in s
    ensures |s| > 0 && s[0] != '<' ==> |r| > 0 && r[0] == s[0]
    decreases |s|
  {
    if s == [] then []
    else
      match HtmlTagEnd(s)
      case Some(j) =>
        assert s[0] in s;
        assert forall c | c in s[j + 1..] :: c in s;
        RemoveHtmlTags(s[j + 1..])
      case None =>
        assert forall c | c in s[1..] :: c in s;
        var rest := RemoveHtmlTags(s[1..]);
        KeptHeadTagsGone(s, rest);
        TagsGoneNoMatch([s[0]] + rest);
        [s[0]] + rest
  }

  /** Text before the first `<` is kept as it is. */
  lemma {:induction false} RemoveHtmlTagsKeepsPlainPrefix(a: string, b: string)
    requires forall c | c in a :: c != '<'
    ensures RemoveHtmlTags(a + b) == a + RemoveHtmlTags(b)
    decreases |a|
  {
    var s := a + b;
    var x := RemoveHtmlTags(b);
    if a == [] {
      assert s == b;
    } else {
      assert a[0] in a;
      assert s[0] == a[0];
      assert HtmlTagEnd(s) == None;
      assert s[1..] == a[1..] + b;
      assert forall c | c in a[1..] :: c in a;
      RemoveHtmlTagsKeepsPlainPrefix(a[1..], b);
      var y := RemoveHtmlTags(s[1..]);
      assert y == a[1..] + x;
      assert RemoveHtmlTags(s) == [s[0]] + y;
      assert [s[0]] + (a[1..] + x) == ([s[0]] + a[1..]) + x;
      assert [s[0]] + a[1..] == a;
    }
  }



  /** A whole tag at the front, `<` then at least one character other than
      `>` then `>`, is deleted and nothing else with it. */
  lemma RemoveHtmlTagsDropsTag(t: string, b: string)
    requires |t| >= 2 && t[0] == '<' && '>' !in t
    ensures RemoveHtmlTags(t + ">" + b) == RemoveHtmlTags(b)
  {
    var s := t + ">" + b;
    assert s[|t|] == '>';
    assert forall k | 1 <= k < |t| :: s[k] == t[k];
    assert FindFirst(s, 1, c => c == '>') == |t|;
    assert s[|t| + 1..] == b;
  }

  /** A character that no match starts at, put in front of the cleaned rest,
      keeps the rest free of matches. */
  lemma KeptHeadTagsGone(s: string, rest: string)
    requires s != [] && HtmlTagEnd(s).None?
    requires TagsGone(rest) && forall c | c in rest :: c in s[1..]
    requires |s| > 1 && s[1] != '<' ==> |rest| > 0 && rest[0] == s[1]
    ensures TagsGone([s[0]] + rest)
  {
    var r := [s[0]] + rest;
    forall i | 0 <= i < |r| && r[i] == '<'
      ensures (i + 1 < |r| && r[i + 1] == '>') || '>' !in r[i + 1..]
    {
      if i == 0 {
        var j := FindFirst(s, 1, c => c == '>');
        assert r[1..] == rest;
        if j == |s| {
          assert forall c | c in s[1..] :: c != '>';
        } else {
          assert j == 1;
        }
      } else {
        assert r[i] == rest[i - 1];
        assert r[i + 1..] == rest[i..];
      }
    }
  }

  /** Removing characters other than `<` and `>` leaves no new match. */
  lemma {:induction false} FilterKeepsTagsGone(s: string, p: char -> bool)
    requires p('<') && p('>')
    requires TagsGone(s)
    ensures TagsGone(Filter(s, p))
    decreases |s|
  {
    if s != [] {
      var tail := s[1..];
      SuffixKeepsTagsGone(s, 1);
      FilterKeepsTagsGone(tail, p);
      var rest := Filter(tail, p);
      var r := Filter(s, p);
      if p(s[0]) {
        assert r == [s[0]] + rest;
        forall i | 0 <= i < |r| && r[i] == '<'
          ensures (i + 1 < |r| && r[i + 1] == '>') || '>' !in r[i + 1..]
        {
          assert r[1..] == rest;
          if i == 0 {
            if |s| > 1 && s[1] == '>' {
              assert Filter(tail, p) == [s[1]] + Filter(tail[1..], p);
            } else {
              assert '>' !in tail;
            }
          } else {
            assert r[i] == rest[i - 1];
            assert r[i + 1..] == rest[i..];
          }
        }
      } else {
        assert r == rest;
      }
    }
  }

  /** Dropping a trailing whitespace character leaves no new match. */
  lemma DropSpaceKeepsTagsGone(s: string)
    requires |s| > 0 && IsSpace(s[|s| - 1]) && TagsGone(s)
    ensures TagsGone(s[..|s| - 1])
  {
    var r := s[..|s| - 1];
    forall i | 0 <= i < |r| && r[i] == '<'
      ensures (i + 1 < |r| && r[i + 1] == '>') || '>' !in r[i + 1..]
    {
      assert s[i] == '<';
      if i + 1 < |s| && s[i + 1] == '>' {
        assert i + 1 < |r|;
      } else {
        assert r[i + 1..] <= s[i + 1..];
      }
    }
  }

  /** `str.rstrip()` leaves no new match. */
  lemma {:induction false} RStripKeepsTagsGone(s: string)
    requires TagsGone(s)
    ensures TagsGone(RStrip(s))
    decreases |s|
  {
    if |s| > 0 && IsSpace(s[|s| - 1]) {
      DropSpaceKeepsTagsGone(s);
      RStripKeepsTagsGone(s[..|s| - 1]);
    }
  }

  /** A suffix of text free of matches is free of them too. */
  lemma SuffixKeepsTagsGone(s: string, k: nat)
    requires k <= |s| && TagsGone(s)
    ensures TagsGone(s[k..])
  {
    var r := s[k..];
    forall i | 0 <= i < |r| && r[i] == '<'
      ensures (i + 1 < |r| && r[i + 1] == '>') || '>' !in r[i + 1..]
    {
      assert r[i] == s[k + i];
      assert r[i + 1..] == s[k + i + 1..];
    }
  }

  /** `str.strip()` leaves no new match. */
  lemma StripKeepsTagsGone(s: string)
    requires TagsGone(s)
    ensures TagsGone(Strip(s))
  {
    var l := LStrip(s);
    SuffixKeepsTagsGone(s, |s| - |l|);
    RStripKeepsTagsGone(l);
  }

  /** Code points below U+10000 (the basic multilingual plane). */
  predicate InBmp(c: char) { (c as int) < 0x1_0000 }

  /** `remove_html_and_emojis`: no `<[^>]+>` match, no character from U+10000
      to U+10FFFF and no whitespace at either end remains. */
  function RemoveHtmlAndEmojis(s: string): (r: string)
    ensures NoHtmlTag(r)
    ensures forall c | c in r :: InBmp(c)
    ensures Stripped(r)
    ensures r == Strip(Filter(RemoveHtmlTags(s), InBmp))
  {
    var kept := Filter(RemoveHtmlTags(s), InBmp);
    FilterKeepsTagsGone(RemoveHtmlTags(s), InBmp);
    StripKeepsTagsGone(kept);
    TagsGoneNoMatch(Strip(kept));
    Strip(kept)
  }

  /** Text with no `<` and no astral-plane character is only stripped. */
  lemma PlainTextOnlyStripped(s: string)
    requires forall c | c in s :: c != '<' && InBmp(c)
    ensures RemoveHtmlAndEmojis(s) == Strip(s)
  {
    assert RemoveHtmlTags(s) == s;
  }

  /** A `<b>` tag and its closing tag go. */
  lemma RemoveHtmlExamples()
    ensures RemoveHtmlTags("<b>hi</b>") == "hi"
  {
    assert HtmlTagEnd("<b>hi</b>") == Some(2);
    assert "<b>hi</b>"[3..] == "hi</b>";
    assert HtmlTagEnd("hi</b>") == None;
    assert "hi</b>"[1..] == "i</b>";
    assert HtmlTagEnd("i</b>") == None;
    assert "i</b>"[1..] == "</b>";
    assert HtmlTagEnd("</b>") == Some(3);
    assert "</b>"[4..] == "";
  }

  /** `<[^>]+>` needs a character between the brackets, so `<>` stays. */
  lemma EmptyBracketsKept()
    ensures RemoveHtmlTags("<>") == "<>"
  {
    assert HtmlTagEnd("<>") == None;
    assert "<>"[1..] == ">";
    assert HtmlTagEnd(">") == None;
    assert ">"[1..] == "";
  }

  // ---------------------------------------------------- sentence splitting

  predicate IsTerminator(c: char) { c == '.' || c == '!' || c == '?' }

  /** `re.split(r'(?<=[.!?])\s+', s)`, with `afterTerm` telling whether the
      character just before `s` is a sentence terminator: a break is a maximal
      whitespace run that directly follows `.`, `!` or `?`. */
  function Pieces(s: string, afterTerm: bool): (r: seq<string>)
    ensures |r| >= 1
    decreases |s|
  {
    if s == [] then [[]]
    else if afterTerm && IsSpace(s[0]) then
      var k := RunLen(s, IsSpace);
      [[]] + Pieces(s[k..], false)
    else
      var rest := Pieces(s[1..], IsTerminator(s[0]));
      [[s[0]] + rest[0]] + rest[1..]
  }

  /** Reference: `s` with every sentence-separating whitespace run replaced by
      a single space. */
  function CollapseBreaks(s: string, afterTerm: bool): string
    decreases |s|
  {
    if s == [] then []
    else if afterTerm && IsSpace(s[0]) then
      var k := RunLen(s, IsSpace);
      " " + CollapseBreaks(s[k..], false)
    else
      [s[0]] + CollapseBreaks(s[1..], IsTerminator(s[0]))
  }

  lemma JoinConsChar(c: char, ps: seq<string>, sep: string)
    requires |ps| >= 1
    ensures Join([[c] + ps[0]] + ps[1..], sep) == [c] + Join(ps, sep)
  {
    if |ps| > 1 {
      assert ([[c] + ps[0]] + ps[1..])[1..] == ps[1..];
    }
  }

  /** Joining the pieces with single spaces gives the collapsed text. */
  lemma {:induction false} JoinPiecesIsCollapse(s: string, afterTerm: bool)
    ensures Join(Pieces(s, afterTerm), " ") == CollapseBreaks(s, afterTerm)
    decreases |s|
  {
    if s == [] {
    } else if afterTerm && IsSpace(s[0]) {
      var k := RunLen(s, IsSpace);
      var rest := Pieces(s[k..], false);
      JoinPiecesIsCollapse(s[k..], false);
      assert ([[]] + rest)[1..] == rest;
    } else {
      var rest := Pieces(s[1..], IsTerminator(s[0]));
      JoinPiecesIsCollapse(s[1..], IsTerminator(s[0]));
      JoinConsChar(s[0], rest, " ");
    }
  }

  /** `re.split(r'(?<=[.!?])\s+', s)`. */
  function SplitSentences(s: string): seq<string> {
    Pieces(s, false)
  }

  // ------------------------------------------------- generate_chatgpt_answer

  const DefaultMaxSentences: int := 15

  const NotAvailableText: string := "AI answer generation is not available." + " Please provide your own answer."

  const ErrorPrefix: string := "Error: "

  /** What the chat service did: it is not configured, it replied with a text,
      or the call (or handling of its reply) raised with a message. */
  datatype Backend = Unavailable | Reply(text: string) | Raised(message: string)

  /** How many sentences `sentences[:maxSentences]` keeps out of `total`, as
      Python slices a list: a negative bound drops that many from the end. */
  function KeptCount(total: nat, maxSentences: int): (n: nat)
    ensures n <= total
    ensures maxSentences >= 0 ==> n == Min(maxSentences, total)
    ensures maxSentences < 0 ==> n + Min(-maxSentences, total) == total
  {
    |SliceTo(seq(total, i => 0), maxSentences)|
  }

  /** `r` is the text `' '.join(sentences[:maxSentences])` leaves for the
      cleaned reply `cleaned`: a prefix of the collapsed text, all of it when
      every sentence is kept, empty when none is, and otherwise a text that
      splits back into exactly the kept sentences. */
  predicate FirstSentences(cleaned: string, maxSentences: int, r: string) {
    var pieces := SplitSentences(cleaned);
    var n := KeptCount(|pieces|, maxSentences);
    && r <= CollapseBreaks(cleaned, false)
    && (n == |pieces| ==> r == CollapseBreaks(cleaned, false))
    && (n == 0 ==> r == [])
    && (n > 0 ==> SplitSentences(r) == pieces[..n])
  }

  /** A joined text starts with its first piece's first character. */
  lemma JoinHead(ps: seq<string>, sep: string)
    requires |ps| >= 1 && |ps[0]| > 0
    ensures |Join(ps, sep)| > 0 && Join(ps, sep)[0] == ps[0][0]
  {
  }

  /** Joining the first `n` pieces of a split with single spaces and splitting
      again gives back those `n` pieces: every piece but the last ends with a
      terminator, and every piece after a break starts with a non-blank. */
  lemma {:induction false} SplitOfJoinedPrefix(s: string, afterTerm: bool, n: nat)
    requires 1 <= n <= |Pieces(s, afterTerm)|
    ensures Pieces(Join(Pieces(s, afterTerm)[..n], " "), afterTerm) == Pieces(s, afterTerm)[..n]
    decreases |s|
  {
    var ps := Pieces(s, afterTerm);
    if s == [] {
      assert ps[..n] == [[]];
    } else if afterTerm && IsSpace(s[0]) {
      var k := RunLen(s, IsSpace);
      var u := s[k..];
      var p2 := Pieces(u, false);
      assert ps == [[]] + p2;
      if n > 1 {
        assert ps[..n] == [[]] + p2[..n - 1];
        assert ps[..n][1..] == p2[..n - 1];
        var t2 := Join(p2[..n - 1], " ");
        var t := Join(ps[..n], " ");
        assert t == [] + " " + t2;
        if u != [] {
          assert !IsSpace(u[0]);
          assert p2[0] == [u[0]] + Pieces(u[1..], IsTerminator(u[0]))[0];
          JoinHead(p2[..n - 1], " ");
          assert t2[0] == u[0];
        } else {
          assert t2 == [];
        }
        assert t[1..] == t2;
        assert RunLen(t2, IsSpace) == 0;
        assert RunLen(t, IsSpace) == 1;
        SplitOfJoinedPrefix(u, false, n - 1);
        assert Pieces(t, afterTerm) == [[]] + Pieces(t2, false);
      } else {
        assert ps[..n] == [[]];
      }
    } else {
      var c := s[0];
      var rest := Pieces(s[1..], IsTerminator(c));
      assert ps == [[c] + rest[0]] + rest[1..];
      var kept := rest[..n];
      assert ps[..n] == [[c] + kept[0]] + kept[1..];
      JoinConsChar(c, kept, " ");
      var t := Join(ps[..n], " ");
      var t1 := Join(kept, " ");
      assert t == [c] + t1;
      assert t[1..] == t1;
      SplitOfJoinedPrefix(s[1..], IsTerminator(c), n);
      assert Pieces(t, afterTerm) == [[c] + kept[0]] + kept[1..];
    }
  }

  /** The answer text built from a reply: the first `maxSentences` sentences
      of the cleaned reply, joined by single spaces. */
  function AnswerFromReply(raw: string, maxSentences: int): (r: string)
    ensures FirstSentences(RemoveHtmlAndEmojis(raw), maxSentences, r)
  {
    var cleaned := RemoveHtmlAndEmojis(raw);
    var pieces := SplitSentences(cleaned);
    var kept := SliceTo(pieces, maxSentences);
    JoinPiecesIsCollapse(cleaned, false);
    JoinPrefix(pieces, |kept|, " ");
    assert kept == pieces[..|kept|];
    assert KeptCount(|pieces|, maxSentences) == |kept|;
    assert |kept| == |pieces| ==> kept == pieces;
    if |kept| == 0 then []
    else
      SplitOfJoinedPrefix(cleaned, false, |kept|);
      Join(kept, " ")
  }

  /** `generate_chatgpt_answer`: the fixed notice when the service is not
      configured, `"Error: "` and the message when anything raised, and
      otherwise the first `maxSentences` sentences of the cleaned reply, as
      `FirstSentences` states. */
  function GenerateAnswer(question: string, maxSentences: int, backend: Backend): (r: string)
    ensures backend.Unavailable? ==> r == NotAvailableText
    ensures backend.Raised? ==> r == ErrorPrefix + backend.message
    ensures backend.Reply? ==> FirstSentences(RemoveHtmlAndEmojis(backend.text), maxSentences, r)
  {
    match backend
    case Unavailable => NotAvailableText
    case Reply(text) => AnswerFromReply(text, maxSentences)
    case Raised(message) => ErrorPrefix + message
  }

  /** Text without whitespace is a single piece. */
  lemma {:induction false} PiecesOfNoSpace(s: string, afterTerm: bool)
    requires NoSpace(s)
    ensures Pieces(s, afterTerm) == [s]
    decreases |s|
  {
    if s != [] {
      assert s[0] in s;
      assert forall c | c in s[1..] :: c in s;
      PiecesOfNoSpace(s[1..], IsTerminator(s[0]));
      assert [s[0]] + s[1..] == s;
    }
  }

  /** A sentence ending in a terminator, followed by whitespace, is split off
      as one piece and the whitespace is dropped. */
  lemma {:induction false} SplitAfterSentence(w: string, gap: string, rest: string, afterTerm: bool)
    requires |w| > 0 && NoSpace(w) && IsTerminator(w[|w| - 1])
    requires |gap| > 0 && forall c | c in gap :: IsSpace(c)
    requires rest == [] || !IsSpace(rest[0])
    ensures Pieces(w + gap + rest, afterTerm) == [w] + Pieces(rest, false)
    decreases |w|
  {
    var s := w + gap + rest;
    assert w[0] in w;
    if |w| == 1 {
      var t := gap + rest;
      assert s[1..] == t;
      var k := RunLen(t, IsSpace);
      assert forall i | 0 <= i < |gap| :: t[i] == gap[i] && gap[i] in gap;
      assert rest != [] ==> t[|gap|] == rest[0];
      assert t[k..] == rest;
      assert IsSpace(t[0]) by { assert t[0] == gap[0]; assert gap[0] in gap; }
      assert Pieces(t, true) == [[]] + Pieces(rest, false);
      assert !IsSpace(s[0]) && IsTerminator(s[0]);
      assert Pieces(s, afterTerm) == [[s[0]] + []] + Pieces(rest, false);
      assert [s[0]] + [] == w;
    } else {
      assert forall c | c in w[1..] :: c in w;
      SplitAfterSentence(w[1..], gap, rest, IsTerminator(w[0]));
      assert s[1..] == w[1..] + gap + rest;
      assert [w[0]] + w[1..] == w;
    }
  }

  /** Two sentences separated by a run of blanks are split into two pieces. */
  lemma SplitExample()
    ensures SplitSentences("Hi.   Bye!") == ["Hi.", "Bye!"]
  {
    assert "Hi.   Bye!" == "Hi." + "   " + "Bye!";
    assert NoSpace("Bye!");
    SplitAfterSentence("Hi.", "   ", "Bye!", false);
    PiecesOfNoSpace("Bye!", false);
  }

  /** A reply of plain stripped text is left as it is by cleaning, so the
      answer is made of its own first sentences. */
  lemma PlainReply(s: string, maxSentences: int)
    requires forall c | c in s :: c != '<' && InBmp(c)
    requires Stripped(s)
    ensures RemoveHtmlAndEmojis(s) == s
    ensures FirstSentences(s, maxSentences, AnswerFromReply(s, maxSentences))
  {
    PlainTextOnlyStripped(s);
  }
}

=== FILE: answers.dfy ===
/** The answer routes: creating an answer (schema, id and moderation gates,
    then the insert and the notifications), generating one, voting,
    accepting and deleting, and the display name shown with an answer.
    Each route reads the caller's user document (`me`), which the
    authentication dependency has already found. */
module Answers {
  import opened Common
  import opened Text
  import opened ObjectIds
  import opened Schemas
  import opened Moderation
  import opened AiAnswer
  import opened Records
  import opened Notify

  datatype AnswerResponse = AnswerResponse(id: Id, answer: Answer, username: string, role: Role)

  const InvalidQuestionId: string := "Invalid question ID"
  const QuestionNotFound: string := "Question not found"
  const InvalidAnswerId: string := "Invalid answer ID"
  const AnswerNotFound: string := "Answer not found"

  // ------------------------------------------------------------- insert

  /** Stores `a` under a fresh id and appends that id to its question's list. */
  function InsertAnswer(s: Store, a: Answer): (r: Store)
    requires a.questionId in s.questions
    ensures r.answers == s.answers[s.nextId := a]
    ensures r.questions == s.questions[a.questionId := s.questions[a.questionId].(answers := s.questions[a.questionId].answers + [s.nextId])]
    ensures r.users == s.users && r.notifications == s.notifications && r.nextId == s.nextId + 1
  {
    var q := s.questions[a.questionId];
    s.(answers := s.answers[s.nextId := a],
       questions := s.questions[a.questionId := q.(answers := q.answers + [s.nextId])],
       nextId := s.nextId + 1)
  }

  /** The new answer's id is fresh, so the question lists keep pointing
      exactly at their answers. */
  lemma InsertListsConsistent(s: Store, a: Answer)
    requires Fresh(s) && AnswerListsConsistent(s) && a.questionId in s.questions
    ensures AnswerListsConsistent(InsertAnswer(s, a))
  {
    assert s.nextId !in s.answers;
  }

  /** An answer inserted unaccepted leaves every acceptance as it was. */
  lemma InsertAcceptanceConsistent(s: Store, a: Answer)
    requires Fresh(s) && AcceptanceConsistent(s) && a.questionId in s.questions && !a.isAccepted
    ensures AcceptanceConsistent(InsertAnswer(s, a))
  {
    assert s.nextId !in s.answers;
  }

  /** The question's list stays free of repeats, and the answer obeys its
      schema. */
  lemma InsertDocumentsValid(s: Store, a: Answer)
    requires Fresh(s) && AnswerListsConsistent(s) && DocumentsValid(s)
    requires a.questionId in s.questions && AnswerOk(a)
    ensures DocumentsValid(InsertAnswer(s, a))
  {
    var id := s.nextId;
    var q := s.questions[a.questionId];
    assert id !in s.answers;
    assert Distinct(q.answers + [id]) by {
      forall i | 0 <= i < |q.answers|
        ensures q.answers[i] != id
      {
        assert q.answers[i] in q.answers;
      }
    }
  }

  /** A new answer that is not accepted, belongs to a stored question and
      obeys the answer schema keeps the store valid. */
  lemma InsertAnswerValid(s: Store, a: Answer)
    requires Valid(s) && a.questionId in s.questions && !a.isAccepted && AnswerOk(a)
    ensures Valid(InsertAnswer(s, a))
  {
    InsertListsConsistent(s, a);
    InsertAcceptanceConsistent(s, a);
    InsertDocumentsValid(s, a);
  }

  /** The first `k` calls when the notification step failed at call `k`;
      all of them otherwise. */
  function Completed(calls: seq<Call>, fault: Option<nat>): (r: seq<Call>)
    ensures r <= calls
    ensures fault.None? ==> r == calls
  {
    match fault
    case None => calls
    case Some(k) => if k < |calls| then calls[..k] else calls
  }

  // -------------------------------------------------------- create_answer

  /** What `create_answer` acts on: the moderator's verdict, or "clean with
      score 0.0" when the moderator raised (`None`). */
  function AnswerVerdict(content: string, moderator: Option<Moderator>): (v: Verdict)
    ensures moderator.None? ==> !v.flagged && v.score == 0.0
    ensures moderator.Some? ==> v == IsToxic(content, DefaultThreshold, moderator.value)
  {
    match moderator
    case None => Verdict(false, 0.0)
    case Some(m) => IsToxic(content, DefaultThreshold, m)
  }

  const GuidelinesAnswer: string := "Your answer does not meet our community guidelines. Please ensure your content is respectful and appropriate for all users."

  /** The answer `create_answer` stores for question `q`. */
  function NewAnswer(q: Id, me: UserRec, content: string, moderator: Option<Moderator>): Answer {
    Answer(q, me.id, content, 0, false, false, AnswerVerdict(content, moderator).score)
  }

  /** `create_answer`. The request body is checked first (422), then the
      question id (400 when malformed, 404 when unknown), then the content
      (400 when flagged); every error leaves the store as it was. Otherwise
      a new answer with no votes, not accepted, is stored under a fresh id
      that is appended to the question's list, and the question's author and
      the mentioned users are notified. A failure while notifying (`fault`:
      the index of the call that raised) cuts the notifications short but
      never the answer. */
  function CreateAnswer(s: Store, raw: string, content: string, me: UserRec,
                        moderator: Option<Moderator>, fault: Option<nat>): (r: Outcome<AnswerResponse>)
    ensures !ValidContent(content) ==> r.result.Err? && r.result.status == Unprocessable
    ensures ValidContent(content) && ParseObjectId(raw).None? ==> r.result == Err(BadRequest, InvalidQuestionId)
    ensures ValidContent(content) && ParseObjectId(raw).Some? && ParseObjectId(raw).value !in s.questions ==>
      r.result == Err(NotFound, QuestionNotFound)
    ensures (ValidContent(content) && ParseObjectId(raw).Some? && ParseObjectId(raw).value in s.questions
             && AnswerVerdict(content, moderator).flagged) ==> r.result == Err(BadRequest, GuidelinesAnswer)
    ensures r.result.Err? ==> r.store == s
    ensures r.result.Ok? <==>
      ValidContent(content) && ParseObjectId(raw).Some? && ParseObjectId(raw).value in s.questions
      && !AnswerVerdict(content, moderator).flagged
    ensures r.result.Ok? ==>
      var q := ParseObjectId(raw).value;
      var id := r.result.value.id;
      && id == s.nextId
      && r.result.value.answer.votes == 0 && !r.result.value.answer.isAccepted
      && r.store.answers == s.answers[id := NewAnswer(q, me, content, moderator)]
      && r.store.questions == s.questions[q := s.questions[q].(answers := s.questions[q].answers + [id])]
      && r.store.users == s.users
      && s.notifications <= r.store.notifications
      && r.result.value.username == me.username
  {
    if !ValidContent(content) then Outcome(s, Err(Unprocessable, "content must be 10 to 10000 characters"))
    else match ParseObjectId(raw)
      case None => Outcome(s, Err(BadRequest, InvalidQuestionId))
      case Some(q) =>
        if q !in s.questions then Outcome(s, Err(NotFound, QuestionNotFound))
        else if AnswerVerdict(content, moderator).flagged then Outcome(s, Err(BadRequest, GuidelinesAnswer))
        else
          var answer := NewAnswer(q, me, content, moderator);
          var id := s.nextId;
          var s1 := InsertAnswer(s, answer);
          var calls := AnswerCalls(s1, q, id, me, content);
          var done := Completed(calls, fault);
          DeliverCounts(s1, done, me.id);
          Outcome(Deliver(s1, done), Ok(AnswerResponse(id, answer, me.username, me.role)))
  }

  /** The notifications `create_answer` plans for answer `id` to question
      `q`: the question's author first, then one per mention that finds a
      user. */
  function AnswerCalls(s: Store, q: Id, id: Id, me: UserRec, content: string): seq<Call> {
    NewAnswerCalls(s, q, id, me.id) + MentionCalls(s, content, me.id, Some(q), Some(id))
  }

  /** The planned notifications of a new answer have messages that fit. */
  lemma NewAnswerCallsValid(s: Store, q: Id, id: Id, me: UserRec, content: string, fault: Option<nat>)
    requires Valid(s)
    ensures forall c | c in Completed(AnswerCalls(s, q, id, me, content), fault) :: ValidMessage(c.message)
  {
    NewAnswerMessagesValid(s, q, id, me.id);
    MentionMessagesValid(s, content, me.id, Some(q), Some(id));
  }

  lemma CreateAnswerValid(s: Store, raw: string, content: string, me: UserRec,
                          moderator: Option<Moderator>, fault: Option<nat>)
    requires Valid(s)
    ensures Valid(CreateAnswer(s, raw, content, me, moderator, fault).store)
  {
    var r := CreateAnswer(s, raw, content, me, moderator, fault);
    if r.result.Ok? {
      var q := ParseObjectId(raw).value;
      var answer := NewAnswer(q, me, content, moderator);
      var id := s.nextId;
      InsertAnswerValid(s, answer);
      var s1 := InsertAnswer(s, answer);
      NewAnswerCallsValid(s1, q, id, me, content, fault);
      DeliverValid(s1, Completed(AnswerCalls(s1, q, id, me, content), fault));
    }
  }

  /** Who `create_answer` notifies. The planned calls, read from the store
      before the answer was written, are cut at the notification fault; each
      remaining call that is not addressed to the caller adds one unread
      notification for its recipient and nothing else is added. Without a
      fault the question's author, when that is not the caller, gains one. */
  lemma CreateAnswerNotifies(s: Store, raw: string, content: string, me: UserRec,
                             moderator: Option<Moderator>, fault: Option<nat>, u: Id)
    ensures var r := CreateAnswer(s, raw, content, me, moderator, fault);
      r.result.Ok? ==>
        var q := ParseObjectId(raw).value;
        var done := Completed(AnswerCalls(s, q, s.nextId, me, content), fault);
        && |r.store.notifications| == |s.notifications| + Effective(done)
        && Total(r.store.notifications, u) == Total(s.notifications, u) + EffectiveFor(done, u)
        && Unread(r.store.notifications, u) == Unread(s.notifications, u) + EffectiveFor(done, u)
        && (fault.None? && u == s.questions[q].userId && u != me.id ==>
              Unread(r.store.notifications, u) > Unread(s.notifications, u))
  {
    var r := CreateAnswer(s, raw, content, me, moderator, fault);
    if r.result.Ok? {
      var q := ParseObjectId(raw).value;
      var id := s.nextId;
      var s1 := InsertAnswer(s, NewAnswer(q, me, content, moderator));
      NewAnswerCallsRead(s1, s, q, id, me.id);
      MentionCallsReadUsers(s1, s, content, me.id, Some(q), Some(id));
      var calls := AnswerCalls(s, q, id, me, content);
      assert AnswerCalls(s1, q, id, me, content) == calls;
      DeliverCounts(s1, Completed(calls, fault), u);
      if fault.None? && u == s.questions[q].userId && u != me.id {
        assert calls[0] == NewAnswerCalls(s, q, id, me.id)[0];
        assert EffectiveFor(calls, u) == 1 + EffectiveFor(calls[1..], u);
      }
    }
  }

  /** A failure while notifying changes only which notifications exist: the
      response, the answers and the questions are those of a run without it. */
  lemma NotificationFaultHarmless(s: Store, raw: string, content: string, me: UserRec,
                                  moderator: Option<Moderator>, k: nat)
    ensures var withFault := CreateAnswer(s, raw, content, me, moderator, Some(k));
      var clean := CreateAnswer(s, raw, content, me, moderator, None);
      && withFault.result == clean.result
      && withFault.store.answers == clean.store.answers
      && withFault.store.questions == clean.store.questions
      && withFault.store.users == clean.store.users
  {
  }

  // ----------------------------------------------------- create_ai_answer

  /** Roles allowed to generate answers. */
  predicate MayGenerate(role: Role) { role == Admin || role == User }

  const AiUnavailable: string := "AI answer generation is currently unavailable. Please try again later."
  const AiSuffix: string := " (AI-assisted)"
  const InsufficientPermissions: string := "Insufficient permissions to generate AI answers"

  /** The prompt text: `f"{title} - {description}"`. */
  function QuestionText(q: Question): string {
    q.title + " - " + q.description
  }

  /** The generator's output for question `q`. */
  function Generated(q: Question, backend: Backend): string {
    GenerateAnswer(QuestionText(q), DefaultMaxSentences, backend)
  }

  /** Generator output that starts with `"Error:"` is refused. */
  predicate Refused(content: string) { StartsWith(content, "Error:") }

  /** A failure inside the generator always reaches the caller as 500; the
      "not available" notice does not start with "Error:" and is stored. */
  lemma GeneratorOutcomes(q: Question, message: string)
    ensures Refused(Generated(q, Raised(message)))
    ensures !Refused(Generated(q, Unavailable))
  {
    var e := Generated(q, Raised(message));
    assert e[..6] == "Error:";
    assert NotAvailableText[0] == 'A';
  }

  /** `create_ai_answer`: 400 for a malformed id, 404 for an unknown
      question, 403 unless the caller is a user or an admin, 500 when the
      generator's output starts with "Error:"; otherwise that output is
      stored as a generated answer (score 0.0, no votes, not accepted), the
      question's author is notified, and the name shown is the caller's
      with " (AI-assisted)". */
  function CreateAiAnswer(s: Store, raw: string, me: UserRec, backend: Backend, fault: Option<nat>): (r: Outcome<AnswerResponse>)
    ensures ParseObjectId(raw).None? ==> r.result == Err(BadRequest, InvalidQuestionId)
    ensures ParseObjectId(raw).Some? && ParseObjectId(raw).value !in s.questions ==>
      r.result == Err(NotFound, QuestionNotFound)
    ensures (ParseObjectId(raw).Some? && ParseObjectId(raw).value in s.questions && !MayGenerate(me.role)) ==>
      r.result == Err(Forbidden, InsufficientPermissions)
    ensures (ParseObjectId(raw).Some? && ParseObjectId(raw).value in s.questions && MayGenerate(me.role)
             && Refused(Generated(s.questions[ParseObjectId(raw).value], backend))) ==>
      r.result == Err(InternalError, AiUnavailable)
    ensures r.result.Err? ==> r.store == s
    ensures r.result.Ok? <==>
      ParseObjectId(raw).Some? && ParseObjectId(raw).value in s.questions && MayGenerate(me.role)
      && !Refused(Generated(s.questions[ParseObjectId(raw).value], backend))
    ensures r.result.Ok? ==>
      var q := ParseObjectId(raw).value;
      var id := r.result.value.id;
      var answer := r.result.value.answer;
      && id == s.nextId
      && answer == Answer(q, me.id, Generated(s.questions[q], backend), 0, false, true, 0.0)
      && r.store.answers == s.answers[id := answer]
      && r.store.questions == s.questions[q := s.questions[q].(answers := s.questions[q].answers + [id])]
      && r.result.value.username == me.username + AiSuffix
  {
    match ParseObjectId(raw)
    case None => Outcome(s, Err(BadRequest, InvalidQuestionId))
    case Some(q) =>
      if q !in s.questions then Outcome(s, Err(NotFound, QuestionNotFound))
      else if !MayGenerate(me.role) then Outcome(s, Err(Forbidden, InsufficientPermissions))
      else
        var content := Generated(s.questions[q], backend);
        if Refused(content) then Outcome(s, Err(InternalError, AiUnavailable))
        else
          var answer := Answer(q, me.id, content, 0, false, true, 0.0);
          var id := s.nextId;
          var s1 := InsertAnswer(s, answer);
          DeliverCounts(s1, Completed(NewAnswerCalls(s1, q, id, me.id), fault), me.id);
          Outcome(Deliver(s1, Completed(NewAnswerCalls(s1, q, id, me.id), fault)),
                  Ok(AnswerResponse(id, answer, me.username + AiSuffix, me.role)))
  }

  lemma CreateAiAnswerValid(s: Store, raw: string, me: UserRec, backend: Backend, fault: Option<nat>)
    requires Valid(s)
    ensures Valid(CreateAiAnswer(s, raw, me, backend, fault).store)
  {
    var r := CreateAiAnswer(s, raw, me, backend, fault);
    if r.result.Ok? {
      var q := ParseObjectId(raw).value;
      var answer := r.result.value.answer;
      InsertAnswerValid(s, answer);
      var s1 := InsertAnswer(s, answer);
      NewAnswerMessagesValid(s1, q, s.nextId, me.id);
      DeliverValid(s1, Completed(NewAnswerCalls(s1, q, s.nextId, me.id), fault));
    }
  }

  /** Who `create_ai_answer` notifies: the question's author only (one
      unread notification unless that is the caller or the notification step
      failed first), and nobody else. */
  lemma CreateAiAnswerNotifies(s: Store, raw: string, me: UserRec, backend: Backend, fault: Option<nat>, u: Id)
    ensures var r := CreateAiAnswer(s, raw, me, backend, fault);
      r.result.Ok? ==>
        var q := ParseObjectId(raw).value;
        var author := s.questions[q].userId;
        var gained := if fault.None? && author != me.id then 1 else 0;
        && (u != author ==>
              Total(r.store.notifications, u) == Total(s.notifications, u)
              && Unread(r.store.notifications, u) == Unread(s.notifications, u))
        && (fault.None? ==>
              |r.store.notifications| == |s.notifications| + gained
              && Unread(r.store.notifications, author) == Unread(s.notifications, author) + gained)
  {
    var r := CreateAiAnswer(s, raw, me, backend, fault);
    if r.result.Ok? {
      var q := ParseObjectId(raw).value;
      var s1 := InsertAnswer(s, r.result.value.answer);
      var calls := NewAnswerCalls(s1, q, s.nextId, me.id);
      DeliverCounts(s1, Completed(calls, fault), u);
      DeliverCounts(s1, Completed(calls, fault), s.questions[q].userId);
      assert calls[1..] == [];
    }
  }

  /** Without a configured service, a user's request stores the fixed notice
      as an answer. */
  lemma UnavailableNoticeStored(s: Store, raw: string, me: UserRec)
    requires ParseObjectId(raw).Some? && ParseObjectId(raw).value in s.questions && MayGenerate(me.role)
    ensures var r := CreateAiAnswer(s, raw, me, Unavailable, None);
      r.result.Ok? && r.result.value.answer.content == NotAvailableText
  {
    GeneratorOutcomes(s.questions[ParseObjectId(raw).value], "");
  }

  // ---------------------------------------------------------- display name

  const Unknown: string := "Unknown"

  /** The name listed with an answer: the author's username, or "Unknown"
      when the author has no user document, followed by " (AI-assisted)"
      for generated answers. */
  function DisplayName(s: Store, a: Answer): (r: string)
    ensures FindUserById(s.users, a.userId).None? ==>
      r == if a.aiGenerated then Unknown + AiSuffix else Unknown
    ensures FindUserById(s.users, a.userId).Some? ==>
      r == if a.aiGenerated then FindUserById(s.users, a.userId).value.username + AiSuffix
           else FindUserById(s.users, a.userId).value.username
  {
    var base := match FindUserById(s.users, a.userId) case Some(u) => u.username case None => Unknown;
    if a.aiGenerated then base + AiSuffix else base
  }

  /** A registered caller's new generated answer is later listed under the
      same name its creation response carried. */
  lemma AiAnswerNameAgrees(s: Store, raw: string, me: UserRec, backend: Backend, fault: Option<nat>)
    requires UsersValid(s.users) && me in s.users
    requires CreateAiAnswer(s, raw, me, backend, fault).result.Ok?
    ensures var r := CreateAiAnswer(s, raw, me, backend, fault);
      DisplayName(r.store, r.result.value.answer) == r.result.value.username
  {
    var r := CreateAiAnswer(s, raw, me, backend, fault);
    var q := ParseObjectId(raw).value;
    var s1 := InsertAnswer(s, r.result.value.answer);
    DeliverCounts(s1, Completed(NewAnswerCalls(s1, q, s.nextId, me.id), fault), me.id);
    var u := FindUserById(s.users, me.id).value;
    var i :| 0 <= i < |s.users| && s.users[i] == u;
    var j :| 0 <= j < |s.users| && s.users[j] == me;
    assert i == j;
  }

  // ------------------------------------------------------------ vote_answer

  /** How an action moves the net count. */
  function VoteDelta(v: Vote): int {
    match v
    case Upvote => 1
    case Downvote => -1
    case Remove => 0
  }

  const OwnAnswerVote: string := "You cannot vote on your own answer"

  /** `vote_answer`: 422 for an action outside the pattern, 400 for a
      malformed id, 404 for an unknown answer, 400 on one's own answer;
      otherwise the net count moves by +1, -1 or 0 and is returned. No
      record of who voted is kept, so nothing stops a second vote. */
  function VoteAnswer(s: Store, raw: string, action: string, me: UserRec): (r: Outcome<int>)
    ensures ParseVote(action).None? ==> r.result.Err? && r.result.status == Unprocessable
    ensures ParseVote(action).Some? && ParseObjectId(raw).None? ==> r.result == Err(BadRequest, InvalidAnswerId)
    ensures (ParseVote(action).Some? && ParseObjectId(raw).Some? && ParseObjectId(raw).value !in s.answers) ==>
      r.result == Err(NotFound, AnswerNotFound)
    ensures (ParseVote(action).Some? && ParseObjectId(raw).Some? && ParseObjectId(raw).value in s.answers
             && s.answers[ParseObjectId(raw).value].userId == me.id) ==> r.result == Err(BadRequest, OwnAnswerVote)
    ensures r.result.Err? ==> r.store == s
    ensures r.result.Ok? <==>
      ParseVote(action).Some? && ParseObjectId(raw).Some? && ParseObjectId(raw).value in s.answers
      && s.answers[ParseObjectId(raw).value].userId != me.id
    ensures r.result.Ok? ==>
      var a := ParseObjectId(raw).value;
      && r.result.value == s.answers[a].votes + VoteDelta(ParseVote(action).value)
      && r.store == s.(answers := s.answers[a := s.answers[a].(votes := r.result.value)])
  {
    match ParseVote(action)
    case None => Outcome(s, Err(Unprocessable, "action must match ^(upvote|downvote|remove)$"))
    case Some(v) =>
      match ParseObjectId(raw)
      case None => Outcome(s, Err(BadRequest, InvalidAnswerId))
      case Some(a) =>
        if a !in s.answers then Outcome(s, Err(NotFound, AnswerNotFound))
        else if s.answers[a].userId == me.id then Outcome(s, Err(BadRequest, OwnAnswerVote))
        else
          var votes := s.answers[a].votes + VoteDelta(v);
          Outcome(s.(answers := s.answers[a := s.answers[a].(votes := votes)]), Ok(votes))
  }

  /** Changing an answer in ways that keep its question, its acceptance and
      its schema keeps the store valid. */
  lemma ReplaceAnswerValid(s: Store, a: Id, x: Answer)
    requires Valid(s) && a in s.answers
    requires x.questionId == s.answers[a].questionId && x.isAccepted == s.answers[a].isAccepted && AnswerOk(x)
    ensures Valid(s.(answers := s.answers[a := x]))
  {
    var r := s.(answers := s.answers[a := x]);
    assert Fresh(r);
    assert DocumentsValid(r);
    assert NoOrphans(r);
    assert AnswerListsConsistent(r) by {
      forall q, b | q in r.questions && b in r.answers
        ensures b in r.questions[q].answers <==> r.answers[b].questionId == q
      {
        assert b in s.answers;
      }
    }
    assert AcceptanceConsistent(r);
  }

  lemma VoteAnswerValid(s: Store, raw: string, action: string, me: UserRec)
    requires Valid(s)
    ensures Valid(VoteAnswer(s, raw, action, me).store)
  {
    var r := VoteAnswer(s, raw, action, me);
    if r.result.Ok? {
      var a := ParseObjectId(raw).value;
      ReplaceAnswerValid(s, a, s.answers[a].(votes := r.result.value));
    }
  }

  /** The same user's second upvote counts again, a downvote undoes an
      upvote, and a count may go below zero. */
  lemma VotesAccumulate(s: Store, raw: string, me: UserRec)
    requires VoteAnswer(s, raw, "upvote", me).result.Ok?
    ensures var once := VoteAnswer(s, raw, "upvote", me);
      var twice := VoteAnswer(once.store, raw, "upvote", me);
      twice.result == Ok(once.result.value + 1)
    ensures var up := VoteAnswer(s, raw, "upvote", me);
      VoteAnswer(up.store, raw, "downvote", me).store == s
    ensures var a := ParseObjectId(raw).value;
      s.answers[a].votes == 0 ==> VoteAnswer(s, raw, "downvote", me).result == Ok(-1)
  {
    var a := ParseObjectId(raw).value;
    var up := VoteAnswer(s, raw, "upvote", me);
    assert up.store.answers[a].(votes := s.answers[a].votes) == s.answers[a];
    assert up.store.answers[a := s.answers[a]] == s.answers;
  }

  // ---------------------------------------------------------- accept_answer

  const OnlyAuthorAccepts: string := "Only the question author can accept answers"

  /** `update_many({"question_id": q}, {"$set": {"is_accepted": False}})`. */
  function ClearAccepted(answers: map<Id, Answer>, q: Id): (r: map<Id, Answer>)
    ensures r.Keys == answers.Keys
    ensures forall x | x in answers ::
      r[x] == if answers[x].questionId == q then answers[x].(isAccepted := false) else answers[x]
  {
    map x | x in answers :: if answers[x].questionId == q then answers[x].(isAccepted := false) else answers[x]
  }

  /** The three writes of an accept: clear the question's answers, mark this
      one, and record it on the question. */
  function AcceptStep(s: Store, a: Id): (r: Store)
    requires a in s.answers && s.answers[a].questionId in s.questions
    ensures var q := s.answers[a].questionId;
      && r.users == s.users && r.notifications == s.notifications && r.nextId == s.nextId
      && r.answers.Keys == s.answers.Keys
      && (forall x | x in s.answers ::
            r.answers[x] == if s.answers[x].questionId == q then s.answers[x].(isAccepted := x == a) else s.answers[x])
      && r.questions == s.questions[q := s.questions[q].(acceptedAnswer := Some(a))]
  {
    var q := s.answers[a].questionId;
    var cleared := ClearAccepted(s.answers, q);
    s.(answers := cleared[a := cleared[a].(isAccepted := true)],
       questions := s.questions[q := s.questions[q].(acceptedAnswer := Some(a))])
  }

  lemma AcceptStepDocuments(s: Store, a: Id)
    requires a in s.answers && s.answers[a].questionId in s.questions
    requires DocumentsValid(s) && NoOrphans(s) && Fresh(s)
    ensures var r := AcceptStep(s, a); DocumentsValid(r) && NoOrphans(r) && Fresh(r)
  {
    var r := AcceptStep(s, a);
    forall x | x in r.answers ensures AnswerOk(r.answers[x]) && r.answers[x].questionId in r.questions {
      assert AnswerOk(s.answers[x]);
    }
    forall p | p in r.questions ensures QuestionOk(r.questions[p]) {
      assert QuestionOk(s.questions[p]);
    }
  }

  lemma AcceptStepLists(s: Store, a: Id)
    requires a in s.answers && s.answers[a].questionId in s.questions
    requires AnswerListsConsistent(s)
    ensures AnswerListsConsistent(AcceptStep(s, a))
  {
    var r := AcceptStep(s, a);
    forall p | p in r.questions ensures r.questions[p].answers == s.questions[p].answers {
    }
    forall b | b in r.answers ensures r.answers[b].questionId == s.answers[b].questionId {
    }
  }

  lemma AcceptStepAcceptance(s: Store, a: Id)
    requires a in s.answers && s.answers[a].questionId in s.questions
    requires AcceptanceConsistent(s)
    ensures AcceptanceConsistent(AcceptStep(s, a))
  {
    var r := AcceptStep(s, a);
    var q := s.answers[a].questionId;
    forall x | x in r.answers && r.answers[x].isAccepted
      ensures r.answers[x].questionId in r.questions && r.questions[r.answers[x].questionId].acceptedAnswer == Some(x)
    {
      if s.answers[x].questionId != q {
        assert s.answers[x].isAccepted;
      }
    }
    forall p | p in r.questions && r.questions[p].acceptedAnswer.Some?
      ensures var y := r.questions[p].acceptedAnswer.value;
        y in r.answers && r.answers[y].questionId == p && r.answers[y].isAccepted
    {
      if p != q {
        var y := s.questions[p].acceptedAnswer.value;
        assert y in s.answers && s.answers[y].questionId == p && s.answers[y].isAccepted;
      }
    }
  }

  lemma AcceptStepValid(s: Store, a: Id)
    requires Valid(s) && a in s.answers && s.answers[a].questionId in s.questions
    ensures Valid(AcceptStep(s, a))
  {
    AcceptStepDocuments(s, a);
    AcceptStepLists(s, a);
    AcceptStepAcceptance(s, a);
  }

  /** A second accept of the same answer writes what is already there. */
  lemma AcceptStepTwice(s: Store, a: Id)
    requires a in s.answers && s.answers[a].questionId in s.questions
    ensures var once := AcceptStep(s, a);
      a in once.answers && once.answers[a].questionId in once.questions
      && AcceptStep(once, a).answers == once.answers && AcceptStep(once, a).questions == once.questions
  {
    var once := AcceptStep(s, a);
    var twice := AcceptStep(once, a);
    var q := s.answers[a].questionId;
    assert once.answers[a].questionId == q;
    forall x | x in once.answers ensures twice.answers[x] == once.answers[x] {
    }
    assert twice.questions[q] == once.questions[q];
  }

  /** `accept_answer`: 400 for a malformed id, 404 for an unknown answer or
      question, 403 unless the caller asked the question; otherwise, of the
      question's answers exactly this one is accepted afterwards, the
      question's `accepted_answer` names it, answers of other questions are
      untouched, and the answer's author is notified. */
  function AcceptAnswer(s: Store, raw: string, me: UserRec): (r: Outcome<string>)
    ensures ParseObjectId(raw).None? ==> r.result == Err(BadRequest, InvalidAnswerId)
    ensures ParseObjectId(raw).Some? && ParseObjectId(raw).value !in s.answers ==> r.result == Err(NotFound, AnswerNotFound)
    ensures (ParseObjectId(raw).Some? && ParseObjectId(raw).value in s.answers
             && s.answers[ParseObjectId(raw).value].questionId !in s.questions) ==> r.result == Err(NotFound, QuestionNotFound)
    ensures (ParseObjectId(raw).Some? && ParseObjectId(raw).value in s.answers
             && s.answers[ParseObjectId(raw).value].questionId in s.questions
             && s.questions[s.answers[ParseObjectId(raw).value].questionId].userId != me.id) ==>
      r.result == Err(Forbidden, OnlyAuthorAccepts)
    ensures r.result.Err? ==> r.store == s
    ensures r.result.Ok? <==>
      ParseObjectId(raw).Some? && ParseObjectId(raw).value in s.answers
      && s.answers[ParseObjectId(raw).value].questionId in s.questions
      && s.questions[s.answers[ParseObjectId(raw).value].questionId].userId == me.id
    ensures r.result.Ok? ==>
      var a := ParseObjectId(raw).value;
      var q := s.answers[a].questionId;
      && r.store.users == s.users
      && r.store.answers.Keys == s.answers.Keys
      && (forall x | x in s.answers ::
            r.store.answers[x] == if s.answers[x].questionId == q then s.answers[x].(isAccepted := x == a) else s.answers[x])
      && r.store.questions == s.questions[q := s.questions[q].(acceptedAnswer := Some(a))]
      && s.notifications <= r.store.notifications
  {
    match ParseObjectId(raw)
    case None => Outcome(s, Err(BadRequest, InvalidAnswerId))
    case Some(a) =>
      if a !in s.answers then Outcome(s, Err(NotFound, AnswerNotFound))
      else
        var q := s.answers[a].questionId;
        if q !in s.questions then Outcome(s, Err(NotFound, QuestionNotFound))
        else if s.questions[q].userId != me.id then Outcome(s, Err(Forbidden, OnlyAuthorAccepts))
        else
          var s1 := AcceptStep(s, a);
          var calls := AcceptedCalls(s1, a, me.id);
          DeliverCounts(s1, calls, me.id);
          Outcome(Deliver(s1, calls), Ok("Answer accepted successfully"))
  }
  /** What `accept_answer` writes to the notifications: exactly the planned
      accepted-answer call, so the answer's author gains one notification,
      unread, unless the author accepted their own answer; nobody else's
      counts move. */
  lemma AcceptAnswerNotifies(s: Store, raw: string, me: UserRec, u: Id)
    ensures var r := AcceptAnswer(s, raw, me);
      r.result.Ok? ==>
        var a := ParseObjectId(raw).value;
        var author := s.answers[a].userId;
        var gained := if author != me.id then 1 else 0;
        && |r.store.notifications| == |s.notifications| + Effective(AcceptedCalls(AcceptStep(s, a), a, me.id))
        && |r.store.notifications| == |s.notifications| + gained
        && Total(r.store.notifications, author) == Total(s.notifications, author) + gained
        && Unread(r.store.notifications, author) == Unread(s.notifications, author) + gained
        && (u != author ==>
              Total(r.store.notifications, u) == Total(s.notifications, u)
              && Unread(r.store.notifications, u) == Unread(s.notifications, u))
  {
    var r := AcceptAnswer(s, raw, me);
    if r.result.Ok? {
      var a := ParseObjectId(raw).value;
      var s1 := AcceptStep(s, a);
      var calls := AcceptedCalls(s1, a, me.id);
      DeliverCounts(s1, calls, u);
      DeliverCounts(s1, calls, s.answers[a].userId);
      assert calls[1..] == [];
    }
  }


  lemma AcceptAnswerValid(s: Store, raw: string, me: UserRec)
    requires Valid(s)
    ensures Valid(AcceptAnswer(s, raw, me).store)
  {
    var r := AcceptAnswer(s, raw, me);
    if r.result.Ok? {
      var a := ParseObjectId(raw).value;
      AcceptStepValid(s, a);
      var s1 := AcceptStep(s, a);
      AcceptedMessagesValid(s1, a, me.id);
      DeliverValid(s1, AcceptedCalls(s1, a, me.id));
    }
  }

  /** After an accept, the question's accepted answer is that answer and no
      other answer of the question is accepted. */
  lemma AcceptLeavesOne(s: Store, raw: string, me: UserRec, x: Id)
    requires AcceptAnswer(s, raw, me).result.Ok?
    requires x in AnswersOf(AcceptAnswer(s, raw, me).store, s.answers[ParseObjectId(raw).value].questionId)
    ensures AcceptAnswer(s, raw, me).store.answers[x].isAccepted <==> x == ParseObjectId(raw).value
  {
  }

  /** A successful accept writes the answers and questions of `AcceptStep`. */
  lemma AcceptAnswerWrites(s: Store, raw: string, me: UserRec)
    requires AcceptAnswer(s, raw, me).result.Ok?
    ensures var a := ParseObjectId(raw).value;
      && a in s.answers && s.answers[a].questionId in s.questions
      && s.questions[s.answers[a].questionId].userId == me.id
      && AcceptAnswer(s, raw, me).store.answers == AcceptStep(s, a).answers
      && AcceptAnswer(s, raw, me).store.questions == AcceptStep(s, a).questions
  {
  }

  /** Accepting the same answer twice leaves the questions and answers as
      the first accept left them (only another notification is added). */
  lemma AcceptIdempotent(s: Store, raw: string, me: UserRec)
    requires AcceptAnswer(s, raw, me).result.Ok?
    ensures var once := AcceptAnswer(s, raw, me).store;
      var twice := AcceptAnswer(once, raw, me);
      twice.result.Ok? && twice.store.questions == once.questions && twice.store.answers == once.answers
  {
    var a := ParseObjectId(raw).value;
    AcceptAnswerWrites(s, raw, me);
    AcceptStepTwice(s, a);
    var s1 := AcceptStep(s, a);
    var once := AcceptAnswer(s, raw, me).store;
    assert once.answers[a].questionId == s.answers[a].questionId;
    assert AcceptAnswer(once, raw, me).result.Ok?;
    AcceptAnswerWrites(once, raw, me);
    var s2 := AcceptStep(once, a);
    assert s2.answers == AcceptStep(s1, a).answers && s2.questions == AcceptStep(s1, a).questions;
  }

  // ---------------------------------------------------------- delete_answer

  const OwnAnswersOnly: string := "You can only delete your own answers"

  /** The author of the answer or an admin. */
  predicate MayDelete(owner: Id, me: UserRec) { owner == me.id || me.role == Admin }

  /** The writes of a delete: pull the id from the question's list, drop
      the question's acceptance if it was this answer, remove the answer. */
  function DeleteStep(s: Store, a: Id): (r: Store)
    requires a in s.answers
    ensures var q := s.answers[a].questionId;
      && r.answers == s.answers - {a}
      && r.users == s.users && r.notifications == s.notifications && r.nextId == s.nextId
      && (q !in s.questions ==> r.questions == s.questions)
      && (q in s.questions ==>
            r.questions == s.questions[q := s.questions[q].(
              answers := RemoveAll(s.questions[q].answers, a),
              acceptedAnswer := if s.answers[a].isAccepted then None else s.questions[q].acceptedAnswer)])
  {
    var answer := s.answers[a];
    var q := answer.questionId;
    var questions :=
      if q in s.questions then
        var pulled := s.questions[q].(answers := RemoveAll(s.questions[q].answers, a));
        s.questions[q := if answer.isAccepted then pulled.(acceptedAnswer := None) else pulled]
      else s.questions;
    s.(answers := s.answers - {a}, questions := questions)
  }

  lemma DeleteStepDocuments(s: Store, a: Id)
    requires a in s.answers
    requires DocumentsValid(s) && NoOrphans(s) && Fresh(s)
    ensures var r := DeleteStep(s, a); DocumentsValid(r) && NoOrphans(r) && Fresh(r)
  {
    var r := DeleteStep(s, a);
    forall p | p in r.questions ensures QuestionOk(r.questions[p]) {
      assert QuestionOk(s.questions[p]);
    }
  }

  lemma DeleteStepLists(s: Store, a: Id)
    requires a in s.answers
    requires AnswerListsConsistent(s) && NoOrphans(s)
    ensures AnswerListsConsistent(DeleteStep(s, a))
  {
    var r := DeleteStep(s, a);
    var q := s.answers[a].questionId;
    forall p | p in r.questions && p != q ensures r.questions[p].answers == s.questions[p].answers && a !in r.questions[p].answers {
    }
    forall p, b | p in r.questions && b in r.answers
      ensures b in r.questions[p].answers <==> r.answers[b].questionId == p
    {
      assert b in s.answers && b != a;
    }
  }

  lemma DeleteStepAcceptance(s: Store, a: Id)
    requires a in s.answers
    requires AcceptanceConsistent(s) && NoOrphans(s)
    ensures AcceptanceConsistent(DeleteStep(s, a))
  {
    var r := DeleteStep(s, a);
    var q := s.answers[a].questionId;
    forall x | x in r.answers && r.answers[x].isAccepted
      ensures r.answers[x].questionId in r.questions && r.questions[r.answers[x].questionId].acceptedAnswer == Some(x)
    {
      assert s.answers[x].isAccepted;
    }
    forall p | p in r.questions && r.questions[p].acceptedAnswer.Some?
      ensures var y := r.questions[p].acceptedAnswer.value;
        y in r.answers && r.answers[y].questionId == p && r.answers[y].isAccepted
    {
      var y := s.questions[p].acceptedAnswer.value;
      assert y in s.answers && s.answers[y].questionId == p && s.answers[y].isAccepted;
    }
  }

  lemma DeleteStepValid(s: Store, a: Id)
    requires Valid(s) && a in s.answers
    ensures Valid(DeleteStep(s, a))
  {
    DeleteStepDocuments(s, a);
    DeleteStepLists(s, a);
    DeleteStepAcceptance(s, a);
  }

  /** `delete_answer`: 400 for a malformed id, 404 for an unknown answer, 403
      unless the caller wrote it or is an admin; otherwise the answer is gone,
      its id is pulled from its question's list, the question loses its
      accepted answer if it was this one, and nothing else changes. */
  function DeleteAnswer(s: Store, raw: string, me: UserRec): (r: Outcome<()>)
    ensures ParseObjectId(raw).None? ==> r.result == Err(BadRequest, InvalidAnswerId)
    ensures ParseObjectId(raw).Some? && ParseObjectId(raw).value !in s.answers ==> r.result == Err(NotFound, AnswerNotFound)
    ensures (ParseObjectId(raw).Some? && ParseObjectId(raw).value in s.answers
             && !MayDelete(s.answers[ParseObjectId(raw).value].userId, me)) ==> r.result == Err(Forbidden, OwnAnswersOnly)
    ensures r.result.Err? ==> r.store == s
    ensures r.result.Ok? <==>
      ParseObjectId(raw).Some? && ParseObjectId(raw).value in s.answers
      && MayDelete(s.answers[ParseObjectId(raw).value].userId, me)
    ensures r.result.Ok? ==>
      var a := ParseObjectId(raw).value;
      var q := s.answers[a].questionId;
      && r.store == DeleteStep(s, a)
      && r.store.answers == s.answers - {a}
      && r.store.users == s.users && r.store.notifications == s.notifications && r.store.nextId == s.nextId
      && (q !in s.questions ==> r.store.questions == s.questions)
      && (q in s.questions ==>
            && r.store.questions.Keys == s.questions.Keys
            && (forall p | p in s.questions && p != q :: r.store.questions[p] == s.questions[p])
            && r.store.questions[q] == s.questions[q].(
                 answers := RemoveAll(s.questions[q].answers, a),
                 acceptedAnswer := if s.answers[a].isAccepted then None else s.questions[q].acceptedAnswer))
  {
    match ParseObjectId(raw)
    case None => Outcome(s, Err(BadRequest, InvalidAnswerId))
    case Some(a) =>
      if a !in s.answers then Outcome(s, Err(NotFound, AnswerNotFound))
      else if !MayDelete(s.answers[a].userId, me) then Outcome(s, Err(Forbidden, OwnAnswersOnly))
      else
        Outcome(DeleteStep(s, a), Ok(()))
  }

  lemma DeleteAnswerValid(s: Store, raw: string, me: UserRec)
    requires Valid(s)
    ensures Valid(DeleteAnswer(s, raw, me).store)
  {
    if DeleteAnswer(s, raw, me).result.Ok? {
      DeleteStepValid(s, ParseObjectId(raw).value);
    }
  }
}

=== FILE: auth.dfy ===
/** Registration, login, the bearer-token dependency and the guest-upgrade
    migration. Password hashing and checking, and the signing and decoding of
    tokens, are outside the model: they are parameters, and the token is
    modelled by the claims it carries. */
module Auth {
  import opened Common
  import opened Text
  import opened ObjectIds
  import opened Schemas
  import opened Records

  const UsernameTaken: string := "Username already registered"
  const EmailInUse: string := "Email already registered"
  const BadCredentials: string := "Incorrect username or password"
  const Deactivated: string := "Account is deactivated"
  const InvalidCredentials: string := "Invalid authentication credentials"
  const UserNotFound: string := "User not found"
  const KeyMissing: string := "Internal Server Error"

  /** Lifetime of a login token. */
  const TokenMinutes: nat := 30
  const TokenType: string := "bearer"

  datatype UserResponse = UserResponse(id: Id, username: string, email: string, role: Role, isActive: bool)

  // -------------------------------------------------------------- register

  /** The user document `register` stores for the normalised address
      `email`: role `user`, active. */
  function NewUser(s: Store, req: UserCreate, email: string, hash: string -> string): UserRec {
    UserRec(s.nextId, req.username, email, hash(req.password), User, Some(true))
  }

  /** `register`: 422 when the body fails its schema (`normalize` is the
      address validator), then 400 when the username is taken, then 400 when
      the normalised e-mail address is taken; otherwise a new active user
      with role `user`, the normalised address and the hashed password is
      appended. */
  function Register(s: Store, req: UserCreate, normalize: string -> Option<string>, hash: string -> string): (r: Outcome<UserResponse>)
    ensures !ValidUserCreate(req, normalize) ==> r.result.Err? && r.result.status == Unprocessable
    ensures ValidUserCreate(req, normalize) && FindUserByName(s.users, req.username).Some? ==>
      r.result == Err(BadRequest, UsernameTaken)
    ensures (ValidUserCreate(req, normalize) && FindUserByName(s.users, req.username).None?
             && EmailTaken(s.users, normalize(req.email).value)) ==> r.result == Err(BadRequest, EmailInUse)
    ensures r.result.Err? ==> r.store == s
    ensures r.result.Ok? <==>
      ValidUserCreate(req, normalize)
      && (forall u | u in s.users :: u.username != req.username && u.email != normalize(req.email).value)
    ensures r.result.Ok? ==>
      var email := normalize(req.email).value;
      && r.store.users == s.users + [NewUser(s, req, email, hash)]
      && r.store.questions == s.questions && r.store.answers == s.answers
      && r.store.notifications == s.notifications && r.store.nextId == s.nextId + 1
      && r.result.value == UserResponse(s.nextId, req.username, email, User, true)
  {
    if !ValidUserCreate(req, normalize) then Outcome(s, Err(Unprocessable, "user fails its schema"))
    else
      var email := normalize(req.email).value;
      if FindUserByName(s.users, req.username).Some? then Outcome(s, Err(BadRequest, UsernameTaken))
      else if EmailTaken(s.users, email) then Outcome(s, Err(BadRequest, EmailInUse))
      else
        var u := NewUser(s, req, email, hash);
        Outcome(s.(users := s.users + [u], nextId := s.nextId + 1),
                Ok(UserResponse(u.id, u.username, u.email, u.role, true)))
  }

  /** Two spellings the validator normalises alike are one address: once
      one is registered, a registration with the other under a free username
      is refused with "Email already registered". */
  lemma SameNormalFormTaken(s: Store, req1: UserCreate, req2: UserCreate,
                            normalize: string -> Option<string>, hash: string -> string)
    requires Register(s, req1, normalize, hash).result.Ok?
    requires ValidUserCreate(req2, normalize) && normalize(req2.email) == normalize(req1.email)
    requires req2.username != req1.username && FindUserByName(s.users, req2.username).None?
    ensures Register(Register(s, req1, normalize, hash).store, req2, normalize, hash).result == Err(BadRequest, EmailInUse)
  {
    var s1 := Register(s, req1, normalize, hash).store;
    var u := NewUser(s, req1, normalize(req1.email).value, hash);
    assert u in s1.users;
    assert FindUserByName(s1.users, req2.username).None? by {
      forall v | v in s1.users ensures v.username != req2.username {
        if v != u {
          assert v in s.users;
        }
      }
    }
  }

  lemma RegisterValid(s: Store, req: UserCreate, normalize: string -> Option<string>, hash: string -> string)
    requires Valid(s)
    ensures Valid(Register(s, req, normalize, hash).store)
  {
    var r := Register(s, req, normalize, hash);
    if r.result.Ok? {
      var u := NewUser(s, req, normalize(req.email).value, hash);
      var us := s.users + [u];
      assert forall i | 0 <= i < |s.users| :: s.users[i] in s.users;
      assert UsersValid(us) by {
        forall i, j | 0 <= i < j < |us|
          ensures us[i].id != us[j].id && us[i].username != us[j].username && us[i].email != us[j].email
        {
          if j == |s.users| {
            assert us[i] == s.users[i];
          }
        }
      }
      assert Fresh(r.store);
    }
  }

  // ----------------------------------------------------------------- login

  /** The claims of the signed token: subject, role and lifetime. */
  datatype Token = Token(sub: string, role: Role, minutes: nat)

  datatype LoginResponse = LoginResponse(token: Token, tokenType: string, user: UserResponse)

  /** `login`: an unknown username and a wrong password both give 401 with
      the same detail, so a caller cannot tell them apart; a user whose
      `is_active` is false gets 401 "Account is deactivated" (a document
      without the field counts as active); otherwise a 30-minute token for
      the user's name and role. `verify` is the password check. */
  function Login(s: Store, username: string, password: string, verify: (string, string) -> bool): (r: Result<LoginResponse>)
    ensures FindUserByName(s.users, username).None? ==> r == Err(Unauthorized, BadCredentials)
    ensures (FindUserByName(s.users, username).Some?
             && !verify(password, FindUserByName(s.users, username).value.passwordHash)) ==>
      r == Err(Unauthorized, BadCredentials)
    ensures var f := FindUserByName(s.users, username);
      f.Some? && verify(password, f.value.passwordHash) && f.value.isActive == Some(false) ==>
        r == Err(Unauthorized, Deactivated)
    ensures var f := FindUserByName(s.users, username);
      f.Some? && verify(password, f.value.passwordHash) && f.value.isActive != Some(false) ==>
        r.Ok? && r.value.user.id == f.value.id && r.value.token.role == f.value.role
    ensures r.Err? ==> r.status == Unauthorized
    ensures r.Ok? ==>
      && r.value.token.sub == username && r.value.user.username == username
      && r.value.token.minutes == TokenMinutes && r.value.tokenType == TokenType
      && r.value.user.isActive
      && (exists u | u in s.users :: u.username == username && verify(password, u.passwordHash)
            && u.isActive != Some(false) && u.id == r.value.user.id && u.role == r.value.token.role)
  {
    match FindUserByName(s.users, username)
    case None => Err(Unauthorized, BadCredentials)
    case Some(u) =>
      if !verify(password, u.passwordHash) then Err(Unauthorized, BadCredentials)
      else if !u.isActive.GetOr(true) then Err(Unauthorized, Deactivated)
      else Ok(LoginResponse(Token(u.username, u.role, TokenMinutes), TokenType,
                            UserResponse(u.id, u.username, u.email, u.role, u.isActive.GetOr(true))))
  }

  /** With unique usernames, login succeeds exactly for a stored user whose
      password checks and who is not marked inactive. */
  lemma LoginIff(s: Store, username: string, password: string, verify: (string, string) -> bool)
    requires UsersValid(s.users)
    ensures Login(s, username, password, verify).Ok? <==>
      exists u | u in s.users :: u.username == username && verify(password, u.passwordHash) && u.isActive != Some(false)
  {
    if exists u | u in s.users :: u.username == username && verify(password, u.passwordHash) && u.isActive != Some(false) {
      var u :| u in s.users && u.username == username && verify(password, u.passwordHash) && u.isActive != Some(false);
      var f := FindUserByName(s.users, username).value;
      var i :| 0 <= i < |s.users| && s.users[i] == u;
      var j :| 0 <= j < |s.users| && s.users[j] == f;
      assert i == j;
    }
  }

  /** A user who has just registered can log in with the password they gave,
      provided the password check accepts the hash of that password. */
  lemma RegisterThenLogin(s: Store, req: UserCreate, normalize: string -> Option<string>, hash: string -> string,
                          verify: (string, string) -> bool)
    requires Register(s, req, normalize, hash).result.Ok?
    requires verify(req.password, hash(req.password))
    ensures Login(Register(s, req, normalize, hash).store, req.username, req.password, verify).Ok?
  {
    var s1 := Register(s, req, normalize, hash).store;
    var f := FindUserByName(s1.users, req.username);
    var u := NewUser(s, req, normalize(req.email).value, hash);
    assert u in s1.users;
    assert f.value == u by {
      if f.value in s.users {
        assert false;
      }
    }
  }

  /** `login` as written: after the active check it builds the response from
      `user["is_active"]`, which raises for a document without the field
      even though the check itself treated such a user as active. */
  function LoginAsWritten(s: Store, username: string, password: string, verify: (string, string) -> bool): (r: Result<LoginResponse>)
    ensures var f := FindUserByName(s.users, username);
      f.Some? && verify(password, f.value.passwordHash) && f.value.isActive.None? ==> r == Err(InternalError, KeyMissing)
    ensures r.Err? && r.status != InternalError ==> r == Login(s, username, password, verify)
    ensures r.Ok? ==> r == Login(s, username, password, verify)
  {
    match FindUserByName(s.users, username)
    case None => Err(Unauthorized, BadCredentials)
    case Some(u) =>
      if !verify(password, u.passwordHash) then Err(Unauthorized, BadCredentials)
      else if !u.isActive.GetOr(true) then Err(Unauthorized, Deactivated)
      else if u.isActive.None? then Err(InternalError, KeyMissing)
      else Ok(LoginResponse(Token(u.username, u.role, TokenMinutes), TokenType,
                            UserResponse(u.id, u.username, u.email, u.role, u.isActive.value)))
  }

  /** A legacy user document without `is_active`, with a password that checks:
      the code as written answers 500, the corrected login lets the user in. */
  lemma LoginMissingActiveField()
    ensures var s := Store([UserRec(0, "bob", "bob@example.com", "h", User, None)], map[], map[], [], 1);
      && LoginAsWritten(s, "bob", "pw", (p, h) => true) == Err(InternalError, KeyMissing)
      && Login(s, "bob", "pw", (p, h) => true).Ok?
  {
  }

  /** The two agree wherever the document has the field. */
  lemma LoginAgreesWhenFieldPresent(s: Store, username: string, password: string, verify: (string, string) -> bool)
    requires forall u | u in s.users :: u.isActive.Some?
    ensures LoginAsWritten(s, username, password, verify) == Login(s, username, password, verify)
  {
  }

  // ------------------------------------------------------ get_current_user

  /** What decoding the bearer token gave: it was rejected (`None`), decoding
      raised, or it yielded claims with or without a `sub`. */
  datatype TokenCheck = Rejected | Raised | Claims(sub: Option<string>)

  /** `get_current_user`: every failure is 401; a token whose subject names a
      stored user yields that user's document. Whether the user is active is
      not looked at. */
  function GetCurrentUser(s: Store, check: TokenCheck): (r: Result<UserRec>)
    ensures r.Err? ==> r.status == Unauthorized
    ensures r.Ok? <==> check.Claims? && check.sub.Some? && exists u | u in s.users :: u.username == check.sub.value
    ensures r.Ok? ==> r.value in s.users && r.value.username == check.sub.value
    ensures check.Claims? && check.sub.Some? && r.Err? ==> r.detail == UserNotFound
  {
    match check
    case Rejected => Err(Unauthorized, InvalidCredentials)
    case Raised => Err(Unauthorized, InvalidCredentials)
    case Claims(None) => Err(Unauthorized, InvalidCredentials)
    case Claims(Some(name)) =>
      match FindUserByName(s.users, name)
      case None => Err(Unauthorized, UserNotFound)
      case Some(u) => Ok(u)
  }

  /** The token a login issues authenticates the same user. */
  lemma LoginTokenAuthenticates(s: Store, username: string, password: string, verify: (string, string) -> bool)
    requires UsersValid(s.users)
    requires Login(s, username, password, verify).Ok?
    ensures var t := Login(s, username, password, verify).value;
      && GetCurrentUser(s, Claims(Some(t.token.sub))).Ok?
      && GetCurrentUser(s, Claims(Some(t.token.sub))).value.id == t.user.id
  {
    var t := Login(s, username, password, verify).value;
    var u :| u in s.users && u.username == username && u.id == t.user.id;
    var g := GetCurrentUser(s, Claims(Some(username))).value;
    var i :| 0 <= i < |s.users| && s.users[i] == u;
    var j :| 0 <= j < |s.users| && s.users[j] == g;
    assert i == j;
  }

  /** A deactivated user's still-valid token keeps working: only `login`
      checks `is_active`. */
  lemma DeactivatedTokenAccepted(s: Store, u: UserRec)
    requires u in s.users && u.isActive == Some(false)
    ensures GetCurrentUser(s, Claims(Some(u.username))).Ok?
  {
  }

  // ------------------------------------------------ upgrade_guest_users

  datatype UpgradeResult = UpgradeResult(message: string, updatedCount: nat)

  function Promote(u: UserRec): UserRec {
    if u.role == Guest then u.(role := User) else u
  }

  /** The number of guests. */
  function CountGuests(users: seq<UserRec>): (n: nat)
    ensures n <= |users|
    ensures n == 0 <==> forall u | u in users :: u.role != Guest
  {
    if users == [] then 0
    else
      assert forall u | u in users[1..] :: u in users;
      assert users == [users[0]] + users[1..];
      (if users[0].role == Guest then 1 else 0) + CountGuests(users[1..])
  }

  /** `upgrade_guest_users_to_user`: every guest becomes a `user`, nobody
      else changes, and the count reported is the number of guests. Any
      signed-in user may call it: the admin test in the source is a no-op. */
  function UpgradeGuests(s: Store): (r: Outcome<UpgradeResult>)
    ensures r.result.Ok?
    ensures |r.store.users| == |s.users|
    ensures forall i | 0 <= i < |s.users| ::
      && r.store.users[i].role == (if s.users[i].role == Guest then User else s.users[i].role)
      && r.store.users[i] == s.users[i].(role := r.store.users[i].role)
    ensures forall u | u in r.store.users :: u.role != Guest
    ensures r.result.value.updatedCount == CountGuests(s.users)
    ensures r.store.questions == s.questions && r.store.answers == s.answers
    ensures r.store.notifications == s.notifications && r.store.nextId == s.nextId
  {
    var users := seq(|s.users|, i requires 0 <= i < |s.users| => Promote(s.users[i]));
    var n := CountGuests(s.users);
    Outcome(s.(users := users),
            Ok(UpgradeResult("Successfully upgraded " + Decimal(n) + " guest users to user role", n)))
  }

  lemma UpgradeGuestsValid(s: Store)
    requires Valid(s)
    ensures Valid(UpgradeGuests(s).store)
  {
    var r := UpgradeGuests(s).store;
    assert UsersValid(r.users) by {
      forall i, j | 0 <= i < j < |r.users|
        ensures r.users[i].id != r.users[j].id && r.users[i].username != r.users[j].username
                && r.users[i].email != r.users[j].email
      {
      }
    }
    assert Fresh(r);
  }

  /** Running the migration twice changes nothing the second time, and the
      second run reports zero upgrades. */
  lemma UpgradeGuestsIdempotent(s: Store)
    ensures UpgradeGuests(UpgradeGuests(s).store).store == UpgradeGuests(s).store
    ensures UpgradeGuests(UpgradeGuests(s).store).result.value.updatedCount == 0
  {
    var s1 := UpgradeGuests(s).store;
    var s2 := UpgradeGuests(s1).store;
    assert s2.users == s1.users;
  }
}

=== FILE: auto_tag.dfy ===
/** Automatic single-word tagging of a question. Without the language models
    the tags are the distinct long alphabetic words of the cleaned text; with
    them, the keyword ranker's list (an input) is filtered by the same
    selection loop using a part-of-speech test (also an input). */
module AutoTag {
  import opened Common
  import opened Text

  // ------------------------------------------------------------ clean_text

  predicate IsTagStop(c: char) { c == '>' || c == '\n' }

  /** Where a lazy `<.*?>` match that starts at the front of `s` ends: the
      first `>` after the `<`, provided no newline comes before it. */
  function LazyTagEnd(s: string): (r: Option<nat>)
    ensures r.Some? ==> 0 < r.value < |s| && s[0] == '<' && s[r.value] == '>'
  {
    if |s| > 0 && s[0] == '<' then
      var j := FindFirst(s, 1, IsTagStop);
      if j < |s| && s[j] == '>' then Some(j) else None
    else None
  }

  /** `re.search(r"<.*?>", s)` finds nothing: no match starts anywhere. */
  predicate NoLazyTag(s: string) {
    forall i | 0 <= i < |s| :: LazyTagEnd(s[i..]).None?
  }

  /** `re.sub(r"<.*?>", "", s)`: no match is left behind, text without `<`
      is left as it is, nothing new is introduced, and the text up to the
      first stop character is kept when that stop is not a `>`. */
  function RemoveAngleTags(s: string): (r: string)
    ensures NoLazyTag(r)
    ensures (forall c | c in s :: c != '<') ==> r == s
    ensures |r| <= |s| && forall c | c in r :: c in s
    ensures KeepsFirstStop(s, r)
    decreases |s|
  {
    if s == [] then []
    else
      match LazyTagEnd(s)
      case Some(j) =>
        assert s[0] in s;
        assert forall c | c in s[j + 1..] :: c in s;
        var r := RemoveAngleTags(s[j + 1..]);
        assert FindFirst(s, 0, IsTagStop) == j;
        r
      case None =>
        assert forall c | c in s[1..] :: c in s;
        var rest := RemoveAngleTags(s[1..]);
        KeptHeadAngleTags(s, rest);
        s[..1] + rest
  }

  /** Text before the first `<` is kept as it is. */
  lemma {:induction false} RemoveAngleTagsKeepsPlainPrefix(a: string, b: string)
    requires forall c | c in a :: c != '<'
    ensures RemoveAngleTags(a + b) == a + RemoveAngleTags(b)
    decreases |a|
  {
    var s := a + b;
    var x := RemoveAngleTags(b);
    if a == [] {
      assert s == b;
    } else {
      assert a[0] in a;
      assert s[0] == a[0];
      assert LazyTagEnd(s) == None;
      assert s[1..] == a[1..] + b;
      assert forall c | c in a[1..] :: c in a;
      RemoveAngleTagsKeepsPlainPrefix(a[1..], b);
      var y := RemoveAngleTags(s[1..]);
      assert y == a[1..] + x;
      assert RemoveAngleTags(s) == s[..1] + y;
      assert s[..1] + (a[1..] + x) == (s[..1] + a[1..]) + x;
      assert s[..1] + a[1..] == a;
    }
  }



  /** A whole tag at the front, `<` then any characters other than `>` and
      newline then `>`, is deleted and nothing else with it. */
  lemma RemoveAngleTagsDropsTag(t: string, b: string)
    requires |t| >= 1 && t[0] == '<' && '>' !in t && '\n' !in t
    ensures RemoveAngleTags(t + ">" + b) == RemoveAngleTags(b)
  {
    var s := t + ">" + b;
    assert s[|t|] == '>';
    assert forall k | 1 <= k < |t| :: s[k] == t[k];
    assert FindFirst(s, 1, IsTagStop) == |t|;
    assert s[|t| + 1..] == b;
  }

  /** When the first `>` or newline of `s` is not a `>`, everything before
      it, and the newline itself, survive in `r`. */
  predicate KeepsFirstStop(s: string, r: string) {
    var k := FindFirst(s, 0, IsTagStop);
    (k == |s| || s[k] == '\n') ==>
      k <= |r| && r[..k] == s[..k] && (k < |s| ==> k < |r| && r[k] == '\n')
  }

  lemma {:induction false} FindFirstTail(s: string, from: nat, p: char -> bool)
    requires from < |s|
    ensures FindFirst(s, from + 1, p) == 1 + FindFirst(s[1..], from, p)
    decreases |s| - from
  {
    if from + 1 < |s| && !p(s[from + 1]) {
      assert s[1..][from] == s[from + 1];
      FindFirstTail(s, from + 1, p);
    }
  }

  /** A character that no match starts at, put in front of the cleaned rest,
      keeps the result free of matches. */
  lemma KeptHeadAngleTags(s: string, rest: string)
    requires s != [] && LazyTagEnd(s).None?
    requires |rest| <= |s| - 1
    requires NoLazyTag(rest)
    requires KeepsFirstStop(s[1..], rest)
    ensures NoLazyTag(s[..1] + rest)
    ensures KeepsFirstStop(s, s[..1] + rest)
  {
    var r := s[..1] + rest;
    var t := s[1..];
    var k := FindFirst(s, 0, IsTagStop);
    if !IsTagStop(s[0]) {
      FindFirstTail(s, 0, IsTagStop);
      var k1 := FindFirst(t, 0, IsTagStop);
      assert k == k1 + 1;
      if k == |s| || s[k] == '\n' {
        assert k1 == |t| || t[k1] == '\n';
        assert rest[..k1] == t[..k1];
        assert r[..k] == s[..1] + rest[..k1];
        assert s[..k] == s[..1] + t[..k1];
        if k < |s| {
          assert r[k] == rest[k1];
        }
      }
      if s[0] == '<' {
        assert k == FindFirst(s, 1, IsTagStop);
        assert k == |s| || s[k] == '\n';
        var jr := FindFirst(r, 1, IsTagStop);
        assert forall m | 1 <= m < k :: r[m] == s[m];
        assert jr == k;
      }
    }
    forall i | 0 <= i < |r|
      ensures LazyTagEnd(r[i..]).None?
    {
      if i > 0 {
        assert r[i..] == rest[i - 1..];
      }
    }
  }

  predicate IsWordOrSpace(c: char) { IsWordChar(c) || IsSpace(c) }

  /** Only lower-case word characters and whitespace. */
  predicate CleanChars(s: string) {
    forall c | c in s :: IsWordOrSpace(c) && !IsUpper(c)
  }

  /** `clean_text`: drop `<...>` tags, drop every character that is neither a
      word character nor whitespace, lower-case, strip. The result holds only
      lower-case word characters and whitespace, without whitespace at
      either end. */
  function CleanText(s: string): (r: string)
    ensures CleanChars(r) && Stripped(r)
  {
    var kept := Filter(RemoveAngleTags(s), IsWordOrSpace);
    LowerKeepsClass(kept);
    Strip(Lower(kept))
  }

  /** Text that is already clean is a fixed point of `CleanText`. */
  lemma CleanFixpoint(t: string)
    requires CleanChars(t) && Stripped(t)
    ensures CleanText(t) == t
  {
    assert '<' !in t;
    var a := RemoveAngleTags(t);
    var b := Filter(a, IsWordOrSpace);
    assert b == t;
    LowerOfLower(t);
  }

  /** Cleaning cleaned text changes nothing. */
  lemma CleanTextIdempotent(s: string)
    ensures CleanText(CleanText(s)) == CleanText(s)
  {
    CleanFixpoint(CleanText(s));
  }

  // ---------------------------------------------------- is_good_single_word

  /** `str.isalpha`. */
  predicate IsAlphaWord(w: string) { |w| > 0 && forall c | c in w :: IsAlpha(c) }

  /** `str.isdigit`. */
  predicate IsDigitWord(w: string) { |w| > 0 && forall c | c in w :: IsDigit(c) }

  /** `is_good_single_word` without the language models. */
  predicate GoodWordFallback(w: string) {
    |Words(w)| == 1 && !IsDigitWord(w) && |w| > 2 && IsAlphaWord(w)
  }

  /** The fallback test holds exactly for alphabetic words longer than two. */
  lemma GoodWordFallbackIff(w: string)
    ensures GoodWordFallback(w) <==> |w| > 2 && forall c | c in w :: IsAlpha(c)
  {
    if |w| > 2 && forall c | c in w :: IsAlpha(c) {
      assert NoSpace(w);
      WordsOfOneWord(w);
      assert w[0] in w;
    }
  }

  /** `is_good_single_word` with the language models: `posOk` stands for the
      tagger's verdict that every token is a noun, proper noun or adjective. */
  predicate GoodWordTagger(w: string, posOk: string -> bool) {
    |Words(w)| == 1 && posOk(w) && !IsDigitWord(w) && |w| > 2
  }

  // ------------------------------------------------------ selection loop

  /** Reference: the items `keep` accepts, each once, in order of first
      occurrence, leaving out those in `seen`. */
  function Firsts(items: seq<string>, keep: string -> bool, seen: set<string>): (r: seq<string>)
    ensures forall i, j :: 0 <= i < j < |r| ==> r[i] != r[j]
    ensures forall x | x in r :: x in items && keep(x) && x !in seen
    ensures forall x | x in items && keep(x) && x !in seen :: x in r
  {
    if items == [] then []
    else
      assert forall x | x in items[1..] :: x in items;
      var x := items[0];
      if keep(x) && x !in seen then
        var rest := Firsts(items[1..], keep, seen + {x});
        assert forall y | y in items && keep(y) && y !in seen && y != x :: y in items[1..];
        [x] + rest
      else
        Firsts(items[1..], keep, seen)
  }

  /** The selection loop shared by both tag extractors: skip items already
      seen or rejected by `keep`, append the others, and stop right after an
      append that brings the count to `limit` or beyond. */
  function Select(items: seq<string>, keep: string -> bool, limit: int, seen: set<string>, tags: seq<string>): seq<string>
  {
    if items == [] then tags
    else
      var x := items[0];
      if x in seen || !keep(x) then Select(items[1..], keep, limit, seen, tags)
      else if |tags| + 1 >= limit then tags + [x]
      else Select(items[1..], keep, limit, seen + {x}, tags + [x])
  }

  /** The loop returns the reference list cut at `max(1, limit)`: because the
      bound is tested only after an append, a limit of zero or less still
      yields one tag. */
  lemma {:induction false} SelectCutsFirsts(items: seq<string>, keep: string -> bool, limit: int,
                                                 seen: set<string>, tags: seq<string>)
    requires |tags| < Max(1, limit)
    ensures Select(items, keep, limit, seen, tags) == SliceTo(tags + Firsts(items, keep, seen), Max(1, limit))
  {
    if items == [] {
      assert tags + [] == tags;
    } else {
      var x := items[0];
      if x in seen || !keep(x) {
        SelectCutsFirsts(items[1..], keep, limit, seen, tags);
      } else {
        var rest := Firsts(items[1..], keep, seen + {x});
        assert tags + Firsts(items, keep, seen) == (tags + [x]) + rest;
        if |tags| + 1 >= limit {
          assert |tags + [x]| == Max(1, limit);
        } else {
          SelectCutsFirsts(items[1..], keep, limit, seen + {x}, tags + [x]);
        }
      }
    }
  }

  /** What a run of the selection loop from scratch returns: distinct items
      accepted by `keep`, in order of first occurrence, at most `limit` of them
      when `limit >= 1` and at most one otherwise, and every accepted item
      when the loop did not stop early. */
  lemma SelectProperties(items: seq<string>, keep: string -> bool, limit: int)
    ensures var r := Select(items, keep, limit, {}, []);
      && r == SliceTo(Firsts(items, keep, {}), Max(1, limit))
      && (forall i, j :: 0 <= i < j < |r| ==> r[i] != r[j])
      && (forall x | x in r :: x in items && keep(x))
      && |r| <= Max(1, limit)
      && (|r| < Max(1, limit) ==> forall x | x in items && keep(x) :: x in r)
  {
    SelectCutsFirsts(items, keep, limit, {}, []);
    assert [] + Firsts(items, keep, {}) == Firsts(items, keep, {});
  }

  // ------------------------------------------------------- tag extractors

  /** The words the fallback keeps. */
  predicate FallbackKeep(w: string) { GoodWordFallback(w) && |w| > 3 }

  /** `extract_tags_fallback`: distinct alphabetic words longer than three
      characters of the cleaned `title + " " + body`, in order of first
      occurrence; at most `topK` of them when `topK >= 1`, and one (if any
      word qualifies) when `topK <= 0`. */
  function ExtractTagsFallback(title: string, body: string, topK: int): (r: seq<string>)
    ensures var words := Words(CleanText(title + " " + body));
      && (forall i, j :: 0 <= i < j < |r| ==> r[i] != r[j])
      && (forall w | w in r :: w in words && |w| > 3 && forall c | c in w :: IsAlpha(c))
      && r == SliceTo(Firsts(words, FallbackKeep, {}), Max(1, topK))
      && (topK >= 1 ==> |r| <= topK)
      && (topK <= 0 ==> |r| <= 1)
      && (topK <= 0 && (exists w | w in words :: FallbackKeep(w)) ==> |r| == 1)
  {
    var words := Words(CleanText(title + " " + body));
    var r := Select(words, FallbackKeep, topK, {}, []);
    SelectProperties(words, FallbackKeep, topK);
    forall w | w in r
      ensures |w| > 3 && forall c | c in w :: IsAlpha(c)
    {
      GoodWordFallbackIff(w);
    }
    r
  }

  /** Which tagging back end is loaded: none, or the language models with the
      ranker's keywords for this text (best first) and the part-of-speech test. */
  datatype Tagger = NoModels | Models(keywords: seq<string>, posOk: string -> bool)

  /** `kw.lower().strip()`. */
  function NormalizeKeyword(kw: string): string {
    Strip(Lower(kw))
  }

  function TaggerKeep(posOk: string -> bool): string -> bool {
    w => GoodWordTagger(w, posOk)
  }

  /** `extract_single_word_tags`. With the models, the result keeps the
      ranker's order, drops duplicates and words failing the part-of-speech
      test, and stops at `topK` (one when `topK <= 0`). */
  function ExtractSingleWordTags(title: string, body: string, topK: int, tagger: Tagger): (r: seq<string>)
    ensures tagger.NoModels? ==> r == ExtractTagsFallback(title, body, topK)
    ensures tagger.Models? ==>
      var kws := seq(|tagger.keywords|, i requires 0 <= i < |tagger.keywords| => NormalizeKeyword(tagger.keywords[i]));
      && r == SliceTo(Firsts(kws, TaggerKeep(tagger.posOk), {}), Max(1, topK))
      && (forall i, j :: 0 <= i < j < |r| ==> r[i] != r[j])
      && (forall w | w in r :: w in kws && GoodWordTagger(w, tagger.posOk))
      && |r| <= Max(1, topK)
  {
    match tagger
    case NoModels => ExtractTagsFallback(title, body, topK)
    case Models(keywords, posOk) =>
      var kws := seq(|keywords|, i requires 0 <= i < |keywords| => NormalizeKeyword(keywords[i]));
      SelectProperties(kws, TaggerKeep(posOk), topK);
      Select(kws, TaggerKeep(posOk), topK, {}, [])
  }

  /** The question dictionary as far as tagging sees it. */
  datatype TagDraft = TagDraft(title: string, body: string, tags: Option<seq<string>>)

  /** `auto_tag_question`: sets the `tags` field from the extractor and leaves
      the rest of the record as it was. */
  function AutoTagQuestion(q: TagDraft, topK: int, tagger: Tagger): (r: TagDraft)
    ensures r.title == q.title && r.body == q.body
    ensures r.tags == Some(ExtractSingleWordTags(q.title, q.body, topK, tagger))
    ensures |r.tags.value| <= Max(1, topK)
  {
    q.(tags := Some(ExtractSingleWordTags(q.title, q.body, topK, tagger)))
  }
}

=== FILE: common.dfy ===
/** The values every module of the model shares: an optional value, the
    HTTP status codes the route handlers raise, and the result of a route
    (a value, or a status with its detail text). */
module Common {

  datatype Option<+T> = None | Some(value: T) {
    /** The value, or `default` when absent (Python's `d.get(key, default)`). */
    function GetOr(default: T): T {
      match this
      case Some(v) => v
      case None => default
    }
  }

  /** The error statuses the handlers raise. `Unprocessable` is the 422 the
      web framework answers when a request body fails its schema. */
  datatype Status = BadRequest | Unauthorized | Forbidden | NotFound | Unprocessable | InternalError {
    function Code(): nat {
      match this
      case BadRequest => 400
      case Unauthorized => 401
      case Forbidden => 403
      case NotFound => 404
      case Unprocessable => 422
      case InternalError => 500
    }
  }

  /** The outcome of a route: a value, or the raised HTTP error. */
  datatype Result<+T> = Ok(value: T) | Err(status: Status, detail: string)

  /** No element occurs twice. */
  predicate Distinct<T(==)>(xs: seq<T>) {
    forall i, j | 0 <= i < j < |xs| :: xs[i] != xs[j]
  }

  function Min(a: int, b: int): int { if a <= b then a else b }
  function Max(a: int, b: int): int { if a <= b then b else a }
}

=== FILE: moderation.dfy ===
/** Content moderation (`is_toxic`). Without the classifier the check falls
    back to a keyword scan; with it, the classifier's toxicity score (an input
    here) is compared against a threshold. Scores are modelled as exact reals. */
module Moderation {
  import opened Text

  /** The keywords of the fallback scan, in the order they are tried. */
  const ToxicWords: seq<string> := ["spam", "hate", "toxic", "abuse", "inappropriate"]

  const DefaultThreshold: real := 0.5

  /** The fallback's fixed scores for flagged and for clean text. */
  const FlaggedScore: real := 0.8
  const CleanScore: real := 0.1

  /** Which moderator is loaded: the keyword fallback, or the classifier
      together with the toxic-class probability it gives the text. */
  datatype Moderator = KeywordFallback | Classifier(toxicScore: real)

  datatype Verdict = Verdict(flagged: bool, score: real)

  /** Some keyword occurs somewhere in `t`. */
  ghost predicate SomeWordOccurs(t: string, words: seq<string>) {
    exists w, i: nat | w in words :: OccursAt(t, w, i)
  }

  /** The loop over the keywords, returning at the first one found. */
  predicate AnyWordIn(t: string, words: seq<string>)
  {
    |words| > 0 && (Contains(t, words[0]) || AnyWordIn(t, words[1..]))
  }

  lemma {:induction false} AnyWordInIff(t: string, words: seq<string>)
    ensures AnyWordIn(t, words) <==> SomeWordOccurs(t, words)
  {
    if |words| > 0 {
      ContainsIff(t, words[0]);
      AnyWordInIff(t, words[1..]);
      assert words == [words[0]] + words[1..];
      if SomeWordOccurs(t, words) {
        var w, i: nat :| w in words && OccursAt(t, w, i);
        if w != words[0] {
          assert w in words[1..];
        }
      }
    }
  }

  /** The fallback flags text exactly when one of the keywords is a substring
      of the lower-cased text, scoring 0.8 when flagged and 0.1 otherwise, and
      ignores the threshold; the classifier path flags exactly when its score
      reaches the threshold. */
  function IsToxic(text: string, threshold: real, m: Moderator): (v: Verdict)
    ensures m.KeywordFallback? ==> (v.flagged <==> SomeWordOccurs(Lower(text), ToxicWords))
    ensures m.KeywordFallback? ==> v.score == if v.flagged then FlaggedScore else CleanScore
    ensures m.Classifier? ==> v.score == m.toxicScore && (v.flagged <==> threshold <= m.toxicScore)
  {
    match m
    case KeywordFallback =>
      AnyWordInIff(Lower(text), ToxicWords);
      if AnyWordIn(Lower(text), ToxicWords) then Verdict(true, FlaggedScore) else Verdict(false, CleanScore)
    case Classifier(score) =>
      Verdict(score >= threshold, score)
  }

  /** Matching is by substring, not whole word: "whatever" contains "hate". */
  lemma SubstringNotWholeWord()
    ensures IsToxic("whatever", DefaultThreshold, KeywordFallback).flagged
  {
    LowerOfLower("whatever");
    assert "whatever"[1..5] == "hate";
    assert OccursAt(Lower("whatever"), "hate", 1);
  }

  /** Matching ignores case: "SPAM" is flagged, and lower-casing the text
      first never changes the verdict. */
  lemma {:induction false} FallbackIgnoresCase(text: string, threshold: real)
    ensures IsToxic(Lower(text), threshold, KeywordFallback) == IsToxic(text, threshold, KeywordFallback)
    ensures IsToxic("SPAM", threshold, KeywordFallback).flagged
  {
    LowerOfLower(Lower(text));
    assert OccursAt(Lower("SPAM"), "spam", 0);
  }

  /** Empty text is never flagged by the fallback, whatever the threshold. */
  lemma EmptyNeverFlagged(threshold: real)
    ensures !IsToxic("", threshold, KeywordFallback).flagged
  {
    assert Lower("") == "";
    forall w, i: nat | w in ToxicWords
      ensures !OccursAt("", w, i)
    {
      assert |w| > 0;
    }
  }

  /** The fallback's verdict does not depend on the threshold; the
      classifier's does, at the default of 0.5. */
  lemma ThresholdUse(text: string, t1: real, t2: real)
    ensures IsToxic(text, t1, KeywordFallback) == IsToxic(text, t2, KeywordFallback)
    ensures IsToxic(text, DefaultThreshold, Classifier(0.5)).flagged
    ensures !IsToxic(text, DefaultThreshold, Classifier(0.49)).flagged
  {
  }
}

=== FILE: notify.dfy ===
/** Notifications: the `@name` scanner, the three triggers that decide who
    is told about what, the write that drops self-notifications, and the
    read-marking and counting routes. A trigger is modelled as the list of
    `create_notification` calls it makes (`Call`), and `Deliver` runs such
    a list against the store. */
module Notify {
  import opened Common
  import opened Text
  import opened ObjectIds
  import opened Schemas
  import opened Records

  // ------------------------------------------------------- extract_mentions

  /** An `@` at `i` directly followed by a word character. */
  predicate MentionStart(s: string, i: int) {
    0 <= i && i + 1 < |s| && s[i] == '@' && IsWordChar(s[i + 1])
  }

  predicate NotWordChar(c: char) { !IsWordChar(c) }

  /** Where the run of word characters starting at `j` ends. */
  function RunEnd(s: string, j: nat): (e: nat)
    requires j <= |s|
    ensures j <= e <= |s|
    ensures forall k | j <= k < e :: IsWordChar(s[k])
    ensures e == |s| || !IsWordChar(s[e])
  {
    FindFirst(s, j, NotWordChar)
  }

  /** A run of word characters ended by a non-word character or by the end
      of the text is the run `RunEnd` finds. */
  lemma RunEndAt(s: string, j: nat, e: nat)
    requires j <= e <= |s|
    requires forall k | j <= k < e :: IsWordChar(s[k])
    requires e == |s| || !IsWordChar(s[e])
    ensures RunEnd(s, j) == e
  {
  }

  /** The name a mention at `i` contributes: the run of word characters
      after the `@`, or nothing when no mention starts there. */
  function MentionAt(s: string, i: nat): (r: seq<string>)
    requires i < |s|
    ensures |r| <= 1
    ensures forall m | m in r :: |m| > 0 && forall c | c in m :: IsWordChar(c)
    ensures s[i] != '@' ==> r == []
  {
    if MentionStart(s, i) then [s[i + 1..RunEnd(s, i + 1)]] else []
  }

  /** Reference: for every `@` from position `i` on that is directly followed
      by a word character, in order, the whole run of word characters after
      it. */
  function MentionsFrom(s: string, i: nat): seq<string>
    requires i <= |s|
    decreases |s| - i
  {
    if i == |s| then [] else MentionAt(s, i) + MentionsFrom(s, i + 1)
  }

  /** Every name found is a non-empty run of word characters. */
  lemma {:induction false} MentionsFromWords(s: string, i: nat)
    requires i <= |s|
    ensures forall m | m in MentionsFrom(s, i) :: |m| > 0 && forall c | c in m :: IsWordChar(c)
    decreases |s| - i
  {
    if i < |s| {
      MentionsFromWords(s, i + 1);
      var here := MentionAt(s, i);
      var rest := MentionsFrom(s, i + 1);
      assert MentionsFrom(s, i) == here + rest;
      forall m | m in here + rest
        ensures |m| > 0 && forall c | c in m :: IsWordChar(c)
      {
        if m in here {
        } else {
          assert m in rest;
        }
      }
    }
  }

  /** Without an `@` followed by a word character nothing is found. */
  lemma {:induction false} MentionsFromNone(s: string, i: nat)
    requires i <= |s|
    ensures (forall k | i <= k < |s| :: !MentionStart(s, k)) ==> MentionsFrom(s, i) == []
    decreases |s| - i
  {
    if i < |s| && forall k | i <= k < |s| :: !MentionStart(s, k) {
      MentionsFromNone(s, i + 1);
      assert !MentionStart(s, i);
      EmptyConcat(MentionAt(s, i), MentionsFrom(s, i + 1));
    }
  }

  /** The `re.findall(r'@(\w+)', s)` scan from position `i`: after a match it
      resumes where the match ended, otherwise one character further. */
  function Scan(s: string, i: nat): seq<string>
    requires i <= |s|
    decreases |s| - i
  {
    if i == |s| then []
    else if MentionStart(s, i) then
      var e := RunEnd(s, i + 1);
      [s[i + 1..e]] + Scan(s, e)
    else Scan(s, i + 1)
  }

  /** Skipping characters that hold no `@` skips no mention. */
  lemma {:induction false} SkipNoAt(s: string, j: nat, e: nat)
    requires j <= e <= |s|
    requires '@' !in s[j..e]
    ensures MentionsFrom(s, j) == MentionsFrom(s, e)
    decreases e - j
  {
    if j < e {
      assert s[j] == s[j..e][0];
      assert s[j + 1..e] == s[j..e][1..];
      EmptyConcat(MentionAt(s, j), MentionsFrom(s, j + 1));
      SkipNoAt(s, j + 1, e);
    }
  }

  lemma WordRunHasNoAt(s: string, j: nat, e: nat)
    requires j <= e <= |s|
    requires forall k | j <= k < e :: IsWordChar(s[k])
    ensures '@' !in s[j..e]
  {
    assert forall k | j <= k < e :: s[k] != '@' by {
      assert !IsWordChar('@');
    }
  }

  lemma EmptyConcat<T>(x: seq<T>, y: seq<T>)
    requires x == []
    ensures x + y == y
  {
  }

  lemma {:induction false} ScanIsMentionsFrom(s: string, i: nat)
    requires i <= |s|
    ensures Scan(s, i) == MentionsFrom(s, i)
    decreases |s| - i
  {
    if i < |s| {
      if MentionStart(s, i) {
        var e := RunEnd(s, i + 1);
        WordRunHasNoAt(s, i + 1, e);
        SkipNoAt(s, i + 1, e);
        ScanIsMentionsFrom(s, e);
      } else {
        ScanIsMentionsFrom(s, i + 1);
      }
    }
  }

  /** `extract_mentions`: one name per `@` that is directly followed by a word
      character, in order of appearance, each the whole word-character run
      after its `@`; duplicates are kept. */
  function ExtractMentions(text: string): (r: seq<string>)
    ensures r == MentionsFrom(text, 0)
    ensures forall m | m in r :: |m| > 0 && forall c | c in m :: IsWordChar(c)
    ensures (forall k | 0 <= k < |text| :: !MentionStart(text, k)) ==> r == []
  {
    ScanIsMentionsFrom(text, 0);
    MentionsFromWords(text, 0);
    MentionsFromNone(text, 0);
    Scan(text, 0)
  }

  /** An `@` followed by a non-empty run of word characters that the next
      character ends contributes that run. */
  lemma MentionOfRun(s: string, p: nat, name: string)
    requires p + 1 + |name| < |s| && s[p] == '@'
    requires |name| > 0 && forall c | c in name :: IsWordChar(c)
    requires s[p + 1..p + 1 + |name|] == name && !IsWordChar(s[p + 1 + |name|])
    ensures MentionAt(s, p) == [name]
  {
    var e := p + 1 + |name|;
    forall k | p + 1 <= k < e
      ensures IsWordChar(s[k])
    {
      assert s[k] == name[k - (p + 1)];
    }
    RunEndAt(s, p + 1, e);
    assert s[p + 1] == name[0];
  }

  /** A text with a single `@`, directly followed by `name` and then by a
      non-word character, mentions exactly `name`. */
  lemma SingleMention(s: string, p: nat, name: string)
    requires p + 1 + |name| < |s| && s[p] == '@'
    requires '@' !in s[..p] && '@' !in s[p + 1..|s|]
    requires |name| > 0 && forall c | c in name :: IsWordChar(c)
    requires s[p + 1..p + 1 + |name|] == name && !IsWordChar(s[p + 1 + |name|])
    ensures MentionsFrom(s, 0) == [name]
  {
    SkipNoAt(s, 0, p);
    SkipNoAt(s, p + 1, |s|);
    MentionOfRun(s, p, name);
    assert MentionsFrom(s, p) == [name] + [];
  }

  /** In an e-mail address the host label, from the `@` up to the dot, is
      taken as a name: "a@b.com" mentions "b". */
  lemma MentionInAddress(user: string, host: string, domain: string)
    requires '@' !in user && '@' !in domain
    requires |host| > 0 && forall c | c in host :: IsWordChar(c)
    ensures ExtractMentions(user + "@" + host + "." + domain) == [host]
  {
    var s := user + "@" + host + "." + domain;
    var tail := host + "." + domain;
    var p := |user|;
    assert s[..p] == user;
    assert s[p + 1..|s|] == tail;
    assert '@' !in tail by {
      assert !IsWordChar('@');
    }
    assert s[p + 1..p + 1 + |host|] == host;
    assert s[p + 1 + |host|] == tail[|host|] == '.';
    SingleMention(s, p, host);
  }

  // ---------------------------------------------------- create_notification

  /** One `create_notification` call. */
  datatype Call = Call(userId: Id, fromUserId: Id, kind: NotificationType, message: string,
                       questionId: Option<Id>, answerId: Option<Id>)

  /** A call that would notify its own sender. */
  predicate SelfCall(c: Call) { c.userId == c.fromUserId }

  /** `create_notification`: appends one unread notification with a fresh id
      unless the recipient is the sender, in which case nothing happens.
      Users, questions and answers are never touched. */
  function CreateNotification(s: Store, c: Call): (r: Store)
    ensures r.users == s.users && r.questions == s.questions && r.answers == s.answers
    ensures s.notifications <= r.notifications
    ensures SelfCall(c) ==> r == s
    ensures !SelfCall(c) ==>
      && |r.notifications| == |s.notifications| + 1
      && var n := r.notifications[|s.notifications|];
         n.userId == c.userId && n.fromUserId == c.fromUserId && n.kind == c.kind
         && n.message == c.message && n.questionId == c.questionId && n.answerId == c.answerId
         && !n.read
         && n.id == s.nextId && r.nextId == s.nextId + 1
         && (Fresh(s) ==> Fresh(r) && forall i | 0 <= i < |s.notifications| :: s.notifications[i].id != n.id)
  {
    if SelfCall(c) then s
    else
      var n := Notification(s.nextId, c.userId, c.fromUserId, c.kind, c.message, c.questionId, c.answerId, false);
      s.(notifications := s.notifications + [n], nextId := s.nextId + 1)
  }

  /** Runs the calls in order. */
  function Deliver(s: Store, calls: seq<Call>): Store
    decreases |calls|
  {
    if calls == [] then s else Deliver(CreateNotification(s, calls[0]), calls[1..])
  }

  /** The calls that do write, i.e. that are not addressed to their sender. */
  function Effective(calls: seq<Call>): nat {
    if calls == [] then 0 else (if SelfCall(calls[0]) then 0 else 1) + Effective(calls[1..])
  }

  /** The calls that reach user `u`. */
  function EffectiveFor(calls: seq<Call>, u: Id): nat {
    if calls == [] then 0
    else (if !SelfCall(calls[0]) && calls[0].userId == u then 1 else 0) + EffectiveFor(calls[1..], u)
  }

  // ------------------------------------------------------------- counting

  /** `count_documents({"user_id": u})`. */
  function Total(ns: seq<Notification>, u: Id): nat {
    if ns == [] then 0 else (if ns[0].userId == u then 1 else 0) + Total(ns[1..], u)
  }

  /** `count_documents({"user_id": u, "read": False})`: never more than the
      total, as the query only adds a condition. */
  function Unread(ns: seq<Notification>, u: Id): (r: nat)
    ensures r <= Total(ns, u)
    ensures r == 0 <== forall i | 0 <= i < |ns| :: ns[i].userId == u ==> ns[i].read
  {
    if ns == [] then 0
    else
      assert forall i | 0 <= i < |ns[1..]| :: ns[1..][i] == ns[i + 1];
      (if ns[0].userId == u && !ns[0].read then 1 else 0) + Unread(ns[1..], u)
  }

  lemma {:induction false} TotalAppend(a: seq<Notification>, b: seq<Notification>, u: Id)
    ensures Total(a + b, u) == Total(a, u) + Total(b, u)
  {
    if a != [] {
      assert (a + b)[1..] == a[1..] + b;
      TotalAppend(a[1..], b, u);
    } else {
      assert a + b == b;
    }
  }

  lemma {:induction false} UnreadAppend(a: seq<Notification>, b: seq<Notification>, u: Id)
    ensures Unread(a + b, u) == Unread(a, u) + Unread(b, u)
  {
    if a != [] {
      assert (a + b)[1..] == a[1..] + b;
      UnreadAppend(a[1..], b, u);
    } else {
      assert a + b == b;
    }
  }

  /** Every call that is not addressed to its sender adds one notification,
      to its recipient, and unread; other users' counts do not move, and
      nothing but the notifications changes. */
  lemma {:induction false} DeliverCounts(s: Store, calls: seq<Call>, u: Id)
    ensures var r := Deliver(s, calls);
      && r.users == s.users && r.questions == s.questions && r.answers == s.answers
      && s.notifications <= r.notifications
      && |r.notifications| == |s.notifications| + Effective(calls)
      && Total(r.notifications, u) == Total(s.notifications, u) + EffectiveFor(calls, u)
      && Unread(r.notifications, u) == Unread(s.notifications, u) + EffectiveFor(calls, u)
    decreases |calls|
  {
    if calls != [] {
      var s1 := CreateNotification(s, calls[0]);
      DeliverCounts(s1, calls[1..], u);
      if !SelfCall(calls[0]) {
        var n := s1.notifications[|s.notifications|];
        assert s1.notifications == s.notifications + [n];
        TotalAppend(s.notifications, [n], u);
        UnreadAppend(s.notifications, [n], u);
      }
    }
  }

  /** Calls addressed to their own senders write nothing. */
  lemma {:induction false} DeliverSelfCalls(s: Store, calls: seq<Call>)
    requires forall c | c in calls :: SelfCall(c)
    ensures Deliver(s, calls) == s
    decreases |calls|
  {
    if calls != [] {
      assert calls[0] in calls;
      assert forall c | c in calls[1..] :: c in calls;
      DeliverSelfCalls(s, calls[1..]);
    }
  }

  /** Delivering calls whose messages fit the schema keeps the store valid. */
  lemma {:induction false} DeliverValid(s: Store, calls: seq<Call>)
    requires Valid(s)
    requires forall c | c in calls :: ValidMessage(c.message)
    ensures Valid(Deliver(s, calls))
    decreases |calls|
  {
    if calls != [] {
      var c := calls[0];
      assert c in calls;
      var s1 := CreateNotification(s, c);
      if !SelfCall(c) {
        var ns := s1.notifications;
        assert forall i | 0 <= i < |s.notifications| :: ns[i] == s.notifications[i];
        assert ns[|s.notifications|].id == s.nextId;
        assert Valid(s1);
      }
      assert forall x | x in calls[1..] :: x in calls;
      DeliverValid(s1, calls[1..]);
    }
  }

  // ------------------------------------------------------------- triggers

  /** The name shown for a sender who has no user document. */
  const Someone: string := "Someone"

  /** `notify_new_answer`: tells the question's author, unless the question
      is missing. */
  function NewAnswerCalls(s: Store, q: Id, a: Id, answerer: Id): (r: seq<Call>)
    ensures q !in s.questions ==> r == []
    ensures q in s.questions ==>
      && |r| == 1
      && r[0].userId == s.questions[q].userId && r[0].fromUserId == answerer
      && r[0].kind == AnswerNote && r[0].questionId == Some(q) && r[0].answerId == Some(a)
  {
    if q !in s.questions then []
    else
      var question := s.questions[q];
      var message := NameOr(s.users, answerer, Someone) + " answered your question: " + question.title;
      [Call(question.userId, answerer, AnswerNote, message, Some(q), Some(a))]
  }

  /** `notify_accepted_answer`: tells the answer's author, unless the answer
      or its question is missing. */
  function AcceptedCalls(s: Store, a: Id, questionAuthor: Id): (r: seq<Call>)
    ensures (a !in s.answers || s.answers[a].questionId !in s.questions) ==> r == []
    ensures a in s.answers && s.answers[a].questionId in s.questions ==>
      && |r| == 1
      && r[0].userId == s.answers[a].userId && r[0].fromUserId == questionAuthor
      && r[0].kind == AcceptedAnswer && r[0].questionId == Some(s.answers[a].questionId)
      && r[0].answerId == Some(a)
  {
    if a !in s.answers then []
    else
      var answer := s.answers[a];
      if answer.questionId !in s.questions then []
      else
        var title := s.questions[answer.questionId].title;
        var message := NameOr(s.users, questionAuthor, Someone) + " accepted your answer to: " + title;
        [Call(answer.userId, questionAuthor, AcceptedAnswer, message, Some(answer.questionId), Some(a))]
  }

  /** Reference: the names for which `find_one({"username": name})` finds a
      user, in their order, duplicates kept. */
  function Found(users: seq<UserRec>, names: seq<string>): (r: seq<string>)
    ensures |r| <= |names|
    ensures forall k | 0 <= k < |r| :: r[k] in names && FindUserByName(users, r[k]).Some?
    ensures forall n | n in names && FindUserByName(users, n).Some? :: n in r
    ensures (forall n | n in names :: FindUserByName(users, n).Some?) ==> r == names
    ensures (forall n | n in names :: FindUserByName(users, n).None?) ==> r == []
  {
    if names == [] then []
    else
      assert forall n | n in names[1..] :: n in names;
      assert names[0] in names;
      var rest := Found(users, names[1..]);
      if FindUserByName(users, names[0]).Some? then [names[0]] + rest else rest
  }

  /** The calls of the mention loop for `names`: one call per found name, in
      the same order, addressed to the user that name finds. */
  function MentionCallsFor(users: seq<UserRec>, names: seq<string>, message: string, from: Id,
                           q: Option<Id>, a: Option<Id>): (r: seq<Call>)
    ensures var found := Found(users, names);
      && |r| == |found|
      && forall k | 0 <= k < |r| ::
           r[k] == Call(FindUserByName(users, found[k]).value.id, from, Mention, message, q, a)
    decreases |names|
  {
    if names == [] then []
    else
      var rest := MentionCallsFor(users, names[1..], message, from, q, a);
      ghost var found := Found(users, names);
      ghost var tail := Found(users, names[1..]);
      match FindUserByName(users, names[0])
      case Some(u) =>
        assert found == [names[0]] + tail;
        assert found[1..] == tail;
        var r := [Call(u.id, from, Mention, message, q, a)] + rest;
        assert r[1..] == rest;
        r
      case None =>
        assert found == tail;
        rest
  }

  /** The message a mention notification carries. */
  function MentionMessage(s: Store, from: Id): string {
    NameOr(s.users, from, Someone) + " mentioned you in a post"
  }

  /** `notify_mentions`: nothing without mentions; otherwise, for each
      mention occurrence in order, duplicates included, one call to the user
      the name finds, and none for a name that finds nobody. */
  function MentionCalls(s: Store, content: string, from: Id, q: Option<Id>, a: Option<Id>): (r: seq<Call>)
    ensures ExtractMentions(content) == [] ==> r == []
    ensures var found := Found(s.users, ExtractMentions(content));
      && |r| == |found|
      && forall k | 0 <= k < |r| ::
           r[k] == Call(FindUserByName(s.users, found[k]).value.id, from, Mention, MentionMessage(s, from), q, a)
  {
    var names := ExtractMentions(content);
    if names == [] then []
    else MentionCallsFor(s.users, names, MentionMessage(s, from), from, q, a)
  }

  /** The mention calls read only the users. */
  lemma MentionCallsReadUsers(s: Store, t: Store, content: string, from: Id, q: Option<Id>, a: Option<Id>)
    requires s.users == t.users
    ensures MentionCalls(s, content, from, q, a) == MentionCalls(t, content, from, q, a)
  {
  }

  /** The new-answer call reads only the users and the question's author
      and title. */
  lemma NewAnswerCallsRead(s: Store, t: Store, q: Id, a: Id, answerer: Id)
    requires s.users == t.users && (q in s.questions <==> q in t.questions)
    requires q in s.questions ==>
      s.questions[q].userId == t.questions[q].userId && s.questions[q].title == t.questions[q].title
    ensures NewAnswerCalls(s, q, a, answerer) == NewAnswerCalls(t, q, a, answerer)
  {
  }

  /** Mentioning only oneself notifies nobody. */
  lemma SelfMentionSilent(s: Store, me: UserRec, content: string, q: Option<Id>, a: Option<Id>)
    requires UsersValid(s.users) && me in s.users
    requires forall n | n in ExtractMentions(content) :: n == me.username
    ensures Deliver(s, MentionCalls(s, content, me.id, q, a)) == s
  {
    var calls := MentionCalls(s, content, me.id, q, a);
    forall c | c in calls
      ensures SelfCall(c)
    {
      var u :| u in s.users && u.id == c.userId && u.username in ExtractMentions(content);
      var i :| 0 <= i < |s.users| && s.users[i] == u;
      var j :| 0 <= j < |s.users| && s.users[j] == me;
      assert i == j;
    }
    DeliverSelfCalls(s, calls);
  }

  // ------------------------------------------------ message length bounds

  /** `name + " answered your question: " + title` and the other two
      messages fit the 500-character bound whenever the name is a valid
      username or "Someone" and the title obeys the question schema. */
  lemma NameBound(s: Store, id: Id)
    requires UsersValid(s.users)
    ensures |NameOr(s.users, id, Someone)| <= UsernameMax
  {
    if FindUserById(s.users, id).Some? {
      var u :| u in s.users && u.id == id && NameOr(s.users, id, Someone) == u.username;
      var i :| 0 <= i < |s.users| && s.users[i] == u;
    }
  }

  lemma NewAnswerMessagesValid(s: Store, q: Id, a: Id, answerer: Id)
    requires Valid(s)
    ensures forall c | c in NewAnswerCalls(s, q, a, answerer) :: ValidMessage(c.message)
  {
    NameBound(s, answerer);
  }

  lemma AcceptedMessagesValid(s: Store, a: Id, questionAuthor: Id)
    requires Valid(s)
    ensures forall c | c in AcceptedCalls(s, a, questionAuthor) :: ValidMessage(c.message)
  {
    NameBound(s, questionAuthor);
  }

  lemma MentionMessagesValid(s: Store, content: string, from: Id, q: Option<Id>, a: Option<Id>)
    requires Valid(s)
    ensures forall c | c in MentionCalls(s, content, from, q, a) :: ValidMessage(c.message)
  {
    NameBound(s, from);
  }

  // ------------------------------------------------------- read marking

  /** Index of the caller's notification with id `id`, if any. */
  function FindOwned(ns: seq<Notification>, id: Id, owner: Id): (r: Option<nat>)
    ensures r.Some? ==> r.value < |ns| && ns[r.value].id == id && ns[r.value].userId == owner
    ensures r.None? <==> forall i | 0 <= i < |ns| :: !(ns[i].id == id && ns[i].userId == owner)
  {
    if ns == [] then None
    else if ns[0].id == id && ns[0].userId == owner then Some(0)
    else
      match FindOwned(ns[1..], id, owner)
      case Some(i) => Some(i + 1)
      case None =>
        assert forall i | 1 <= i < |ns| :: ns[i] == ns[1..][i - 1];
        None
  }

  /** The `update_one` on the caller's notification with id `id`: that one
      becomes read and the others stay as they were; `None` when there is
      no such notification. */
  function MarkOwnedRead(ns: seq<Notification>, id: Id, owner: Id): (r: Option<seq<Notification>>)
    ensures r.None? <==> forall i | 0 <= i < |ns| :: !(ns[i].id == id && ns[i].userId == owner)
    ensures r.Some? ==>
      && |r.value| == |ns|
      && exists i | 0 <= i < |ns| ::
           && ns[i].id == id && ns[i].userId == owner
           && r.value[i] == ns[i].(read := true)
           && forall j | 0 <= j < |ns| && j != i :: r.value[j] == ns[j]
  {
    match FindOwned(ns, id, owner)
    case None => None
    case Some(i) => Some(ns[i := ns[i].(read := true)])
  }

  const InvalidNotificationId: string := "Invalid notification ID"

  /** `mark_notification_read`: a malformed id, an unknown id and another
      user's notification all end in 400 (the 404 raised inside the `try` is
      caught by its bare `except`); otherwise that one notification becomes
      read and nothing else changes. */
  function MarkNotificationRead(s: Store, raw: string, me: UserRec): (r: Outcome<string>)
    ensures r.result.Err? ==> r.result.status == BadRequest && r.store == s
    ensures r.result.Ok? <==>
      ParseObjectId(raw).Some?
      && exists i | 0 <= i < |s.notifications| ::
           s.notifications[i].id == ParseObjectId(raw).value && s.notifications[i].userId == me.id
    ensures r.result.Ok? ==>
      && r.store == s.(notifications := r.store.notifications)
      && |r.store.notifications| == |s.notifications|
      && exists i | 0 <= i < |s.notifications| ::
           && s.notifications[i].id == ParseObjectId(raw).value && s.notifications[i].userId == me.id
           && r.store.notifications[i] == s.notifications[i].(read := true)
           && forall j | 0 <= j < |s.notifications| && j != i :: r.store.notifications[j] == s.notifications[j]
  {
    match ParseObjectId(raw)
    case None => Outcome(s, Err(BadRequest, InvalidNotificationId))
    case Some(id) =>
      match MarkOwnedRead(s.notifications, id, me.id)
      case None => Outcome(s, Err(BadRequest, InvalidNotificationId))
      case Some(ns) => Outcome(s.(notifications := ns), Ok("Notification marked as read"))
  }

  /** `mark_all_notifications_read`: every notification of the caller becomes
      read, every other notification is left as it was, and the count
      returned is the number that were unread before (the documents the
      update actually modified). */
  function MarkAllRead(s: Store, me: UserRec): (r: Outcome<nat>)
    ensures r.result.Ok?
    ensures r.store.users == s.users && r.store.questions == s.questions && r.store.answers == s.answers
    ensures |r.store.notifications| == |s.notifications|
    ensures forall i | 0 <= i < |s.notifications| ::
      r.store.notifications[i] ==
        if s.notifications[i].userId == me.id then s.notifications[i].(read := true) else s.notifications[i]
    ensures r.result.value == Unread(s.notifications, me.id)
  {
    var ns := MarkAll(s.notifications, me.id);
    Outcome(s.(notifications := ns), Ok(Unread(s.notifications, me.id)))
  }

  function MarkAll(ns: seq<Notification>, u: Id): (r: seq<Notification>)
    ensures |r| == |ns|
    ensures forall i | 0 <= i < |ns| :: r[i] == if ns[i].userId == u then ns[i].(read := true) else ns[i]
  {
    seq(|ns|, i requires 0 <= i < |ns| => if ns[i].userId == u then ns[i].(read := true) else ns[i])
  }

  /** After marking all, the caller has nothing unread and as many
      notifications as before; other users' counts are unchanged. */
  lemma {:induction false} MarkAllCounts(ns: seq<Notification>, u: Id, v: Id)
    ensures Unread(MarkAll(ns, u), u) == 0
    ensures Total(MarkAll(ns, u), v) == Total(ns, v)
    ensures v != u ==> Unread(MarkAll(ns, u), v) == Unread(ns, v)
  {
    if ns != [] {
      var m := MarkAll(ns, u);
      assert m[1..] == MarkAll(ns[1..], u);
      MarkAllCounts(ns[1..], u, v);
    }
  }

  datatype NotificationStats = NotificationStats(unreadCount: nat, totalCount: nat)

  /** `get_notification_stats`. */
  function Stats(s: Store, me: UserRec): (r: NotificationStats)
    ensures r.unreadCount <= r.totalCount
    ensures r.unreadCount == Unread(s.notifications, me.id)
    ensures r.totalCount == Total(s.notifications, me.id)
    ensures r.totalCount == 0 ==> r.unreadCount == 0
  {
    NotificationStats(Unread(s.notifications, me.id), Total(s.notifications, me.id))
  }

  /** Marking one's own notifications read keeps the store valid and leaves
      the caller's stats at zero unread. */
  lemma MarkAllReadValid(s: Store, me: UserRec)
    requires Valid(s)
    ensures Valid(MarkAllRead(s, me).store)
    ensures Stats(MarkAllRead(s, me).store, me).unreadCount == 0
    ensures Stats(MarkAllRead(s, me).store, me).totalCount == Stats(s, me).totalCount
  {
    MarkAllCounts(s.notifications, me.id, me.id);
    NotificationsInPlaceValid(s, MarkAll(s.notifications, me.id));
  }

  const NotificationNotFound: string := "Notification not found"

  /** `mark_notification_read` as its authors evidently meant it: a
      malformed id is 400 and a well-formed id that names none of the
      caller's notifications is 404. In the code as written
      (`MarkNotificationRead`) the 404 is raised inside the `try` whose bare
      `except` turns every exception into the 400. */
  function MarkNotificationReadIntended(s: Store, raw: string, me: UserRec): (r: Outcome<string>)
    ensures ParseObjectId(raw).None? ==> r.result == Err(BadRequest, InvalidNotificationId)
    ensures ParseObjectId(raw).Some? && r.result.Err? ==> r.result == Err(NotFound, NotificationNotFound)
    ensures r.result.Err? ==> r.store == s
    ensures r.result.Ok? <==>
      ParseObjectId(raw).Some?
      && exists i | 0 <= i < |s.notifications| ::
           s.notifications[i].id == ParseObjectId(raw).value && s.notifications[i].userId == me.id
    ensures r.result.Ok? ==> r == MarkNotificationRead(s, raw, me)
  {
    var written := MarkNotificationRead(s, raw, me);
    if ParseObjectId(raw).Some? && written.result.Err? then Outcome(s, Err(NotFound, NotificationNotFound))
    else written
  }

  /** A well-formed id that names no notification: the code as written
      answers 400 "Invalid notification ID", the intended route 404. */
  lemma MissingNotificationAnswers400(me: UserRec)
    ensures MarkNotificationRead(EmptyStore, FormatObjectId(0), me).result == Err(BadRequest, InvalidNotificationId)
    ensures MarkNotificationReadIntended(EmptyStore, FormatObjectId(0), me).result == Err(NotFound, NotificationNotFound)
  {
    ParseOfFormat(0);
  }

  lemma MarkNotificationReadValid(s: Store, raw: string, me: UserRec)
    requires Valid(s)
    ensures Valid(MarkNotificationRead(s, raw, me).store)
  {
    if ParseObjectId(raw).Some? {
      var marked := MarkOwnedRead(s.notifications, ParseObjectId(raw).value, me.id);
      if marked.Some? {
        NotificationsInPlaceValid(s, marked.value);
      }
    }
  }
}

=== FILE: object_ids.dfy ===
/** Document identifiers. A MongoDB ObjectId is a 12-byte value; its text
    form, `str(ObjectId(...))`, is 24 lower-case hex digits, and the
    constructor `ObjectId(s)` accepts 24 hex digits in either case and raises
    on anything else. The model identifies a document by the ObjectId's value,
    so two spellings that differ only in the case of their hex letters name
    the same document. */
module ObjectIds {
  import opened Common
  import opened Text

  /** The value of an ObjectId. */
  type Id = nat

  /** Number of hex digits in the text form of an ObjectId. */
  const IdDigits: nat := 24

  predicate IsHexDigit(c: char) {
    IsDigit(c) || 'a' <= c <= 'f' || 'A' <= c <= 'F'
  }

  predicate AllHex(s: string) {
    forall c | c in s :: IsHexDigit(c)
  }

  function DigitValue(c: char): (v: nat)
    requires IsHexDigit(c)
    ensures v < 16
  {
    if IsDigit(c) then c as int - '0' as int
    else if 'a' <= c <= 'f' then c as int - 'a' as int + 10
    else c as int - 'A' as int + 10
  }

  /** The lower-case hex digit of a value below 16. */
  function HexChar(v: nat): (c: char)
    requires v < 16
    ensures IsHexDigit(c) && DigitValue(c) == v
  {
    if v < 10 then ('0' as int + v) as char else ('a' as int + v - 10) as char
  }

  /** Reading a digit and writing it back lower-cases it. */
  lemma HexCharOfDigit(c: char)
    requires IsHexDigit(c)
    ensures HexChar(DigitValue(c)) == LowerChar(c)
  {
  }

  function Pow16(n: nat): (r: nat)
    ensures r >= 1
  {
    if n == 0 then 1 else 16 * Pow16(n - 1)
  }

  /** The value of a string of hex digits, most significant first. */
  function HexValue(s: string): (v: nat)
    requires AllHex(s)
    ensures v < Pow16(|s|)
  {
    if s == [] then 0
    else
      var p := s[..|s| - 1];
      assert forall c | c in p :: c in s;
      var hi := HexValue(p);
      var d := DigitValue(s[|s| - 1]);
      assert hi * 16 + d < Pow16(|p|) * 16 by {
        assert hi <= Pow16(|p|) - 1;
        assert hi * 16 <= (Pow16(|p|) - 1) * 16;
      }
      hi * 16 + d
  }

  /** `width` lower-case hex digits of `v`, most significant first. */
  function FormatHex(v: nat, width: nat): (s: string)
    ensures |s| == width && AllHex(s)
  {
    if width == 0 then [] else FormatHex(v / 16, width - 1) + [HexChar(v % 16)]
  }

  /** `ObjectId(s)`: the value of 24 hex digits, `None` where the constructor raises. */
  function ParseObjectId(s: string): (r: Option<Id>)
    ensures r.Some? <==> |s| == IdDigits && AllHex(s)
  {
    if |s| == IdDigits && AllHex(s) then Some(HexValue(s)) else None
  }

  /** `str(ObjectId)`. */
  function FormatObjectId(id: Id): (s: string)
    ensures |s| == IdDigits && AllHex(s)
  {
    FormatHex(id, IdDigits)
  }

  lemma DivModSixteen(hi: nat, d: nat)
    requires d < 16
    ensures (hi * 16 + d) / 16 == hi && (hi * 16 + d) % 16 == d
  {
  }

  /** Writing a value in `width` digits and reading it back gives the value. */
  lemma {:induction false} HexRoundTrip(v: nat, width: nat)
    requires v < Pow16(width)
    ensures HexValue(FormatHex(v, width)) == v
  {
    if width > 0 {
      var s := FormatHex(v, width);
      assert s[..|s| - 1] == FormatHex(v / 16, width - 1);
      assert v / 16 < Pow16(width - 1);
      HexRoundTrip(v / 16, width - 1);
      assert v == (v / 16) * 16 + v % 16;
    }
  }

  /** Appending a digit multiplies the value by 16 and adds the digit. */
  lemma HexValueSnoc(p: string, c: char)
    requires AllHex(p) && IsHexDigit(c)
    ensures AllHex(p + [c])
    ensures HexValue(p + [c]) / 16 == HexValue(p) && HexValue(p + [c]) % 16 == DigitValue(c)
  {
    var s := p + [c];
    assert AllHex(s);
    assert s[..|s| - 1] == p;
    assert HexValue(s) == HexValue(p) * 16 + DigitValue(c);
    DivModSixteen(HexValue(p), DigitValue(c));
  }

  /** Appending one digit: its lower-case form is appended to the written value. */
  lemma FormatStep(p: string, c: char)
    requires AllHex(p) && IsHexDigit(c)
    requires FormatHex(HexValue(p), |p|) == Lower(p)
    ensures AllHex(p + [c])
    ensures FormatHex(HexValue(p + [c]), |p| + 1) == Lower(p + [c])
  {
    HexValueSnoc(p, c);
    var v := HexValue(p + [c]);
    assert FormatHex(v, |p| + 1) == FormatHex(v / 16, |p|) + [HexChar(v % 16)];
    HexCharOfDigit(c);
    LowerSnoc(p, c);
  }

  /** Reading hex digits and writing the value back gives the digits in lower case. */
  lemma {:induction false} FormatOfHexValue(s: string)
    requires AllHex(s)
    ensures FormatHex(HexValue(s), |s|) == Lower(s)
  {
    if s != [] {
      var p := s[..|s| - 1];
      var c := s[|s| - 1];
      assert forall x | x in p :: x in s;
      FormatOfHexValue(p);
      assert s == p + [c];
      FormatStep(p, c);
    }
  }

  /** `ObjectId(str(oid)) == oid` for every 96-bit value. */
  lemma ParseOfFormat(id: Id)
    requires id < Pow16(IdDigits)
    ensures ParseObjectId(FormatObjectId(id)) == Some(id)
  {
    HexRoundTrip(id, IdDigits);
  }

  /** `str(ObjectId(s))` is `s` in lower case, for every accepted `s`. */
  lemma FormatOfParse(s: string)
    requires ParseObjectId(s).Some?
    ensures FormatObjectId(ParseObjectId(s).value) == Lower(s)
  {
    FormatOfHexValue(s);
  }

  /** Two accepted spellings name the same document exactly when they agree
      after lower-casing. */
  lemma SameIdIffSameLower(s: string, t: string)
    requires ParseObjectId(s).Some? && ParseObjectId(t).Some?
    ensures ParseObjectId(s) == ParseObjectId(t) <==> Lower(s) == Lower(t)
  {
    FormatOfParse(s);
    FormatOfParse(t);
    HexRoundTrip(HexValue(s), IdDigits);
    HexRoundTrip(HexValue(t), IdDigits);
  }
}

=== FILE: questions.dfy ===
/** The question routes: creating a question (schema and moderation gates,
    the merge of the asker's tags with the suggested ones, the new record
    and the mention notifications), the list summary, fetching, deleting
    with its answers, and the shape of the plain-text search results. */
module Questions {
  import opened Common
  import opened Text
  import opened ObjectIds
  import opened Schemas
  import opened Moderation
  import opened AutoTag
  import opened Records
  import opened Notify

  /** `top_k` that `create_question` passes to the tagger. */
  const SuggestTopK: int := 8

  // -------------------------------------------------------------- tag merge

  function InEither(user: seq<string>, ai: seq<string>): string -> bool {
    t => t in user || t in ai
  }

  /** `list(set(user + ai))[:10]`. The iteration order of a Python set is
      not specified, so it is an input: `order` lists tags in the order the
      set yields them (tags it leaves out come after, in list order). */
  function MergeTags(user: seq<string>, ai: seq<string>, order: seq<string>): (r: seq<string>)
    ensures Distinct(r)
    ensures |r| == Min(TagsMax as int, |Elements(user + ai)|)
    ensures forall t | t in r :: t in user || t in ai
    ensures |user| > 0 ==> |r| > 0
    ensures |Elements(user + ai)| <= TagsMax ==> forall t | t in user + ai :: t in r
  {
    var all := Firsts(order + user + ai, InEither(user, ai), {});
    assert forall t | t in all :: t in user || t in ai by {
      forall t | t in all ensures t in user || t in ai {
        assert InEither(user, ai)(t);
      }
    }
    assert |user| > 0 ==> user[0] in all by {
      if |user| > 0 {
        assert user[0] in order + user + ai;
        assert InEither(user, ai)(user[0]);
      }
    }
    assert Elements(all) == Elements(user + ai) by {
      forall t ensures t in all <==> t in user + ai {
        if t in user + ai {
          assert t in order + user + ai;
          assert InEither(user, ai)(t);
        }
      }
    }
    DistinctCard(all);
    SliceTo(all, TagsMax as int)
  }

  /** A kept, unseen item at the front is returned first. */
  lemma FirstsCons(x: string, items: seq<string>, keep: string -> bool, seen: set<string>)
    requires keep(x) && x !in seen
    ensures Firsts([x] + items, keep, seen) == [x] + Firsts(items, keep, seen + {x})
  {
    assert ([x] + items)[1..] == items;
  }

  /** Nothing is returned when every kept item has been seen. */
  lemma FirstsAllSeen(items: seq<string>, keep: string -> bool, seen: set<string>)
    requires forall x | x in items && keep(x) :: x in seen
    ensures Firsts(items, keep, seen) == []
  {
  }

  lemma DistinctTail(p: seq<string>)
    requires |p| > 0 && Distinct(p)
    ensures Distinct(p[1..]) && p[0] !in p[1..]
  {
    forall i, j | 0 <= i < j < |p[1..]| ensures p[1..][i] != p[1..][j] {
      assert p[1..][i] == p[i + 1] && p[1..][j] == p[j + 1];
    }
  }

  lemma ElementsCons(p: seq<string>)
    requires |p| > 0
    ensures Elements(p) == {p[0]} + Elements(p[1..])
  {
    assert p == [p[0]] + p[1..];
  }

  lemma ConsAppend(x: string, tail: seq<string>, f: seq<string>)
    ensures [x] + (tail + f) == ([x] + tail) + f
  {
  }

  /** Firsts over a list that starts with distinct, kept, unseen items
      returns those items first. */
  lemma {:induction false} FirstsOfDistinctPrefix(p: seq<string>, rest: seq<string>, keep: string -> bool, seen: set<string>)
    requires Distinct(p)
    requires forall t | t in p :: keep(t) && t !in seen
    ensures Firsts(p + rest, keep, seen) == p + Firsts(rest, keep, seen + Elements(p))
    decreases |p|
  {
    if p == [] {
      assert p + rest == rest;
      assert seen + Elements(p) == seen;
    } else {
      var x, tail := p[0], p[1..];
      assert p == [x] + tail;
      assert x in p;
      assert p + rest == [x] + (tail + rest);
      FirstsCons(x, tail + rest, keep, seen);
      DistinctTail(p);
      ElementsCons(p);
      assert forall t | t in tail :: t in p;
      FirstsOfDistinctPrefix(tail, rest, keep, seen + {x});
      assert seen + {x} + Elements(tail) == seen + Elements(p);
      var f := Firsts(rest, keep, seen + Elements(p));
      assert Firsts(tail + rest, keep, seen + {x}) == tail + f;
      ConsAppend(x, tail, f);
      assert Firsts(p + rest, keep, seen) == [x] + (tail + f);
    }
  }

  /** Whatever order the set yields, the model can produce it: for every
      enumeration `p` of the merged tags without repetition, the result is
      its first ten. */
  lemma EveryOrderReachable(user: seq<string>, ai: seq<string>, p: seq<string>)
    requires Distinct(p) && Elements(p) == Elements(user + ai)
    ensures MergeTags(user, ai, p) == SliceTo(p, TagsMax as int)
  {
    var keep := InEither(user, ai);
    assert forall t | t in p :: keep(t) by {
      forall t | t in p ensures keep(t) {
        assert t in Elements(p);
      }
    }
    FirstsOfDistinctPrefix(p, user + ai, keep, {});
    assert p + user + ai == p + (user + ai);
    FirstsAllSeen(user + ai, keep, {} + Elements(p));
    assert p + [] == p;
  }

  // --------------------------------------------------------- create_question

  datatype QuestionResponse = QuestionResponse(id: Id, question: Question, answerCount: nat, username: string)

  const GuidelinesQuestion: string := "Your question does not meet our community guidelines. Please ensure your content is respectful and appropriate for all users."
  const ModeratorFailed: string := "Internal Server Error"

  /** The text that is moderated and scanned for mentions. */
  function Combined(req: QuestionCreate): string {
    req.title + " " + req.description
  }

  /** The tags the tagger suggests for a request. */
  function FinalTagsSuggested(req: QuestionCreate, tagger: Tagger): seq<string> {
    AutoTagQuestion(TagDraft(req.title, req.description, None), SuggestTopK, tagger).tags.value
  }

  /** The tags `create_question` stores. */
  function FinalTags(req: QuestionCreate, tagger: Tagger, order: seq<string>): seq<string> {
    MergeTags(req.tags, FinalTagsSuggested(req, tagger), order)
  }

  /** The new question document: no answers, nothing accepted. */
  function NewQuestion(req: QuestionCreate, me: UserRec, tags: seq<string>, score: real): Question {
    Question(req.title, req.description, tags, me.id, [], None, score)
  }

  /** The store with `q` added under the next free id. */
  function InsertQuestion(s: Store, q: Question): (r: Store)
    ensures r.questions == s.questions[s.nextId := q]
    ensures r.answers == s.answers && r.users == s.users && r.notifications == s.notifications
    ensures r.nextId == s.nextId + 1
  {
    s.(questions := s.questions[s.nextId := q], nextId := s.nextId + 1)
  }

  /** A new question without answers that obeys the schema keeps the store valid. */
  lemma InsertQuestionValid(s: Store, q: Question)
    requires Valid(s) && QuestionOk(q) && q.answers == [] && q.acceptedAnswer == None
    ensures Valid(InsertQuestion(s, q))
  {
    var r := InsertQuestion(s, q);
    var id := s.nextId;
    assert id !in s.questions;
    assert DocumentsValid(r);
    assert NoOrphans(r);
    assert AnswerListsConsistent(r) by {
      forall p, b | p in r.questions && b in r.answers
        ensures b in r.questions[p].answers <==> r.answers[b].questionId == p
      {
        if p == id {
          assert s.answers[b].questionId in s.questions;
        }
      }
    }
    assert AcceptanceConsistent(r);
  }

  /** `create_question`: 422 when the body fails its schema; a moderator
      that raises is not caught (500); text flagged on `title + " " +
      description` gives 400; every error leaves the store as it was.
      Otherwise the question is stored under a fresh id with no answers and
      no accepted answer, its tags the merge of the asker's and the
      suggested ones, and mentioned users are notified. */
  function CreateQuestion(s: Store, req: QuestionCreate, me: UserRec, moderator: Option<Moderator>,
                          tagger: Tagger, order: seq<string>): (r: Outcome<QuestionResponse>)
    ensures !ValidQuestionCreate(req) ==> r.result.Err? && r.result.status == Unprocessable
    ensures ValidQuestionCreate(req) && moderator.None? ==> r.result == Err(InternalError, ModeratorFailed)
    ensures (ValidQuestionCreate(req) && moderator.Some?
             && IsToxic(Combined(req), DefaultThreshold, moderator.value).flagged) ==>
      r.result == Err(BadRequest, GuidelinesQuestion)
    ensures r.result.Err? ==> r.store == s
    ensures r.result.Ok? <==>
      ValidQuestionCreate(req) && moderator.Some? && !IsToxic(Combined(req), DefaultThreshold, moderator.value).flagged
    ensures r.result.Ok? ==>
      var id := r.result.value.id;
      var q := r.result.value.question;
      && id == s.nextId
      && r.store.questions == s.questions[id := q]
      && r.store.answers == s.answers && r.store.users == s.users
      && s.notifications <= r.store.notifications
      && q.answers == [] && q.acceptedAnswer == None && r.result.value.answerCount == 0
      && q.title == req.title && q.description == req.description && q.userId == me.id
      && Distinct(q.tags) && 1 <= |q.tags| <= TagsMax
      && q.tags == MergeTags(req.tags, FinalTagsSuggested(req, tagger), order)
      && (forall t | t in q.tags :: t in req.tags || t in FinalTagsSuggested(req, tagger))
  {
    if !ValidQuestionCreate(req) then Outcome(s, Err(Unprocessable, "question fails its schema"))
    else match moderator
      case None => Outcome(s, Err(InternalError, ModeratorFailed))
      case Some(m) =>
        var verdict := IsToxic(Combined(req), DefaultThreshold, m);
        if verdict.flagged then Outcome(s, Err(BadRequest, GuidelinesQuestion))
        else
          var q := NewQuestion(req, me, FinalTags(req, tagger, order), verdict.score);
          var id := s.nextId;
          var s1 := InsertQuestion(s, q);
          var calls := MentionCalls(s1, Combined(req), me.id, Some(id), None);
          DeliverCounts(s1, calls, me.id);
          Outcome(Deliver(s1, calls), Ok(QuestionResponse(id, q, |q.answers|, me.username)))
  }

  lemma CreateQuestionValid(s: Store, req: QuestionCreate, me: UserRec, moderator: Option<Moderator>,
                            tagger: Tagger, order: seq<string>)
    requires Valid(s)
    ensures Valid(CreateQuestion(s, req, me, moderator, tagger, order).store)
  {
    var r := CreateQuestion(s, req, me, moderator, tagger, order);
    if r.result.Ok? {
      var id := s.nextId;
      var q := r.result.value.question;
      InsertQuestionValid(s, q);
      var s1 := InsertQuestion(s, q);
      MentionMessagesValid(s1, Combined(req), me.id, Some(id), None);
      DeliverValid(s1, MentionCalls(s1, Combined(req), me.id, Some(id), None));
    }
  }

  /** Who `create_question` notifies: each call planned from the mentions
      in `title + " " + description` that is not addressed to the asker adds
      one unread notification for its recipient, and nothing else is added. */
  lemma CreateQuestionNotifies(s: Store, req: QuestionCreate, me: UserRec, moderator: Option<Moderator>,
                               tagger: Tagger, order: seq<string>, u: Id)
    ensures var r := CreateQuestion(s, req, me, moderator, tagger, order);
      r.result.Ok? ==>
        var calls := MentionCalls(s, Combined(req), me.id, Some(s.nextId), None);
        && |r.store.notifications| == |s.notifications| + Effective(calls)
        && Total(r.store.notifications, u) == Total(s.notifications, u) + EffectiveFor(calls, u)
        && Unread(r.store.notifications, u) == Unread(s.notifications, u) + EffectiveFor(calls, u)
  {
    var r := CreateQuestion(s, req, me, moderator, tagger, order);
    if r.result.Ok? {
      var s1 := InsertQuestion(s, r.result.value.question);
      MentionCallsReadUsers(s1, s, Combined(req), me.id, Some(s.nextId), None);
      DeliverCounts(s1, MentionCalls(s, Combined(req), me.id, Some(s.nextId), None), u);
    }
  }

  // ---------------------------------------------------------------- summary

  datatype QuestionSummary = QuestionSummary(id: Id, title: string, tags: seq<string>, userId: Id,
                                             username: string, answerCount: nat, hasAcceptedAnswer: bool)

  const Unknown: string := "Unknown"

  /** One entry of `get_questions`. */
  function Summary(s: Store, id: Id): (r: QuestionSummary)
    requires id in s.questions
    ensures r.id == id && r.title == s.questions[id].title && r.tags == s.questions[id].tags
    ensures r.userId == s.questions[id].userId
    ensures r.username == NameOr(s.users, s.questions[id].userId, Unknown)
  {
    var q := s.questions[id];
    QuestionSummary(id, q.title, q.tags, q.userId, NameOr(s.users, q.userId, Unknown),
                    |q.answers|, q.acceptedAnswer.Some?)
  }

  /** In a valid store the summary's count is the number of answers that
      belong to the question, and it reports an accepted answer exactly when
      one of them is accepted. */
  lemma SummaryAgreesWithAnswers(s: Store, id: Id)
    requires Valid(s) && id in s.questions
    ensures Summary(s, id).answerCount == |AnswersOf(s, id)|
    ensures Summary(s, id).hasAcceptedAnswer <==> exists a | a in AnswersOf(s, id) :: s.answers[a].isAccepted
  {
    AnswerCountIsAnswersOf(s, id);
    if Summary(s, id).hasAcceptedAnswer {
      var a := s.questions[id].acceptedAnswer.value;
      assert a in AnswersOf(s, id);
    }
  }

  // ---------------------------------------------------------- get_question

  const InvalidQuestionId: string := "Invalid question ID"
  const QuestionNotFound: string := "Question not found"

  /** `get_question`: 400 for a malformed id, 404 for an unknown one;
      otherwise the document with its answer count and the asker's name. */
  function GetQuestion(s: Store, raw: string): (r: Result<QuestionResponse>)
    ensures ParseObjectId(raw).None? ==> r == Err(BadRequest, InvalidQuestionId)
    ensures ParseObjectId(raw).Some? && ParseObjectId(raw).value !in s.questions ==> r == Err(NotFound, QuestionNotFound)
    ensures r.Ok? <==> ParseObjectId(raw).Some? && ParseObjectId(raw).value in s.questions
    ensures r.Ok? ==>
      && r.value.id == ParseObjectId(raw).value
      && r.value.question == s.questions[r.value.id]
      && r.value.answerCount == |r.value.question.answers|
      && r.value.username == NameOr(s.users, r.value.question.userId, Unknown)
  {
    match ParseObjectId(raw)
    case None => Err(BadRequest, InvalidQuestionId)
    case Some(id) =>
      if id !in s.questions then Err(NotFound, QuestionNotFound)
      else
        var q := s.questions[id];
        Ok(QuestionResponse(id, q, |q.answers|, NameOr(s.users, q.userId, Unknown)))
  }

  /** Two spellings of the same id that differ only in letter case fetch the
      same question. */
  lemma GetQuestionIgnoresCase(s: Store, raw1: string, raw2: string)
    requires ParseObjectId(raw1).Some? && ParseObjectId(raw2).Some? && Lower(raw1) == Lower(raw2)
    ensures GetQuestion(s, raw1) == GetQuestion(s, raw2)
  {
    SameIdIffSameLower(raw1, raw2);
  }

  // ---------------------------------------------------------- delete_question

  const OwnQuestionsOnly: string := "You can only delete your own questions"

  /** The store without question `id` and without every answer whose
      `question_id` is `id`. */
  function DeleteQuestionStep(s: Store, id: Id): (r: Store)
    ensures r.questions == s.questions - {id}
    ensures r.answers.Keys == set a | a in s.answers && s.answers[a].questionId != id
    ensures forall a | a in r.answers :: r.answers[a] == s.answers[a]
    ensures r.users == s.users && r.notifications == s.notifications && r.nextId == s.nextId
  {
    s.(questions := s.questions - {id},
       answers := map a | a in s.answers && s.answers[a].questionId != id :: s.answers[a])
  }

  /** `delete_question`: 400 for a malformed id, 404 for an unknown one, 403
      unless the caller asked it or is an admin; otherwise the question and
      every answer that belongs to it are removed and nothing else changes. */
  function DeleteQuestion(s: Store, raw: string, me: UserRec): (r: Outcome<()>)
    ensures ParseObjectId(raw).None? ==> r.result == Err(BadRequest, InvalidQuestionId)
    ensures ParseObjectId(raw).Some? && ParseObjectId(raw).value !in s.questions ==> r.result == Err(NotFound, QuestionNotFound)
    ensures (ParseObjectId(raw).Some? && ParseObjectId(raw).value in s.questions
             && s.questions[ParseObjectId(raw).value].userId != me.id && me.role != Admin) ==>
      r.result == Err(Forbidden, OwnQuestionsOnly)
    ensures r.result.Err? ==> r.store == s
    ensures r.result.Ok? <==>
      ParseObjectId(raw).Some? && ParseObjectId(raw).value in s.questions
      && (s.questions[ParseObjectId(raw).value].userId == me.id || me.role == Admin)
    ensures r.result.Ok? ==>
      var id := ParseObjectId(raw).value;
      && r.store.questions == s.questions - {id}
      && (forall a | a in r.store.answers :: a in s.answers && r.store.answers[a] == s.answers[a] && r.store.answers[a].questionId != id)
      && (forall a | a in s.answers && s.answers[a].questionId != id :: a in r.store.answers)
      && r.store.users == s.users && r.store.notifications == s.notifications
  {
    match ParseObjectId(raw)
    case None => Outcome(s, Err(BadRequest, InvalidQuestionId))
    case Some(id) =>
      if id !in s.questions then Outcome(s, Err(NotFound, QuestionNotFound))
      else if s.questions[id].userId != me.id && me.role != Admin then Outcome(s, Err(Forbidden, OwnQuestionsOnly))
      else Outcome(DeleteQuestionStep(s, id), Ok(()))
  }

  lemma DeleteQuestionStepValid(s: Store, id: Id)
    requires Valid(s) && id in s.questions
    ensures Valid(DeleteQuestionStep(s, id))
  {
    var r := DeleteQuestionStep(s, id);
    assert DocumentsValid(r);
    assert NoOrphans(r);
    assert AnswerListsConsistent(r) by {
      forall p, b | p in r.questions && b in r.questions[p].answers ensures b in r.answers {
        assert b in s.answers;
      }
    }
    assert AcceptanceConsistent(r) by {
      forall p | p in r.questions && r.questions[p].acceptedAnswer.Some?
        ensures r.questions[p].acceptedAnswer.value in r.answers
      {
        assert s.answers[s.questions[p].acceptedAnswer.value].questionId == p;
      }
    }
  }

  lemma DeleteQuestionValid(s: Store, raw: string, me: UserRec)
    requires Valid(s)
    ensures Valid(DeleteQuestion(s, raw, me).store)
  {
    if DeleteQuestion(s, raw, me).result.Ok? {
      DeleteQuestionStepValid(s, ParseObjectId(raw).value);
    }
  }

  // ------------------------------------------------------- fallback search

  /** The most results the plain-text search returns. */
  const SearchLimit: nat := 10
  const PreviewLength: nat := 200
  const Ellipsis: string := "..."
  const FallbackScore: real := 0.5

  datatype SearchResult = SearchResult(id: Id, title: string, description: string, tags: seq<string>,
                                       username: string, answerCount: nat, score: real)

  function ShapeResult(s: Store, id: Id): (r: SearchResult)
    requires id in s.questions
  {
    var q := s.questions[id];
    SearchResult(id, q.title, SliceTo(q.description, PreviewLength as int) + Ellipsis, q.tags,
                 NameOr(s.users, q.userId, Unknown), |q.answers|, FallbackScore)
  }

  /** The result shaping of `search_questions` when semantic search is off:
      `hits` are the documents the text query matched, in the order the
      database returns them. At most ten are kept, in that order; each
      description is cut to its first 200 characters and "..." is always
      appended. */
  function FallbackSearch(s: Store, hits: seq<Id>): (r: seq<SearchResult>)
    requires forall h | h in hits :: h in s.questions
    ensures |r| == Min(SearchLimit, |hits|)
    ensures forall i | 0 <= i < |r| ::
      && r[i].id == hits[i]
      && r[i].title == s.questions[hits[i]].title
      && r[i].tags == s.questions[hits[i]].tags
      && r[i].username == NameOr(s.users, s.questions[hits[i]].userId, Unknown)
      && |Ellipsis| <= |r[i].description| <= PreviewLength + |Ellipsis|
      && r[i].description[..|r[i].description| - |Ellipsis|] <= s.questions[hits[i]].description
      && r[i].description[|r[i].description| - |Ellipsis|..] == Ellipsis
      && r[i].answerCount == |s.questions[hits[i]].answers|
      && r[i].score == FallbackScore
  {
    var n := Min(SearchLimit, |hits|);
    seq(n, i requires 0 <= i < n => ShapeResult(s, hits[i]))
  }

  /** A description of at most 200 characters is kept whole; a longer one
      keeps exactly its first 200. */
  lemma PreviewCut(s: Store, hits: seq<Id>, i: nat)
    requires forall h | h in hits :: h in s.questions
    requires i < Min(SearchLimit, |hits|)
    ensures var d := s.questions[hits[i]].description;
      FallbackSearch(s, hits)[i].description == (if |d| <= PreviewLength then d else d[..PreviewLength]) + Ellipsis
  {
    assert hits[i] in hits;
  }
}

=== FILE: raw_ids.dfy ===
/** The answer routes as written, where a document refers to a question or
    answer by the id string the client sent rather than by the ObjectId it
    names. A 24-digit id may be spelled with upper- or lower-case hex letters;
    the database stores and matches the string as given, while ids minted by
    the database are written in lower case. This module keeps only the fields
    those routes read and write, and exhibits what goes wrong when two
    spellings of one id meet. The rest of the model compares ObjectId values
    (`Answers`, `Questions`), and the last lemmas here show that there the
    spelling makes no difference. */
module RawIds {
  import opened Common
  import opened Text
  import opened ObjectIds
  import Records
  import Answers
  import Questions

  /** An answer as stored: `question_id` is the string from the request. */
  datatype RawAnswer = RawAnswer(questionId: string, isAccepted: bool)

  /** A question as stored: the id strings of its answers and of its
      accepted answer. */
  datatype RawQuestion = RawQuestion(answers: seq<string>, acceptedAnswer: Option<string>)

  datatype RawStore = RawStore(questions: map<Id, RawQuestion>, answers: map<Id, RawAnswer>, nextId: Id)

  datatype RawOutcome<+T> = RawOutcome(store: RawStore, result: Result<T>)

  const Unparsable: string := "Internal Server Error"

  /** `create_answer` as written (the moderation and notification steps do
      not touch ids and are left out): the answer keeps the client's
      spelling of the question id, the question gets the lower-case text of
      the new answer's id. */
  function CreateAnswerAsWritten(s: RawStore, raw: string): (r: RawOutcome<Id>)
    ensures r.result.Ok? <==> ParseObjectId(raw).Some? && ParseObjectId(raw).value in s.questions
    ensures r.result.Err? ==> r.store == s
    ensures r.result.Ok? ==>
      var q := ParseObjectId(raw).value;
      && r.result.value == s.nextId && r.store.nextId == s.nextId + 1
      && r.store.answers == s.answers[s.nextId := RawAnswer(raw, false)]
      && q in r.store.questions
      && r.store.questions[q].answers == s.questions[q].answers + [FormatObjectId(s.nextId)]
      && (forall p | p in s.questions && p != q :: p in r.store.questions && r.store.questions[p] == s.questions[p])
  {
    match ParseObjectId(raw)
    case None => RawOutcome(s, Err(BadRequest, Answers.InvalidQuestionId))
    case Some(q) =>
      if q !in s.questions then RawOutcome(s, Err(NotFound, Answers.QuestionNotFound))
      else
        var id := s.nextId;
        var qs := s.questions[q];
        RawOutcome(RawStore(s.questions[q := qs.(answers := qs.answers + [FormatObjectId(id)])],
                            s.answers[id := RawAnswer(raw, false)], id + 1),
                   Ok(id))
  }

  /** `update_many({"question_id": key}, {"$set": {"is_accepted": False}})`:
      only the answers storing exactly the string `key` lose their mark. */
  function ClearMarks(answers: map<Id, RawAnswer>, key: string): (r: map<Id, RawAnswer>)
    ensures r.Keys == answers.Keys
    ensures forall b | b in answers ::
      r[b].questionId == answers[b].questionId
      && (r[b].isAccepted <==> answers[b].isAccepted && answers[b].questionId != key)
  {
    map b | b in answers :: if answers[b].questionId == key then answers[b].(isAccepted := false) else answers[b]
  }

  /** `accept_answer` as written (the author check is left out): every
      answer whose stored `question_id` string equals the accepted answer's
      is cleared, then the answer is marked. Answers that name the same
      question with another spelling keep their mark. */
  function AcceptAsWritten(s: RawStore, raw: string): (r: RawOutcome<()>)
    ensures r.result.Err? ==> r.store == s
    ensures r.result.Ok? ==> ParseObjectId(raw).Some?
    ensures r.result.Ok? ==>
      var a := ParseObjectId(raw).value;
      && a in s.answers && r.store.answers.Keys == s.answers.Keys
      && r.store.answers[a].isAccepted
      && (forall b | b in s.answers && b != a ::
            r.store.answers[b].questionId == s.answers[b].questionId
            && (r.store.answers[b].isAccepted <==>
                  s.answers[b].isAccepted && s.answers[b].questionId != s.answers[a].questionId))
  {
    match ParseObjectId(raw)
    case None => RawOutcome(s, Err(BadRequest, Answers.InvalidAnswerId))
    case Some(a) =>
      if a !in s.answers then RawOutcome(s, Err(NotFound, Answers.AnswerNotFound))
      else
        var key := s.answers[a].questionId;
        match ParseObjectId(key)
        case None => RawOutcome(s, Err(InternalError, Unparsable))
        case Some(q) =>
          if q !in s.questions then RawOutcome(s, Err(NotFound, Answers.QuestionNotFound))
          else
            var cleared := ClearMarks(s.answers, key);
            RawOutcome(s.(answers := cleared[a := cleared[a].(isAccepted := true)],
                          questions := s.questions[q := s.questions[q].(acceptedAnswer := Some(raw))]),
                       Ok(()))
  }

  /** `delete_answer` as written (the author check is left out): the
      client's spelling of the answer id is pulled from the question's list. */
  function DeleteAnswerAsWritten(s: RawStore, raw: string): (r: RawOutcome<()>)
    ensures r.result.Err? ==> r.store == s
    ensures r.result.Ok? ==> ParseObjectId(raw).Some? && ParseObjectId(raw).value in s.answers
    ensures r.result.Ok? ==>
      var a := ParseObjectId(raw).value;
      var q := ParseObjectId(s.answers[a].questionId);
      && r.store.answers == s.answers - {a}
      && q.Some? && r.store.questions.Keys == s.questions.Keys
      && (forall p | p in s.questions && p != q.value :: r.store.questions[p] == s.questions[p])
      && (q.value in s.questions ==>
            forall t :: t in r.store.questions[q.value].answers <==> t in s.questions[q.value].answers && t != raw)
  {
    match ParseObjectId(raw)
    case None => RawOutcome(s, Err(BadRequest, Answers.InvalidAnswerId))
    case Some(a) =>
      if a !in s.answers then RawOutcome(s, Err(NotFound, Answers.AnswerNotFound))
      else
        var ans := s.answers[a];
        match ParseObjectId(ans.questionId)
        case None => RawOutcome(s, Err(InternalError, Unparsable))
        case Some(q) =>
          var questions :=
            if q !in s.questions then s.questions
            else
              var qs := s.questions[q];
              var pulled := qs.(answers := Records.RemoveAll(qs.answers, raw));
              s.questions[q := if ans.isAccepted then pulled.(acceptedAnswer := None) else pulled];
          RawOutcome(s.(questions := questions, answers := s.answers - {a}), Ok(()))
  }

  /** `delete_question` as written (the author check is left out): answers
      are removed by matching their stored `question_id` against the
      client's spelling. */
  function DeleteQuestionAsWritten(s: RawStore, raw: string): (r: RawOutcome<()>)
    ensures r.result.Err? ==> r.store == s
    ensures r.result.Ok? ==>
      && ParseObjectId(raw).Some?
      && r.store.questions == s.questions - {ParseObjectId(raw).value}
      && (forall b :: b in r.store.answers <==> b in s.answers && s.answers[b].questionId != raw)
  {
    match ParseObjectId(raw)
    case None => RawOutcome(s, Err(BadRequest, Questions.InvalidQuestionId))
    case Some(q) =>
      if q !in s.questions then RawOutcome(s, Err(NotFound, Questions.QuestionNotFound))
      else
        RawOutcome(s.(questions := s.questions - {q},
                      answers := map b | b in s.answers && s.answers[b].questionId != raw :: s.answers[b]),
                   Ok(()))
  }

  // ------------------------------------------------------------ spellings

  /** The lower-case spelling of an accepted id names the same ObjectId. */
  lemma LowerSpellingSameId(t: string)
    requires ParseObjectId(t).Some?
    ensures ParseObjectId(Lower(t)) == ParseObjectId(t)
  {
    FormatOfParse(t);
    ParseOfFormat(ParseObjectId(t).value);
  }

  /** Twenty-three zeros and a final upper-case "A": a spelling of ObjectId
      10 other than the text the database writes for it. */
  function UpperTen(): string {
    FormatHex(0, IdDigits - 1) + ['A']
  }

  lemma UpperTenParses()
    ensures ParseObjectId(UpperTen()) == Some(10)
    ensures UpperTen() != FormatObjectId(10)
    ensures Lower(UpperTen()) == FormatObjectId(10)
  {
    var t := UpperTen();
    var p := FormatHex(0, IdDigits - 1);
    assert AllHex(t) by {
      assert forall c | c in t :: c in p || c == 'A';
    }
    assert t[..|t| - 1] == p;
    HexRoundTrip(0, IdDigits - 1);
    assert HexValue(t) == 10;
    assert FormatObjectId(10) == p + [HexChar(10)];
    assert FormatObjectId(10)[IdDigits - 1] != t[IdDigits - 1];
    FormatOfParse(t);
  }

  // -------------------------------------------------------------- findings

  /** The answers marked accepted that name question `q` under any spelling. */
  function AcceptedFor(s: RawStore, q: Id): set<Id> {
    set a | a in s.answers && s.answers[a].isAccepted && ParseObjectId(s.answers[a].questionId) == Some(q)
  }

  /** Accepting a stored answer through any spelling of its id succeeds;
      it clears exactly the answers that store the same question-id string,
      and the question keys stay as they were. */
  lemma AcceptStored(t: RawStore, b: Id, rb: string)
    requires ParseObjectId(rb) == Some(b) && b in t.answers
    requires ParseObjectId(t.answers[b].questionId).Some?
    requires ParseObjectId(t.answers[b].questionId).value in t.questions
    ensures var x := AcceptAsWritten(t, rb);
      && x.result.Ok? && x.store.answers.Keys == t.answers.Keys && x.store.answers[b].isAccepted
      && x.store.questions.Keys == t.questions.Keys
      && (forall c | c in t.answers && c != b ::
            x.store.answers[c].questionId == t.answers[c].questionId
            && (x.store.answers[c].isAccepted <==>
                  t.answers[c].isAccepted && t.answers[c].questionId != t.answers[b].questionId))
  {
  }

  /** Posting under the lower-case spelling and then under `raw` stores two
      answers, each keeping the spelling it was posted with. */
  lemma CreateBoth(s: RawStore, raw: string)
    requires ParseObjectId(raw).Some? && ParseObjectId(raw).value in s.questions
    ensures var c1 := CreateAnswerAsWritten(s, Lower(raw));
      var c2 := CreateAnswerAsWritten(c1.store, raw);
      && c1.result.Ok? && c2.result.Ok?
      && c2.store.answers.Keys == s.answers.Keys + {s.nextId, s.nextId + 1}
      && c2.store.answers[s.nextId] == RawAnswer(Lower(raw), false)
      && c2.store.answers[s.nextId + 1] == RawAnswer(raw, false)
      && ParseObjectId(raw).value in c2.store.questions
  {
    LowerSpellingSameId(raw);
  }

  /** Accepting in turn two answers whose stored question ids are two
      different spellings of a stored question leaves both accepted. */
  lemma AcceptBoth(t: RawStore, n: Id, raw: string, ra: string, rb: string)
    requires ParseObjectId(ra) == Some(n) && ParseObjectId(rb) == Some(n + 1)
    requires ParseObjectId(raw).Some? && ParseObjectId(raw).value in t.questions && Lower(raw) != raw
    requires n in t.answers && t.answers[n].questionId == Lower(raw)
    requires n + 1 in t.answers && t.answers[n + 1].questionId == raw
    ensures var x1 := AcceptAsWritten(t, ra);
      var x2 := AcceptAsWritten(x1.store, rb);
      && x1.result.Ok? && x2.result.Ok?
      && {n, n + 1} <= AcceptedFor(x2.store, ParseObjectId(raw).value)
  {
    LowerSpellingSameId(raw);
    AcceptStored(t, n, ra);
    var x1 := AcceptAsWritten(t, ra);
    AcceptStored(x1.store, n + 1, rb);
  }

  /** Two answers posted to the same question under two spellings of its id
      and then accepted in turn, through any spellings `ra` and `rb` of
      their ids, both stay accepted. */
  lemma TwoAcceptedAnswers(s: RawStore, raw: string, ra: string, rb: string)
    requires ParseObjectId(raw).Some? && ParseObjectId(raw).value in s.questions
    requires Lower(raw) != raw
    requires ParseObjectId(ra) == Some(s.nextId) && ParseObjectId(rb) == Some(s.nextId + 1)
    ensures
      var q := ParseObjectId(raw).value;
      var c1 := CreateAnswerAsWritten(s, Lower(raw));
      var c2 := CreateAnswerAsWritten(c1.store, raw);
      var x1 := AcceptAsWritten(c2.store, ra);
      var x2 := AcceptAsWritten(x1.store, rb);
      && c1.result.Ok? && c2.result.Ok? && x1.result.Ok? && x2.result.Ok?
      && s.nextId in AcceptedFor(x2.store, q) && s.nextId + 1 in AcceptedFor(x2.store, q)
  {
    CreateBoth(s, raw);
    var t := CreateAnswerAsWritten(CreateAnswerAsWritten(s, Lower(raw)).store, raw).store;
    AcceptBoth(t, s.nextId, raw, ra, rb);
  }

  /** In a fresh store holding question 10, answers posted to it under the
      spelling `UpperTen` and under the database's own text for 10, then
      accepted through the texts the database wrote for their ids (0 and
      1), both end up accepted. */
  lemma TwoAcceptedExample(s: RawStore)
    requires 10 in s.questions && s.nextId == 0
    ensures var c1 := CreateAnswerAsWritten(s, FormatObjectId(10));
      var c2 := CreateAnswerAsWritten(c1.store, UpperTen());
      var x1 := AcceptAsWritten(c2.store, FormatObjectId(0));
      var x2 := AcceptAsWritten(x1.store, FormatObjectId(1));
      {0, 1} <= AcceptedFor(x2.store, 10)
  {
    UpperTenParses();
    ParseOfFormat(0);
    ParseOfFormat(1);
    TwoAcceptedAnswers(s, UpperTen(), FormatObjectId(0), FormatObjectId(1));
  }

  /** Deleting an answer through an upper-case spelling of its id removes the
      answer but leaves its id in the question's list. */
  lemma DanglingAfterDelete(s: RawStore, raw: string, q: Id)
    requires ParseObjectId(raw).Some? && ParseObjectId(raw).value in s.answers
    requires raw != FormatObjectId(ParseObjectId(raw).value)
    requires ParseObjectId(s.answers[ParseObjectId(raw).value].questionId) == Some(q) && q in s.questions
    requires FormatObjectId(ParseObjectId(raw).value) in s.questions[q].answers
    ensures var r := DeleteAnswerAsWritten(s, raw);
      && r.result.Ok?
      && ParseObjectId(raw).value !in r.store.answers
      && FormatObjectId(ParseObjectId(raw).value) in r.store.questions[q].answers
  {
  }

  /** Answer 10 under question 0, listed as created, deleted by the request
      that spells its id with an upper-case "A": the id is left dangling. */
  lemma DanglingExample()
    ensures var s := RawStore(map[0 := RawQuestion([FormatObjectId(10)], None)],
                              map[10 := RawAnswer(FormatObjectId(0), false)], 11);
      var r := DeleteAnswerAsWritten(s, UpperTen());
      && r.result.Ok? && 10 !in r.store.answers && FormatObjectId(10) in r.store.questions[0].answers
  {
    UpperTenParses();
    ParseOfFormat(0);
    var s := RawStore(map[0 := RawQuestion([FormatObjectId(10)], None)],
                      map[10 := RawAnswer(FormatObjectId(0), false)], 11);
    assert FormatObjectId(10) in s.questions[0].answers;
    DanglingAfterDelete(s, UpperTen(), 0);
  }

  /** Deleting a question through one spelling of its id keeps the answers
      that were posted under another: they now name a question that is gone. */
  lemma OrphansAfterQuestionDelete(s: RawStore, raw: string, b: Id)
    requires ParseObjectId(raw).Some? && ParseObjectId(raw).value in s.questions
    requires b in s.answers && ParseObjectId(s.answers[b].questionId) == ParseObjectId(raw)
    requires s.answers[b].questionId != raw
    ensures var r := DeleteQuestionAsWritten(s, raw);
      && r.result.Ok?
      && b in r.store.answers
      && ParseObjectId(r.store.answers[b].questionId).value !in r.store.questions
  {
  }

  // --------------------------------------------- the model by ObjectId value

  /** In the model by value, accepting, deleting an answer and deleting a
      question do the same whichever spelling of the id the request uses. */
  lemma SpellingIrrelevant(s: Records.Store, raw1: string, raw2: string, me: Records.UserRec)
    requires ParseObjectId(raw1).Some? && ParseObjectId(raw2).Some? && Lower(raw1) == Lower(raw2)
    ensures Answers.AcceptAnswer(s, raw1, me) == Answers.AcceptAnswer(s, raw2, me)
    ensures Answers.DeleteAnswer(s, raw1, me) == Answers.DeleteAnswer(s, raw2, me)
    ensures Questions.DeleteQuestion(s, raw1, me) == Questions.DeleteQuestion(s, raw2, me)
  {
    SameIdIffSameLower(raw1, raw2);
  }
}

=== FILE: records.dfy ===
/** The document store behind the route handlers: users, questions, answers
    and notifications, each document keyed by its ObjectId value, and the
    counter that mints fresh ids. `Valid` collects the rules that the
    schemas and the handlers keep between them; every transition of the
    model is proved to preserve it. */
module Records {
  import opened Common
  import opened ObjectIds
  import opened Schemas

  /** A user document. `isActive` is `None` for a document stored without the
      field (the handlers read it with a default). */
  datatype UserRec = UserRec(id: Id, username: string, email: string, passwordHash: string,
                             role: Role, isActive: Option<bool>)

  /** A question document; `answers` lists the ids of its answers in the
      order they were added. */
  datatype Question = Question(title: string, description: string, tags: seq<string>, userId: Id,
                               answers: seq<Id>, acceptedAnswer: Option<Id>, toxicScore: real)

  /** An answer document. `votes` is the signed net count. */
  datatype Answer = Answer(questionId: Id, userId: Id, content: string, votes: int,
                           isAccepted: bool, aiGenerated: bool, toxicScore: real)

  datatype Notification = Notification(id: Id, userId: Id, fromUserId: Id, kind: NotificationType,
                                       message: string, questionId: Option<Id>, answerId: Option<Id>,
                                       read: bool)

  /** Users and notifications keep insertion order, which is the order a
      `find_one` without a sort sees them in. */
  datatype Store = Store(users: seq<UserRec>, questions: map<Id, Question>, answers: map<Id, Answer>,
                         notifications: seq<Notification>, nextId: Id)

  /** What a route leaves behind: the store after it, and its response or
      the HTTP error it raised. */
  datatype Outcome<+T> = Outcome(store: Store, result: Result<T>)

  const EmptyStore: Store := Store([], map[], map[], [], 0)

  // -------------------------------------------------------------- lookups

  /** `find_one({"username": name})`: the first user with that name. */
  function FindUserByName(users: seq<UserRec>, name: string): (r: Option<UserRec>)
    ensures r.Some? ==> r.value in users && r.value.username == name
    ensures r.None? <==> forall u | u in users :: u.username != name
  {
    if users == [] then None
    else if users[0].username == name then Some(users[0])
    else FindUserByName(users[1..], name)
  }

  /** `find_one({"email": email})` is present. */
  predicate EmailTaken(users: seq<UserRec>, email: string) {
    exists u | u in users :: u.email == email
  }

  /** `find_one({"_id": id})`: the first user with that id. */
  function FindUserById(users: seq<UserRec>, id: Id): (r: Option<UserRec>)
    ensures r.Some? ==> r.value in users && r.value.id == id
    ensures r.None? <==> forall u | u in users :: u.id != id
  {
    if users == [] then None
    else if users[0].id == id then Some(users[0])
    else FindUserById(users[1..], id)
  }

  /** `user["username"] if user else fallback` for the user with id `id`. */
  function NameOr(users: seq<UserRec>, id: Id, fallback: string): (r: string)
    ensures FindUserById(users, id).None? ==> r == fallback
    ensures FindUserById(users, id).Some? ==> exists u | u in users :: u.id == id && r == u.username
  {
    match FindUserById(users, id)
    case Some(u) => u.username
    case None => fallback
  }

  /** Among users with distinct ids, the name found for a user's id is that
      user's own name. */
  lemma NameOrOfMember(users: seq<UserRec>, u: UserRec, fallback: string)
    requires UsersValid(users) && u in users
    ensures NameOr(users, u.id, fallback) == u.username
  {
    var v := FindUserById(users, u.id).value;
    var i :| 0 <= i < |users| && users[i] == u;
    var j :| 0 <= j < |users| && users[j] == v;
    assert i == j;
  }

  /** `$pull`: every occurrence of `x` removed, the rest kept in order. */
  function RemoveAll<T(==,!new)>(xs: seq<T>, x: T): (r: seq<T>)
    ensures forall y :: y in r <==> y in xs && y != x
    ensures Distinct(xs) ==> Distinct(r)
    ensures |r| <= |xs|
  {
    if xs == [] then []
    else
      var rest := RemoveAll(xs[1..], x);
      assert forall y | y in xs[1..] :: y in xs;
      assert Distinct(xs) ==> xs[0] !in xs[1..] by {
        assert forall k | 0 <= k < |xs[1..]| :: xs[1..][k] == xs[k + 1];
      }
      if xs[0] == x then rest else [xs[0]] + rest
  }

  /** The answers whose `question_id` is `q`. */
  function AnswersOf(s: Store, q: Id): set<Id> {
    set a | a in s.answers && s.answers[a].questionId == q
  }

  // ----------------------------------------------------------- invariant

  /** Every id in use is below the counter. */
  predicate Fresh(s: Store) {
    && (forall q | q in s.questions :: q < s.nextId)
    && (forall a | a in s.answers :: a < s.nextId)
    && (forall i | 0 <= i < |s.users| :: s.users[i].id < s.nextId)
    && (forall i | 0 <= i < |s.notifications| :: s.notifications[i].id < s.nextId)
  }

  /** No two users share an id, a username or an e-mail address; every
      username obeys the schema bound. */
  predicate UsersValid(users: seq<UserRec>) {
    && (forall i, j | 0 <= i < j < |users| ::
          users[i].id != users[j].id && users[i].username != users[j].username
          && users[i].email != users[j].email)
    && (forall i | 0 <= i < |users| :: ValidUsername(users[i].username))
  }

  /** Question fields obey the `Question` schema and list no answer twice. */
  predicate QuestionOk(q: Question) {
    ValidTitle(q.title) && ValidDescription(q.description) && ValidTagList(q.tags) && Distinct(q.answers)
  }

  /** Answers written by people obey the content bounds; generated answers
      are stored as the generator returned them. */
  predicate AnswerOk(a: Answer) {
    !a.aiGenerated ==> ValidContent(a.content)
  }

  predicate DocumentsValid(s: Store) {
    && (forall q | q in s.questions :: QuestionOk(s.questions[q]))
    && (forall a | a in s.answers :: AnswerOk(s.answers[a]))
  }

  /** Every answer belongs to a stored question. */
  predicate NoOrphans(s: Store) {
    forall a | a in s.answers :: s.answers[a].questionId in s.questions
  }

  /** A question's `answers` list holds exactly the answers that point back
      at it. */
  predicate AnswerListsConsistent(s: Store) {
    && (forall q, a | q in s.questions && a in s.questions[q].answers :: a in s.answers)
    && (forall q, a | q in s.questions && a in s.answers ::
          a in s.questions[q].answers <==> s.answers[a].questionId == q)
  }

  /** An accepted answer is its question's `accepted_answer`, and a question's
      `accepted_answer` is an accepted answer of that question. */
  predicate AcceptanceConsistent(s: Store) {
    && (forall a | a in s.answers && s.answers[a].isAccepted ::
          s.answers[a].questionId in s.questions
          && s.questions[s.answers[a].questionId].acceptedAnswer == Some(a))
    && (forall q | q in s.questions && s.questions[q].acceptedAnswer.Some? ::
          s.questions[q].acceptedAnswer.value in s.answers
          && s.answers[s.questions[q].acceptedAnswer.value].questionId == q
          && s.answers[s.questions[q].acceptedAnswer.value].isAccepted)
  }

  /** Notification ids are unique and every message fits the schema bound. */
  predicate NotificationsValid(ns: seq<Notification>) {
    && (forall i, j | 0 <= i < j < |ns| :: ns[i].id != ns[j].id)
    && (forall i | 0 <= i < |ns| :: ValidMessage(ns[i].message))
  }

  predicate Valid(s: Store) {
    && Fresh(s)
    && UsersValid(s.users)
    && DocumentsValid(s)
    && NoOrphans(s)
    && AnswerListsConsistent(s)
    && AcceptanceConsistent(s)
    && NotificationsValid(s.notifications)
  }

  lemma EmptyStoreValid()
    ensures Valid(EmptyStore)
  {
  }

  /** Changing notifications in place, keeping their ids and messages,
      keeps the store valid. */
  lemma NotificationsInPlaceValid(s: Store, ns: seq<Notification>)
    requires Valid(s)
    requires |ns| == |s.notifications|
    requires forall i | 0 <= i < |ns| :: ns[i].id == s.notifications[i].id && ns[i].message == s.notifications[i].message
    ensures Valid(s.(notifications := ns))
  {
    var r := s.(notifications := ns);
    assert Fresh(r);
    assert NotificationsValid(ns);
    assert DocumentsValid(r) && NoOrphans(r);
    assert AnswerListsConsistent(r) && AcceptanceConsistent(r);
  }

  // ------------------------------------------------------------- consequences

  /** A question's `accepted_answer` names an answer exactly when that answer
      belongs to the question and is accepted. */
  lemma AcceptedAnswerIff(s: Store, q: Id, a: Id)
    requires Valid(s) && q in s.questions
    ensures s.questions[q].acceptedAnswer == Some(a)
            <==> a in s.answers && s.answers[a].questionId == q && s.answers[a].isAccepted
  {
  }

  /** A question has at most one accepted answer. */
  lemma AtMostOneAccepted(s: Store, a1: Id, a2: Id)
    requires Valid(s)
    requires a1 in s.answers && a2 in s.answers
    requires s.answers[a1].isAccepted && s.answers[a2].isAccepted
    requires s.answers[a1].questionId == s.answers[a2].questionId
    ensures a1 == a2
  {
  }

  function Elements<T>(xs: seq<T>): set<T> {
    set x | x in xs
  }

  /** A list without repetitions has as many elements as its set. */
  lemma {:induction false} DistinctCard<T>(xs: seq<T>)
    requires Distinct(xs)
    ensures |Elements(xs)| == |xs|
  {
    if xs != [] {
      var rest := xs[1..];
      DistinctCard(rest);
      assert Elements(xs) == Elements(rest) + {xs[0]};
      assert forall k | 0 <= k < |rest| :: rest[k] == xs[k + 1] && xs[k + 1] != xs[0];
    }
  }

  /** The length of a question's `answers` list is the number of stored
      answers that belong to it. */
  lemma AnswerCountIsAnswersOf(s: Store, q: Id)
    requires Valid(s) && q in s.questions
    ensures |s.questions[q].answers| == |AnswersOf(s, q)|
  {
    var xs := s.questions[q].answers;
    DistinctCard(xs);
    forall x
      ensures x in xs <==> x in AnswersOf(s, q)
    {
      if x in xs {
        assert x in s.answers;
      }
    }
    assert Elements(xs) == AnswersOf(s, q);
  }
}

=== FILE: schemas.dfy ===
/** The request and record schemas: enumerations, length bounds and
    defaults of the user, question, answer and notification models, written as
    predicates that the request handlers check and that the store transitions
    preserve. Lengths count characters (code points), as the schema library
    does. */
module Schemas {
  import opened Common

  // ---------------------------------------------------------------- users

  datatype Role = Guest | User | Admin

  function RoleName(r: Role): string {
    match r
    case Guest => "guest"
    case User => "user"
    case Admin => "admin"
  }

  /** The role enumeration accepts exactly its three value strings. */
  function ParseRole(s: string): (r: Option<Role>)
    ensures r.Some? ==> RoleName(r.value) == s
  {
    if s == "guest" then Some(Guest)
    else if s == "user" then Some(User)
    else if s == "admin" then Some(Admin)
    else None
  }

  lemma RoleRoundTrip(r: Role)
    ensures ParseRole(RoleName(r)) == Some(r)
  {
  }

  /** The role a `User` record gets when none is given. */
  const DefaultRole: Role := User

  const UsernameMin: nat := 3
  const UsernameMax: nat := 50
  const PasswordMin: nat := 6

  predicate ValidUsername(u: string) {
    UsernameMin <= |u| <= UsernameMax
  }

  /** The registration request as sent. Its `email` is an `EmailStr`: the
      validator, outside this model and passed in as `normalize`, rejects the
      address (`None`) or hands on its normalised form (the domain part
      lower-cased), which is what the handler then sees. */
  datatype UserCreate = UserCreate(username: string, email: string, password: string)

  predicate ValidUserCreate(req: UserCreate, normalize: string -> Option<string>) {
    ValidUsername(req.username) && normalize(req.email).Some? && |req.password| >= PasswordMin
  }

  // ------------------------------------------------------------ questions

  const TitleMin: nat := 5
  const TitleMax: nat := 200
  const DescriptionMin: nat := 10
  const DescriptionMax: nat := 5000
  const TagsMin: nat := 1
  const TagsMax: nat := 10

  predicate ValidTitle(t: string) { TitleMin <= |t| <= TitleMax }

  predicate ValidDescription(d: string) { DescriptionMin <= |d| <= DescriptionMax }

  predicate ValidTagList(tags: seq<string>) { TagsMin <= |tags| <= TagsMax }

  datatype QuestionCreate = QuestionCreate(title: string, description: string, tags: seq<string>)

  predicate ValidQuestionCreate(q: QuestionCreate) {
    ValidTitle(q.title) && ValidDescription(q.description) && ValidTagList(q.tags)
  }

  /** A partial update: every field optional, bounded when present. */
  datatype QuestionUpdate = QuestionUpdate(title: Option<string>, description: Option<string>, tags: Option<seq<string>>)

  predicate ValidQuestionUpdate(u: QuestionUpdate) {
    && (u.title.Some? ==> ValidTitle(u.title.value))
    && (u.description.Some? ==> ValidDescription(u.description.value))
    && (u.tags.Some? ==> ValidTagList(u.tags.value))
  }

  /** An update that sets every field obeys exactly the creation bounds, and
      an update that sets nothing is always accepted. */
  lemma QuestionUpdateBounds(t: string, d: string, tags: seq<string>)
    ensures ValidQuestionUpdate(QuestionUpdate(Some(t), Some(d), Some(tags)))
            <==> ValidQuestionCreate(QuestionCreate(t, d, tags))
    ensures ValidQuestionUpdate(QuestionUpdate(None, None, None))
  {
  }

  // -------------------------------------------------------------- answers

  const ContentMin: nat := 10
  const ContentMax: nat := 10000

  predicate ValidContent(c: string) { ContentMin <= |c| <= ContentMax }

  datatype AnswerUpdate = AnswerUpdate(content: Option<string>)

  predicate ValidAnswerUpdate(u: AnswerUpdate) {
    u.content.Some? ==> ValidContent(u.content.value)
  }

  lemma AnswerUpdateBounds(c: string)
    ensures ValidAnswerUpdate(AnswerUpdate(Some(c))) <==> ValidContent(c)
    ensures ValidAnswerUpdate(AnswerUpdate(None))
  {
  }

  /** The three vote actions. */
  datatype Vote = Upvote | Downvote | Remove

  function VoteName(v: Vote): string {
    match v
    case Upvote => "upvote"
    case Downvote => "downvote"
    case Remove => "remove"
  }

  /** The anchored pattern `^(upvote|downvote|remove)$`: exactly three strings
      are accepted, each naming its action. */
  function ParseVote(s: string): (r: Option<Vote>)
    ensures r.Some? <==> s == "upvote" || s == "downvote" || s == "remove"
    ensures r.Some? ==> VoteName(r.value) == s
  {
    if s == "upvote" then Some(Upvote)
    else if s == "downvote" then Some(Downvote)
    else if s == "remove" then Some(Remove)
    else None
  }

  lemma VoteRoundTrip(v: Vote)
    ensures ParseVote(VoteName(v)) == Some(v)
  {
  }

  // -------------------------------------------------------- notifications

  datatype NotificationType = AnswerNote | Comment | Mention | AcceptedAnswer

  function NotificationTypeName(t: NotificationType): string {
    match t
    case AnswerNote => "answer"
    case Comment => "comment"
    case Mention => "mention"
    case AcceptedAnswer => "accepted_answer"
  }

  /** The notification-type enumeration accepts exactly its four value strings. */
  function ParseNotificationType(s: string): (r: Option<NotificationType>)
    ensures r.Some? ==> NotificationTypeName(r.value) == s
  {
    if s == "answer" then Some(AnswerNote)
    else if s == "comment" then Some(Comment)
    else if s == "mention" then Some(Mention)
    else if s == "accepted_answer" then Some(AcceptedAnswer)
    else None
  }

  lemma NotificationTypeRoundTrip(t: NotificationType)
    ensures ParseNotificationType(NotificationTypeName(t)) == Some(t)
  {
  }

  const MessageMax: nat := 500

  predicate ValidMessage(m: string) { |m| <= MessageMax }
}

=== FILE: text.dfy ===
/** Character classes and the handful of Python string operations the
    text-processing helpers are built from: `lower`, `strip`, `split()`,
    `sep.join`, `startswith` and the substring test `w in t`.

    Python applies these to Unicode text; the model restricts the character
    classes to ASCII: `\w` is `[A-Za-z0-9_]`, letters and digits are ASCII
    letters and digits, and whitespace is the ASCII part of `str.isspace`. */
module Text {

  /** ASCII whitespace as `str.isspace`, `str.split()`, `str.strip()` and the
      regular-expression class `\s` see it: space, 9..13 and 28..31. */
  predicate IsSpace(c: char) {
    c == ' ' || (9 <= c as int <= 13) || (28 <= c as int <= 31)
  }

  predicate IsUpper(c: char) { 'A' <= c <= 'Z' }

  predicate IsLower(c: char) { 'a' <= c <= 'z' }

  predicate IsAlpha(c: char) { IsUpper(c) || IsLower(c) }

  predicate IsDigit(c: char) { '0' <= c <= '9' }

  /** The regular-expression class `\w`. */
  predicate IsWordChar(c: char) { IsAlpha(c) || IsDigit(c) || c == '_' }

  /** `str.lower` on one character. */
  function LowerChar(c: char): (r: char)
    ensures !IsUpper(r)
    ensures IsUpper(c) ==> IsLower(r)
    ensures !IsUpper(c) ==> r == c
  {
    if IsUpper(c) then (c as int + 32) as char else c
  }

  /** `str.lower`. */
  function Lower(s: string): (r: string)
    ensures |r| == |s|
    ensures forall i :: 0 <= i < |s| ==> r[i] == LowerChar(s[i])
  {
    seq(|s|, i requires 0 <= i < |s| => LowerChar(s[i]))
  }

  /** Lower-casing works character by character. */
  lemma LowerSnoc(p: string, c: char)
    ensures Lower(p + [c]) == Lower(p) + [LowerChar(c)]
  {
    var l := Lower(p + [c]);
    assert forall i | 0 <= i < |p| :: l[i] == LowerChar(p[i]);
  }

  lemma LowerKeepsClass(s: string)
    ensures forall c | c in Lower(s) :: !IsUpper(c)
    ensures (forall c | c in s :: IsWordChar(c) || IsSpace(c)) ==>
              (forall c | c in Lower(s) :: IsWordChar(c) || IsSpace(c))
  {
  }

  /** Text without upper-case letters is its own lower-case form. */
  lemma LowerOfLower(s: string)
    requires forall c | c in s :: !IsUpper(c)
    ensures Lower(s) == s
  {
  }

  /** `str.lstrip()`. */
  function LStrip(s: string): (r: string)
    ensures |r| <= |s| && r == s[|s| - |r|..]
    ensures r == [] || !IsSpace(r[0])
    ensures forall c | c in r :: c in s
    ensures s == [] || !IsSpace(s[0]) ==> r == s
  {
    if |s| > 0 && IsSpace(s[0]) then LStrip(s[1..]) else s
  }

  /** `str.rstrip()`. */
  function RStrip(s: string): (r: string)
    ensures |r| <= |s| && r == s[..|r|]
    ensures r == [] || !IsSpace(r[|r| - 1])
    ensures forall c | c in r :: c in s
    ensures r != [] ==> r[0] == s[0]
    ensures s == [] || !IsSpace(s[|s| - 1]) ==> r == s
  {
    if |s| > 0 && IsSpace(s[|s| - 1]) then RStrip(s[..|s| - 1]) else s
  }

  /** No leading and no trailing whitespace. */
  predicate Stripped(s: string) {
    s == [] || (!IsSpace(s[0]) && !IsSpace(s[|s| - 1]))
  }

  /** `str.strip()`: the result is a slice of `s` without leading or trailing
      whitespace, and already-stripped text is returned unchanged. */
  function Strip(s: string): (r: string)
    ensures Stripped(r)
    ensures forall c | c in r :: c in s
    ensures Stripped(s) ==> r == s
  {
    RStrip(LStrip(s))
  }

  /** Length of the longest prefix of `s` whose characters satisfy `p`. */
  function RunLen(s: string, p: char -> bool): (k: nat)
    ensures k <= |s|
    ensures forall i :: 0 <= i < k ==> p(s[i])
    ensures k == |s| || !p(s[k])
  {
    if |s| > 0 && p(s[0]) then 1 + RunLen(s[1..], p) else 0
  }

  /** The first index at or after `from` whose character satisfies `p`, or
      `|s|` when there is none. */
  function FindFirst(s: string, from: nat, p: char -> bool): (j: nat)
    requires from <= |s|
    ensures from <= j <= |s|
    ensures forall k :: from <= k < j ==> !p(s[k])
    ensures j < |s| ==> p(s[j])
    decreases |s| - from
  {
    if from == |s| || p(s[from]) then from else FindFirst(s, from + 1, p)
  }

  /** The characters of `s` that satisfy `p`, in order. */
  function Filter(s: string, p: char -> bool): (r: string)
    ensures |r| <= |s|
    ensures forall c | c in r :: p(c) && c in s
    ensures (forall c | c in s :: p(c)) ==> r == s
  {
    if s == [] then [] else (if p(s[0]) then [s[0]] else []) + Filter(s[1..], p)
  }

  predicate NotSpace(c: char) { !IsSpace(c) }

  predicate NoSpace(w: string) {
    forall c | c in w :: !IsSpace(c)
  }

  /** `str.split()` with no separator: the maximal runs of non-whitespace. */
  function Words(s: string): (r: seq<string>)
    ensures forall w | w in r :: |w| > 0 && NoSpace(w)
    decreases |s|
  {
    if s == [] then []
    else if IsSpace(s[0]) then Words(s[1..])
    else
      var k := RunLen(s, NotSpace);
      [s[..k]] + Words(s[k..])
  }

  /** A non-empty word without whitespace splits into itself alone. */
  lemma WordsOfOneWord(w: string)
    requires |w| > 0 && NoSpace(w)
    ensures Words(w) == [w]
  {
    assert forall i :: 0 <= i < |w| ==> w[i] in w && NotSpace(w[i]);
    var k := RunLen(w, NotSpace);
    assert k == |w|;
    assert w[..k] == w && w[k..] == [];
  }

  /** `sep.join(ps)`. */
  function Join(ps: seq<string>, sep: string): (r: string)
  {
    if |ps| == 0 then []
    else if |ps| == 1 then ps[0]
    else ps[0] + sep + Join(ps[1..], sep)
  }

  /** Joining two non-empty runs of pieces puts one separator between them. */
  lemma {:induction false} JoinAppend(a: seq<string>, b: seq<string>, sep: string)
    requires |a| > 0 && |b| > 0
    ensures Join(a + b, sep) == Join(a, sep) + sep + Join(b, sep)
  {
    if |a| == 1 {
      assert (a + b)[1..] == b;
    } else {
      assert (a + b)[1..] == a[1..] + b;
      JoinAppend(a[1..], b, sep);
    }
  }

  /** Joining a prefix of the pieces gives a prefix of the joined text. */
  lemma JoinPrefix(ps: seq<string>, k: nat, sep: string)
    requires k <= |ps|
    ensures Join(ps[..k], sep) <= Join(ps, sep)
  {
    if 0 < k < |ps| {
      assert ps == ps[..k] + ps[k..];
      JoinAppend(ps[..k], ps[k..], sep);
    } else if k == |ps| {
      assert ps[..k] == ps;
    }
  }

  predicate StartsWith(s: string, p: string) {
    |p| <= |s| && s[..|p|] == p
  }

  /** `w` occurs in `t` starting at index `i`. */
  predicate OccursAt(t: string, w: string, i: nat) {
    i + |w| <= |t| && t[i..i + |w|] == w
  }

  /** Python's `w in t` for strings, scanning left to right. */
  predicate Contains(t: string, w: string)
    decreases |t|
  {
    StartsWith(t, w) || (|t| > 0 && Contains(t[1..], w))
  }

  /** An occurrence at any position is found by the scanner. */
  lemma {:induction false} OccursContains(t: string, w: string, i: nat)
    requires OccursAt(t, w, i)
    ensures Contains(t, w)
    decreases i
  {
    if i > 0 {
      assert t[1..][i - 1..i - 1 + |w|] == t[i..i + |w|];
      OccursContains(t[1..], w, i - 1);
    }
  }

  /** What the scanner finds occurs at some position. */
  lemma {:induction false} ContainsOccurs(t: string, w: string)
    requires Contains(t, w)
    ensures exists i: nat :: OccursAt(t, w, i)
    decreases |t|
  {
    if StartsWith(t, w) {
      assert OccursAt(t, w, 0);
    } else {
      ContainsOccurs(t[1..], w);
      var i: nat :| OccursAt(t[1..], w, i);
      assert t[1..][i..i + |w|] == t[i + 1..i + 1 + |w|];
      assert OccursAt(t, w, i + 1);
    }
  }

  /** The scanner agrees with the positional definition of a substring. */
  lemma ContainsIff(t: string, w: string)
    ensures Contains(t, w) <==> exists i: nat :: OccursAt(t, w, i)
  {
    if Contains(t, w) {
      ContainsOccurs(t, w);
    }
    if exists i: nat :: OccursAt(t, w, i) {
      var i: nat :| OccursAt(t, w, i);
      OccursContains(t, w, i);
    }
  }

  /** Python's slice `xs[:n]`: a negative `n` counts from the end. */
  function SliceTo<T>(xs: seq<T>, n: int): (r: seq<T>)
    ensures r <= xs
    ensures n >= 0 ==> |r| == if n <= |xs| then n else |xs|
    ensures n < 0 ==> |r| == if |xs| + n >= 0 then |xs| + n else 0
  {
    if n >= 0 then (if n <= |xs| then xs[..n] else xs)
    else (if |xs| + n >= 0 then xs[..|xs| + n] else [])
  }

  // ------------------------------------------------------------- numbers

  function DigitChar(d: nat): (c: char)
    requires d < 10
    ensures IsDigit(c)
  {
    ('0' as int + d) as char
  }

  /** `str(n)` for a natural number: decimal digits, most significant first,
      without leading zeros. */
  function Decimal(n: nat): (r: string)
    ensures |r| >= 1 && forall c | c in r :: IsDigit(c)
    ensures |r| > 1 ==> r[0] != '0'
  {
    if n < 10 then [DigitChar(n)]
    else
      var hi := Decimal(n / 10);
      hi + [DigitChar(n % 10)]
  }

  /** The value of a string of decimal digits (`int(s)`). */
  function DecimalValue(s: string): nat
    requires forall c | c in s :: IsDigit(c)
  {
    if s == [] then 0
    else
      assert forall c | c in s[..|s| - 1] :: c in s;
      assert s[|s| - 1] in s && IsDigit(s[|s| - 1]);
      DecimalValue(s[..|s| - 1]) * 10 + (s[|s| - 1] as int - '0' as int)
  }

  /** `int(str(n)) == n`. */
  lemma {:induction false} DecimalRoundTrip(n: nat)
    ensures DecimalValue(Decimal(n)) == n
  {
    if n >= 10 {
      var s := Decimal(n);
      assert s[..|s| - 1] == Decimal(n / 10);
      DecimalRoundTrip(n / 10);
    }
  }
}
